=== FILE: README.md ===
# ThorPrep in Dafny

ThorPrep is a timed online skill-assessment app built with Next.js on a Supabase
database. Its users pick a subject, choose how many questions and which difficulty,
and sit a timed multiple-choice test. The test is scored per topic and stored as a
test result. Users then browse their dashboard and their history. Contributors
submit questions one by one through a wizard, or as a CSV upload. Administrators
manage subjects, topics, questions and users. A setup script creates the schema
through the Supabase Management API.

This project models the logic of those pages and of the script, one Dafny module
per source file:

- `TestStart` models the start page: the question-count menu, the default count, the
  start button, and the address of the test page with its read-back.
- `TestGenerator`, `Scoring` and `TestSession` model the test page.
  - `TestGenerator` covers question selection: the difficulty filter, the 40/40/20
    quotas of a mixed test, and the back-fill loop.
  - `Scoring` covers the scoring loop and the per-topic table with its weak topics.
  - `TestSession` is a class for the running test: answers, flags, navigation, the
    one-second countdown, submission, and the `mm:ss` display.
- `QuestionIntake` holds what the two question pages share: the CSV row, the
  subject/topic lookup, the record built from a row, and the insert tally.
- `QuestionSubmit` models the contributor page: validation, the wizard steps, the
  single submit and the CSV upload, with a `SubmitPage` class for its state.
- `AdminQuestions` models the question manager: the modal form, save, the admin CSV
  upload, and paging, with an `AdminQuestionsPage` class.
- `AdminSubjects` models subjects and topics: the forms, their checks, the topic
  cards and the two deletes, with a `SubjectsPage` class.
- `Dashboard`, `History` and `AdminUsers` model the figures those pages compute from
  loaded results. They share the aggregates of `Stats`: means, maxima, the three
  colour bands, the minutes/seconds split and counts per key.
- `SetupDatabase` models the setup script: reading `.env.local`, the start-up check,
  the project reference, the statement loop with its outcome classification, the
  labels and the summary line.
- `Records`, `Strings` and `Seqs` are supporting definitions. They cover the table
  rows, JavaScript string operations (trim, case mapping, split/join, decimal
  text, padding) and filters, counts and permutations.

Database reads are parameters of the model. Each database write is either returned
as a value or recorded in a field. The database's answer to a write (success, or an
error message) is also a parameter. A shuffle is given as the permutation it
applies.

## Model

Small helpers without contracts of their own (`QuestionSubmit.Key`, `AdminQuestions.Key`, `Scoring.GivenAnswer`, `TestSession.AnsweredCount`, `Dashboard.CountShown`, `Dashboard.RecentBand`, `History.RowBand`, `AdminUsers.AverageBadge`, `TestStart.StartDisabled`, `QuestionSubmit.Plural`, `SetupDatabase.Present`, `SetupDatabase.StatusOk`, `SetupDatabase.ErrorMessage`) are described in the rows of the members that use them. The same holds for `TestSession.ParseTimeParts`, a proof step that unfolds `ParseTime` for `FormatTimeRoundTrip`.

| member | source | states |
|---|---|---|
| TestStart.DefaultNum | src/app/test/start/page.tsx:36 | The count chosen on load is at most 10 and at most the question count. It equals the count when that is below 10, and is 10 when no count came back. |
| TestStart.Options | src/app/test/start/page.tsx:158-163 | The menu holds exactly the fixed choices up to the count, plus the count itself when it is between 1 and 4. |
| TestStart.StandardOptionsUnfold | src/app/test/start/page.tsx:158 | The fixed choices are filtered in order, each one kept when it does not exceed the count. |
| TestStart.StandardOptionsPrefix | src/app/test/start/page.tsx:158 | For each range of counts, the menu shows exactly the fixed choices 5, 10, 15, 20 that it can fill. |
| TestStart.AllAvailableIff | src/app/test/start/page.tsx:161-163 | The "(all available)" entry appears iff 0 < count < 5, and then it is the only entry. Otherwise every entry is a fixed choice. |
| TestStart.OptionsWithinCount | src/app/test/start/page.tsx:158-163 | Every entry is between 1 and the question count. The menu is empty iff there are no questions. |
| TestStart.StartEnabledIffOptions | src/app/test/start/page.tsx:204-207 | For any count the query reports, the start button is enabled exactly when the menu has an entry. |
| TestStart.DefaultOfferedIff | src/app/test/start/page.tsx:36 | The default count is one of the menu's entries iff the subject has 1 to 5 questions or at least 10. |
| TestStart.FirstValue | src/app/test/take/page.tsx:12-14 | Parameter lookup returns the value of the first pair with that name, and None when no pair has it. |
| TestStart.PairRoundTrip | src/app/test/start/page.tsx:43 | A `name=value` pair whose name has no "=" reads back as that name and value. |
| TestStart.QueryOfStartUrl | src/app/test/start/page.tsx:43 | The query part of the start address is the text after its "?". |
| TestStart.Query3Pairs | src/app/test/start/page.tsx:43 | A three-parameter query with no "&" in its parts splits into exactly its three pairs. |
| TestStart.FirstValueAt | src/app/test/take/page.tsx:12-14 | Lookup finds a pair's value when no earlier pair has the same name. |
| TestStart.GetAt | src/app/test/take/page.tsx:12-14 | The lookup on a whole query returns the value of the first pair named so. |
| TestStart.Query3ReadBack | src/app/test/take/page.tsx:12-14 | With distinct names and no separators in the parts, each of the three parameters reads back as its own value. |
| TestStart.ParseNumOfNatToString | src/app/test/take/page.tsx:13 | The number the start page writes parses back to itself, and its text has no "&". |
| TestStart.ParseNum | src/app/test/take/page.tsx:13 | `Number()` on the count: a blank text is 0, and the digits, possibly after "+", are read after trimming white space. `ParseNumOfNatToString` and `EmptyNumIsZero` state what it gives. |
| TestStart.EmptyNumIsZero | src/app/test/take/page.tsx:13 | An empty `num` parameter asks for a test of no questions. |
| TestStart.NumParam | src/app/test/take/page.tsx:13 | The count the test page reads: 10 when `num` is missing, otherwise its value as a number. |
| TestStart.DifficultyParam | src/app/test/take/page.tsx:14 | The difficulty the test page reads: "mixed" when the parameter is missing. |
| TestStart.StartUrl | src/app/test/start/page.tsx:43 | The address the start page navigates to. `StartUrlRoundTrip` proves the test page reads its three values back. |
| TestStart.StartQueryReadBack | src/app/test/take/page.tsx:12-14 | For a subject id and difficulty without "&", the test page reads back the subject, the count and the difficulty the start page wrote. |
| TestStart.StartUrlRoundTrip | src/app/test/start/page.tsx:42-44 | The same read-back, stated on the whole address `startTest` navigates to. |
| TestGenerator.Candidates | src/app/test/take/page.tsx:30-31 | A mixed test draws from the whole pool. Otherwise it draws exactly the questions of the chosen difficulty, or the whole pool when there are none. |
| TestGenerator.SliceTo | src/app/test/take/page.tsx:33 | Slicing to a count gives the front of the list, its length clamped as JavaScript does, negative counts included. |
| TestGenerator.EasyQuota | src/app/test/take/page.tsx:37 | The easy quota is within half a question of 40% of the total. |
| TestGenerator.RoundFifth | src/app/test/take/page.tsx:38 | The rounded fifth is within half a question of 20% of the total. |
| TestGenerator.HardQuota | src/app/test/take/page.tsx:38 | The hard quota is at least 1 and at least the rounded fifth, and it is one of the two. |
| TestGenerator.QuotasSplit | src/app/test/take/page.tsx:37-39 | For a positive total, the three quotas are not negative (the hard one at least 1) and add up to the total. |
| TestGenerator.MediumQuota | src/app/test/take/page.tsx:39 | The medium quota is what the easy and hard quotas leave of the total. `QuotasSplit` proves it is not negative for a positive total. |
| TestGenerator.Selected | src/app/test/take/page.tsx:34-40 | The quota selection: the first easy, medium and hard questions of the shuffled list, up to each quota, in that order. `SelectedDistinct` and `MixedQuota` state its properties. |
| TestGenerator.Filled | src/app/test/take/page.tsx:41-42 | The selection topped up from the unselected questions in shuffled order until the total is reached or they run out. `FilledDistinct` and `GenerateLength` state its properties. |
| TestGenerator.Picked | src/app/test/take/page.tsx:30-43 | The questions before the final shuffle: the first `total` of the shuffled candidates, or in mixed mode of the topped-up selection. |
| TestGenerator.Generate | src/app/test/take/page.tsx:29-44 | The reference definition of a generated test for given shuffle outcomes. `GenerateQuestions` is proved to return it; `GenerateLength`, `GenerateDistinct`, `GenerateFromPool` and `GenerateDifficulty` state its properties. |
| TestGenerator.Backfill | src/app/test/take/page.tsx:42 | The loop appends the front of the remaining questions until the total is reached or they run out, and the result has that length. |
| TestGenerator.GenerateQuestions | src/app/test/take/page.tsx:29-44 | The step-by-step generation returns what the reference definition `Generate` gives for the same pool, total, difficulty and shuffles. |
| TestGenerator.GenerateFromPool | src/app/test/take/page.tsx:29-44 | Every generated question comes from the pool. |
| TestGenerator.SelectedDistinct | src/app/test/take/page.tsx:40 | The quota selection of a list of distinct questions is itself distinct and drawn from that list. |
| TestGenerator.FilterOutCount | src/app/test/take/page.tsx:41 | Removing the selected questions from the shuffled list leaves as many questions as were not selected. |
| TestGenerator.GenerateDistinct | src/app/test/take/page.tsx:29-44 | A pool without duplicates gives a test without duplicates. |
| TestGenerator.FilledDistinct | src/app/test/take/page.tsx:40-42 | The selection after back-fill has no duplicates. |
| TestGenerator.GenerateLength | src/app/test/take/page.tsx:29-44 | The test has the requested number of questions, or all the candidates when there are fewer. |
| TestGenerator.GenerateDifficulty | src/app/test/take/page.tsx:30-33 | When the chosen difficulty has questions, every question of the test has that difficulty. |
| TestGenerator.MixedQuota | src/app/test/take/page.tsx:34-43 | When each difficulty has enough questions, a mixed test holds exactly the easy, medium and hard quotas. |
| TestGenerator.QuotaCounts | src/app/test/take/page.tsx:40 | Concatenating an easy, a medium and a hard list gives each difficulty the length of its own list. |
| Scoring.Score | src/app/test/take/page.tsx:57-60 | The score is at most the number of questions. |
| Scoring.IsCorrect | src/app/test/take/page.tsx:58-59 | A question is correct when the recorded answer, "" when missing, equals its correct answer exactly. `NoAnswersScoreZero` and `CaseMismatchScoresZero` follow from it. |
| Scoring.TopicKey | src/app/test/take/page.tsx:61 | The topic key is the question's topic id, or "general" without one. |
| Scoring.Performance | src/app/test/take/page.tsx:57-65 | The reference topic table, built question by question. `PerformanceCounts` proves each entry counts its topic's questions and correct answers; `PerformanceSums` proves the totals add up. |
| Scoring.Accuracy | src/app/test/take/page.tsx:67 | The percentage correct, or 0 with no questions. `AccuracyBounds` proves its range and extremes. |
| Scoring.IsWeak | src/app/test/take/page.tsx:69 | A topic is weak when it has questions and under half of them, as a real ratio, were correct. `WeakIsUnderHalf` restates it over the integers. |
| Scoring.Keys | src/app/test/take/page.tsx:55 | The topic table's keys in insertion order, one per entry. |
| Scoring.EntryIndex | src/app/test/take/page.tsx:62 | The position of a topic's entry, which holds that key, or the table's length iff the topic has no entry yet. |
| Scoring.Tally | src/app/test/take/page.tsx:61-64 | Counting a question keeps the table's keys and adds its topic at the end when the topic is new. |
| Scoring.WeakTopics | src/app/test/take/page.tsx:68-70 | The weak topics are exactly the keys of weak entries. |
| Scoring.ScoreAnswers | src/app/test/take/page.tsx:54-65 | The scoring loop computes the reference score and the reference per-topic table. |
| Scoring.CountsStep | src/app/test/take/page.tsx:61-64 | One more question adds one to its topic's total, and one to its correct count when answered correctly. |
| Scoring.TallyKeysDistinct | src/app/test/take/page.tsx:62 | The table never holds two entries for one topic. |
| Scoring.TallyKeepsTable | src/app/test/take/page.tsx:61-64 | Counting a question keeps each entry equal to the totals and correct counts of its topic's questions so far. |
| Scoring.PerformanceCounts | src/app/test/take/page.tsx:57-65 | Every entry of the final table holds its topic's question count and correct count. |
| Scoring.CorrectAtMostTotal | src/app/test/take/page.tsx:63-64 | A topic's correct count never exceeds its total. |
| Scoring.SumsUpdate | src/app/test/take/page.tsx:63-64 | Replacing one entry changes the table's sums by that entry's change. |
| Scoring.SumsAppend | src/app/test/take/page.tsx:62 | A new entry adds its counts to the table's sums. |
| Scoring.PerformanceSums | src/app/test/take/page.tsx:57-65 | The topic totals add up to the number of questions, and the correct counts add up to the score. |
| Scoring.TallySums | src/app/test/take/page.tsx:61-64 | Each counted question adds one to the total sum, and one to the correct sum when correct. |
| Scoring.WeakIsUnderHalf | src/app/test/take/page.tsx:69 | A topic is weak iff it has questions and fewer than half of them were answered correctly. |
| Scoring.WeakTopicsExact | src/app/test/take/page.tsx:57-70 | A topic is reported weak iff the test has questions on it and fewer than half of those were answered correctly. |
| Scoring.EntryIsWeak | src/app/test/take/page.tsx:68-70 | An entry of a faithful table is weak iff its topic has under half correct. |
| Scoring.AccuracyBounds | src/app/test/take/page.tsx:67 | Accuracy lies in [0, 100]. It is 100 iff every question is correct, and 0 iff none is. |
| Scoring.NoAnswersScoreZero | src/app/test/take/page.tsx:58-60 | A test submitted with no answers scores 0. |
| Scoring.NoAnswersNoneCorrect | src/app/test/take/page.tsx:57-64 | With no answers, no question of any topic counts as correct. |
| Scoring.CaseMismatchScoresZero | src/app/test/take/page.tsx:59 | When stored answers are lower-case letters, as the schema demands, and the chosen ones are upper-case letters, as the page offers, the score is 0. |
| TestSession.ResultOf | src/app/test/take/page.tsx:53-82 | The stored result has the questions' count, a score at most that count, time taken equal to the total time minus the time left, and the answers given. |
| TestSession.BuildResult | src/app/test/take/page.tsx:53-82 | The scoring pass of the submit handler builds exactly the result row above, from one pass over the questions. |
| TestSession.ResultConsistent | src/app/test/take/page.tsx:53-82 | In a stored result the topic totals sum to the question count and the correct counts to the score. Accuracy is in [0, 100], and the weak topics are exactly those under half correct. |
| TestSession.NextTime | src/app/test/take/page.tsx:111-117 | One tick counts down by one second, and reaches 0 from 1 or below. |
| TestSession.CountdownValue | src/app/test/take/page.tsx:110-118 | After n ticks the time left is the larger of t − n and 0. |
| TestSession.Toggle | src/app/test/take/page.tsx:271-275 | Flagging toggles exactly the current question. |
| TestSession.ToggleTwice | src/app/test/take/page.tsx:271-275 | Flagging twice restores the flags. |
| TestSession.AnsweredAfterChoose | src/app/test/take/page.tsx:303 | Choosing an option raises the answered count by one iff the question had no answer. |
| TestSession.AnsweredAfterClear | src/app/test/take/page.tsx:330-331 | Clearing lowers the answered count by one iff the question had an answer. |
| TestSession.IdsBound | src/app/test/take/page.tsx:137 | A test has no more distinct question ids than questions. |
| TestSession.AnsweredAtMostQuestions | src/app/test/take/page.tsx:137 | The answered count never exceeds the number of questions. |
| TestSession.Pad2 | src/app/test/take/page.tsx:130-131 | A padded number is all digits and at least two long, exactly two long iff below 100. |
| TestSession.FormatTime | src/app/test/take/page.tsx:129-133 | The display is digits, a colon, then two digits. It is five characters iff under 100 minutes. |
| TestSession.NatToStringWidth | src/app/test/take/page.tsx:130 | Numbers from 100 up have at least three digits. |
| TestSession.LeadingZeros | src/app/test/take/page.tsx:130-131 | Zero padding keeps a number's value. |
| TestSession.FormatTimeRoundTrip | src/app/test/take/page.tsx:129-133 | The display shows the whole minutes (`floor(sec / 60)`) before the colon and the leftover seconds (`sec % 60`) after it, so 90 shows as "01:30"; reading it back gives the original number of seconds. |
| TestSession.Pad2Value | src/app/test/take/page.tsx:130-131 | A padded number reads back as itself. |
| TestSession.Session.constructor | src/app/test/take/page.tsx:98-102 | A loaded test starts on question 1 with the subject's duration in seconds, no answers, no flags, and nothing submitted. |
| TestSession.Session.Answered | src/app/test/take/page.tsx:137 | The answered count never exceeds the number of questions. |
| TestSession.Session.Choose | src/app/test/take/page.tsx:303 | The current question's answer becomes the option, and nothing else changes. |
| TestSession.Session.Clear | src/app/test/take/page.tsx:330-331 | The current question's answer is removed, and nothing else changes. |
| TestSession.Session.ToggleFlag | src/app/test/take/page.tsx:271-275 | The current question's flag is toggled, and nothing else changes. |
| TestSession.Session.Previous | src/app/test/take/page.tsx:323-324 | Moves back one question, except on the first. |
| TestSession.Session.Next | src/app/test/take/page.tsx:338-339 | Moves on one question, except on the last. |
| TestSession.Session.GoTo | src/app/test/take/page.tsx:361 | The palette jumps to the chosen question. |
| TestSession.Session.Submit | src/app/test/take/page.tsx:46-82 | The first submission stores exactly one result built from the current answers and time. Any later one stores nothing. |
| TestSession.Session.Tick | src/app/test/take/page.tsx:107-119 | Before submission, a tick counts down. At 1 second or less it sets the time to 0 and submits the current answers with the time seen before the tick, as intended (the code as written is under Findings). After submission a tick changes nothing. |
| TestSession.StaleAutoResult | src/app/test/take/page.tsx:107-119 | The automatic submit as written: the result carries no answers and a time taken of 0, for all the test's questions. |
| TestSession.StaleAutoResultScoresZero | src/app/test/take/page.tsx:46-82 | That result scores 0 with accuracy 0, and every topic of the test is weak. |
| TestSession.StaleAutoSubmitCounterexample | src/app/test/take/page.tsx:107-119 | A one-question test answered correctly that reaches 1 second left on a 60-second limit scores 1 in 59 seconds as intended (the submit reads the time left before the final tick), but 0 in 0 seconds as written. |
| QuestionIntake.FieldOr | src/app/questions/submit/page.tsx:102-111 | A cell's text, or the fallback when the row has no such column. |
| QuestionIntake.RecordFromRow | src/app/admin/questions/page.tsx:98-108 | Each field comes from its long header, else its short header, else its default. The answer is the upper-cased `correct_answer`, else `answer`, else "A"; the difficulty defaults to "medium". |
| QuestionIntake.FindSubject | src/app/questions/submit/page.tsx:93-95 | Returns the first subject whose lower-cased name matches, and None iff none matches. |
| QuestionIntake.FindSubjectFrom | src/app/questions/submit/page.tsx:93-95 | The same search from a given position on. |
| QuestionIntake.FindTopic | src/app/questions/submit/page.tsx:96-99 | Returns the first topic, in list order, of the matched subject with that lower-cased name, and None iff there is none (always None without a subject). |
| QuestionIntake.FindTopicFrom | src/app/questions/submit/page.tsx:96-99 | The first matching topic at or after a given position, and None iff there is none from there on. |
| QuestionIntake.TopicIdOf | src/app/questions/submit/page.tsx:103 | A found topic gives its id; no topic gives no id. |
| QuestionIntake.Stored | src/app/questions/submit/page.tsx:100-113 | At most one record is stored per row. |
| QuestionIntake.StoredFromAttempts | src/app/questions/submit/page.tsx:100-113 | Every stored record is the record of a row that reached the insert and that the database accepted. |
| QuestionIntake.Tally | src/app/questions/submit/page.tsx:91-113 | The counting loop stores exactly the accepted records, counts them as inserted, and counts every other row as failed. |
| QuestionIntake.RowRecordNeverAdmitted | src/app/admin/questions/page.tsx:106 | A record built from a CSV row never passes the schema's lower-case answer check. |
| QuestionIntake.NothingStoredUnderSchema | src/app/questions/submit/page.tsx:100-113 | When the database applies that check, an upload stores nothing. |
| QuestionSubmit.Validate | src/app/questions/submit/page.tsx:53-60 | The message is empty iff there is a subject, a non-blank question and four options. Otherwise it is the first failing check's message, in order. |
| QuestionSubmit.StepValid | src/app/questions/submit/page.tsx:146-151 | Step 1 needs a subject, step 2 a trimmed question longer than 10 UTF-16 code units, and step 3 all four options. Any other step passes. |
| QuestionSubmit.AstralTextPassesStep2 | src/app/questions/submit/page.tsx:148 | Six characters from outside the Basic Multilingual Plane pass the step-2 length test: they are twelve code units, though only six characters. |
| Strings.Utf16Length | src/app/questions/submit/page.tsx:148 | `length` counts code units: between one and two per character, exactly one each for text inside the Basic Multilingual Plane and two each for text outside it. |
| QuestionSubmit.StepsImplyValid | src/app/questions/submit/page.tsx:53-60 | A form that passes steps 1 to 3 passes the final validation. |
| QuestionSubmit.SingleRecord | src/app/questions/submit/page.tsx:67-71 | The inserted record carries the form's subject, text, four options, answer and difficulty, a null topic iff none was chosen, and the contributor as its author. |
| QuestionSubmit.MapRow | src/app/questions/submit/page.tsx:92-112 | A row is skipped iff no subject has its trimmed, lower-cased name or it has no question text. Otherwise the record is the row's record with the id of the first matching subject, the id of the first matching topic of that subject or none, and the contributor as author; its answer has no lower-case letter. |
| QuestionSubmit.UploadNotice | src/app/questions/submit/page.tsx:117-121 | Success iff at least one row was inserted, otherwise an error. |
| QuestionSubmit.UploadNoticeCounts | src/app/questions/submit/page.tsx:117-121 | The success text starts with the inserted count and the error text with the failed count. |
| QuestionSubmit.SubmitPage.constructor | src/app/questions/submit/page.tsx:22-32 | The page opens in single mode on step 1 with an empty form and no messages. |
| QuestionSubmit.SubmitPage.SelectMode | src/app/questions/submit/page.tsx:208 | Switching mode clears the messages and the preview and returns to step 1, keeping the form. |
| QuestionSubmit.SubmitPage.SelectSubject | src/app/questions/submit/page.tsx:297 | Choosing a subject also clears the topic. |
| QuestionSubmit.SubmitPage.EditFields | src/app/questions/submit/page.tsx:305-406 | Editing fields keeps the subject and changes nothing else. |
| QuestionSubmit.SubmitPage.Back | src/app/questions/submit/page.tsx:480-481 | Goes back one step and clears the error. On step 1 the button is disabled and nothing changes. The form, the count, the stored rows, the success message, the mode and the CSV preview are kept. |
| QuestionSubmit.SubmitPage.Continue | src/app/questions/submit/page.tsx:485-489 | Advances one step and clears the error iff the current step is valid and not the last; otherwise step and error stay. Everything else is kept. |
| QuestionSubmit.SubmitPage.SubmitSingle | src/app/questions/submit/page.tsx:62-79 | An invalid form or a database error shows its message, stores nothing and keeps the success message. Success stores the record once, adds one to the contributor's count, shows the success message and resets the form (keeping the subject) to step 1. The mode and the CSV preview are kept. |
| QuestionSubmit.SubmitPage.FinishUpload | src/app/questions/submit/page.tsx:90-121 | The preview is the first five rows and the count grows by the rows inserted. The notice is a success iff any were inserted. |
| QuestionSubmit.UploadRows | src/app/questions/submit/page.tsx:91-114 | The upload stores exactly the accepted records of the rows that map, and inserted + failed is the number of rows. |
| QuestionSubmit.Attempts | src/app/questions/submit/page.tsx:92-112 | One attempt per row: attempt i is the mapping of row i. |
| QuestionSubmit.UploadUnderSchema | src/app/questions/submit/page.tsx:100-113 | Under the schema's answer check, a contributor upload stores nothing. |
| AdminQuestions.Payload | src/app/admin/questions/page.tsx:64 | The written record carries the form's fields, a null topic iff the form's topic is empty, and no author. |
| AdminQuestions.EditForm | src/app/admin/questions/page.tsx:55 | Editing copies the question into the form, with an absent topic shown as "". |
| AdminQuestions.EditSaveRoundTrip | src/app/admin/questions/page.tsx:53-64 | Opening a question for editing and saving it unchanged writes back the same fields. |
| AdminQuestions.ContributorFormsComplete | src/app/admin/questions/page.tsx:63 | Any form the contributor page accepts passes the admin check. |
| AdminQuestions.Complete | src/app/admin/questions/page.tsx:63 | The admin save guard: subject, text and all four options are non-empty, untrimmed. `ContributorFormsComplete` and `BlankTextPassesAdminOnly` compare it with the contributor check. |
| AdminQuestions.BlankTextPassesAdminOnly | src/app/admin/questions/page.tsx:63 | A question text of one space passes the admin check but not the contributor validation. |
| AdminQuestions.MapRow | src/app/admin/questions/page.tsx:95-108 | A row is skipped iff no subject matches its lower-cased name. Otherwise the record is the row's record with the id of the first matching subject, the id of the first matching topic or none, and no author. |
| AdminQuestions.MissingTextStillUploaded | src/app/admin/questions/page.tsx:101 | A row without question text is sent with empty text here, while the contributor page skips it. |
| AdminQuestions.Attempts | src/app/admin/questions/page.tsx:94-108 | One attempt per row: attempt i is the mapping of row i. |
| AdminQuestions.UploadRows | src/app/admin/questions/page.tsx:93-110 | The upload stores exactly the accepted records of the rows that map, and inserted + failed is the number of rows. |
| AdminQuestions.BulkMessageCounts | src/app/admin/questions/page.tsx:112 | The summary message determines both counts. |
| AdminQuestions.BulkMessage | src/app/admin/questions/page.tsx:112 | The upload summary with the inserted and failed counts. `BulkMessageCounts` proves it determines both. |
| AdminQuestions.PageRows | src/app/admin/questions/page.tsx:39 | A page holds at most 20 rows, and it is not empty when its range starts inside the list. |
| AdminQuestions.RangeStart | src/app/admin/questions/page.tsx:39 | The first index page `page` asks for, 20 per page. |
| AdminQuestions.RangeEnd | src/app/admin/questions/page.tsx:39 | The last index, inclusive, page `page` asks for. |
| AdminQuestions.RowLabel | src/app/admin/questions/page.tsx:180 | The number shown beside a row. `LabelIsPosition` and `LabelsDistinct` state its properties. |
| AdminQuestions.PrevEnabled | src/app/admin/questions/page.tsx:201 | "Prev" is enabled except on the first page. |
| AdminQuestions.NextEnabled | src/app/admin/questions/page.tsx:203 | "Next" is enabled only after a full page. `ShortPageIsLast` and `NextMayLeadToEmptyPage` state what that means for the pages. |
| AdminQuestions.LabelIsPosition | src/app/admin/questions/page.tsx:180 | The number beside a row is its 1-based position in the whole filtered list. |
| AdminQuestions.LabelsDistinct | src/app/admin/questions/page.tsx:180 | No two rows of any pages share a number. |
| AdminQuestions.ShortPageIsLast | src/app/admin/questions/page.tsx:203 | When "Next" is disabled, every later page is empty. |
| AdminQuestions.NextMayLeadToEmptyPage | src/app/admin/questions/page.tsx:203 | With exactly 20 questions, "Next" is enabled and leads to an empty page. |
| AdminQuestions.AdminQuestionsPage.constructor | src/app/admin/questions/page.tsx:13-21 | The page starts on page 0, with no filters, the modal closed, an empty form and no messages. |
| AdminQuestions.AdminQuestionsPage.OpenAdd | src/app/admin/questions/page.tsx:46-51 | Opens a blank form preset to the first subject, if any. |
| AdminQuestions.AdminQuestionsPage.OpenEdit | src/app/admin/questions/page.tsx:53-58 | Opens the form on a copy of the question. |
| AdminQuestions.AdminQuestionsPage.Save | src/app/admin/questions/page.tsx:60-76 | An incomplete form shows "All fields except topic are required" and writes nothing. A complete form writes an update or an insert. The modal closes with a success message iff the database accepts. |
| AdminQuestions.AdminQuestionsPage.SetFilterSubject | src/app/admin/questions/page.tsx:147 | Changing the subject filter returns to page 0. |
| AdminQuestions.AdminQuestionsPage.SetFilterDifficulty | src/app/admin/questions/page.tsx:151 | Changing the difficulty filter returns to page 0. |
| AdminQuestions.AdminQuestionsPage.Prev | src/app/admin/questions/page.tsx:201 | Goes back a page unless on page 0. |
| AdminQuestions.AdminQuestionsPage.Next | src/app/admin/questions/page.tsx:203 | Goes forward a page iff the current page came back full. |
| AdminQuestions.AdminQuestionsPage.FinishUpload | src/app/admin/questions/page.tsx:112 | The upload always ends with the summary message. |
| AdminSubjects.ApplySubjectForm | src/app/admin/subjects/page.tsx:43 | Saving a form over a subject keeps its id. |
| AdminSubjects.EditSubjectUnchangedIff | src/app/admin/subjects/page.tsx:34-43 | Editing and saving a subject unchanged leaves it as it was iff it has a description. A null description is saved as "". |
| AdminSubjects.SubjectFormOf | src/app/admin/subjects/page.tsx:32-37 | The subject form: the subject's fields with a missing description as "", or the blank form. `EditSubjectUnchangedIff` states the round trip through it. |
| AdminSubjects.SubjectError | src/app/admin/subjects/page.tsx:41 | A subject form is refused iff its name is blank. |
| AdminSubjects.TopicError | src/app/admin/subjects/page.tsx:78-79 | A topic form is refused iff its name is blank or it has no subject, with the name checked first. |
| AdminSubjects.DefaultTopicSubject | src/app/admin/subjects/page.tsx:64 | A new topic belongs to the given subject, else to the first subject, else to none. |
| AdminSubjects.HeaderTopicNeedsSubjects | src/app/admin/subjects/page.tsx:107 | A topic added from the header is refused for want of a subject iff there are no subjects and its name is not blank. |
| AdminSubjects.TopicsOf | src/app/admin/subjects/page.tsx:119 | A subject's card lists exactly the topics of that subject. |
| AdminSubjects.TopicOnItsCard | src/app/admin/subjects/page.tsx:118-120 | When every topic's subject exists, each topic appears on exactly one card, its subject's. |
| AdminSubjects.DropTopicsOf | src/app/admin/subjects/page.tsx:57 | The first delete removes exactly the subject's topics. |
| AdminSubjects.DropSubject | src/app/admin/subjects/page.tsx:58 | The second delete removes exactly the subject. |
| AdminSubjects.DeleteOrderKeepsReferences | src/app/admin/subjects/page.tsx:55-58 | Deleting the topics first keeps every topic's subject present, after each of the two deletes. |
| AdminSubjects.OtherCardsUnchanged | src/app/admin/subjects/page.tsx:57 | Deleting one subject's topics leaves every other card's list unchanged. |
| AdminSubjects.SubjectsPage.constructor | src/app/admin/subjects/page.tsx:9-18 | The page starts with both modals closed, blank forms (20 minutes), no messages and no open card. |
| AdminSubjects.SubjectsPage.ToggleCard | src/app/admin/subjects/page.tsx:120-125 | Clicking a card closes it if open, else opens it. At most one card is open. |
| AdminSubjects.SubjectsPage.OpenEditSubject | src/app/admin/subjects/page.tsx:32-37 | Opens the subject modal on the subject's form, or on the blank form. |
| AdminSubjects.SubjectsPage.SaveSubject | src/app/admin/subjects/page.tsx:39-53 | A blank name shows its message and writes nothing. Otherwise it writes an update or an insert, and closes with a success message iff the database accepts. |
| AdminSubjects.SubjectsPage.OpenAddTopic | src/app/admin/subjects/page.tsx:62-67 | Opens the topic modal on a new topic under the given or default subject. |
| AdminSubjects.SubjectsPage.OpenEditTopic | src/app/admin/subjects/page.tsx:69-74 | Opens the topic modal on the topic's name and subject. |
| AdminSubjects.SubjectsPage.SaveTopic | src/app/admin/subjects/page.tsx:76-91 | A refused form shows the first failing check and writes nothing. Otherwise it writes an update or an insert, and closes with a success message iff the database accepts. |
| AdminSubjects.SubjectsPage.DeleteSubject | src/app/admin/subjects/page.tsx:55-60 | Once confirmed, removes the subject and its topics, and keeps every topic's subject present. A refusal changes nothing. |
| AdminSubjects.SubjectsPage.DeleteTopic | src/app/admin/subjects/page.tsx:93-97 | Once confirmed, removes exactly that topic. A refusal changes nothing. |
| Dashboard.CountBySubject | src/app/dashboard/page.tsx:30-31 | The table has an entry exactly for each subject id among the question rows, and each card shows the number of rows of its subject. |
| Dashboard.Ids | src/app/dashboard/page.tsx:101 | The subjects' ids in card order. |
| Dashboard.CardTotalCountsRows | src/app/dashboard/page.tsx:101 | The cards' counts add up to at most the number of questions, and to exactly that when every question's subject has a card. |
| Dashboard.CardTotalIsSum | src/app/dashboard/page.tsx:101 | The cards' counts add up to the occurrences of their subjects among the rows. |
| Dashboard.AverageShown | src/app/dashboard/page.tsx:39 | "—" iff there are no recent results, else their mean accuracy. |
| Dashboard.BestShown | src/app/dashboard/page.tsx:40 | "—" iff there are no recent results, else the highest accuracy among them. |
| Dashboard.Headline | src/app/dashboard/page.tsx:25-40 | The tiles cover at most 5 results. Average and best are "—" together, and the average never exceeds the best. |
| History.Filtered | src/app/history/page.tsx:32 | No filter lists every result. A filter lists exactly that subject's results. |
| History.FilteredTwice | src/app/history/page.tsx:32 | Filtering is idempotent. |
| History.AverageOrZero | src/app/history/page.tsx:35 | 0 without results, else the mean accuracy. |
| History.BestOrZero | src/app/history/page.tsx:36 | 0 without results, else the highest accuracy. |
| History.TilesBounds | src/app/history/page.tsx:34-36 | The average never exceeds the best. Both lie in [0, 100] when every accuracy does. |
| Stats.Duration | src/app/history/page.tsx:92 | A non-negative time taken is shown as minutes and seconds (under 60) that recombine to it; the admin results table shows the same (src/app/admin/users/page.tsx:103). |
| History.WeakNote | src/app/history/page.tsx:93 | The weak-topics note appears iff the result has weak topics, and it shows their number. |
| AdminUsers.ResultsOf | src/app/admin/users/page.tsx:25 | Exactly the loaded results of the user. |
| AdminUsers.UserIdsOf | src/app/admin/users/page.tsx:25 | The user id of each loaded result, in order. |
| AdminUsers.ProfileIds | src/app/admin/users/page.tsx:24 | The profiles' ids, in table order. |
| AdminUsers.ResultsOfCount | src/app/admin/users/page.tsx:25-27 | A user's test count is the number of loaded results with that user's id. |
| AdminUsers.StatOf | src/app/admin/users/page.tsx:24-28 | A row carries the profile, its number of loaded results, and the mean accuracy of those results (0 without any). |
| AdminUsers.StatMeaning | src/app/admin/users/page.tsx:25-27 | The test count counts the user's results. The average is 0 without results, never exceeds the user's best, and lies in [0, 100] when every accuracy does. |
| AdminUsers.UserStats | src/app/admin/users/page.tsx:24-28 | One row per user, in user order. |
| AdminUsers.TotalCountIsSum | src/app/admin/users/page.tsx:24-28 | The test counts add up to the occurrences of the users' ids among the results. |
| AdminUsers.TestCountsWithinLoaded | src/app/admin/users/page.tsx:14-28 | With distinct user ids, the test counts add up to at most the 50 loaded results, and to exactly that when every result's user is listed. |
| AdminUsers.AverageCell | src/app/admin/users/page.tsx:72-77 | The cell shows "—" iff the user has no tests, else the average. |
| AdminUsers.ResultBadgeOf | src/app/admin/users/page.tsx:102 | The success badge appears iff the accuracy is at least 70. |
| Stats.Newest | src/app/dashboard/page.tsx:25 | A limited query gives the first n rows, or all of them when there are fewer. |
| Stats.Max | src/app/dashboard/page.tsx:40 | The maximum is one of the values and bounds all of them. |
| Stats.MeanAtMostMax | src/app/history/page.tsx:35-36 | The mean accuracy never exceeds the best. |
| Stats.MeanWithin | src/app/history/page.tsx:35 | The mean of accuracies in [0, 100] lies in [0, 100]. |
| Stats.Mean | src/app/history/page.tsx:35 | The sum of the accuracies divided by their number. `MeanWithin` and `MeanAtMostMax` state its bounds. |
| Stats.BandOf | src/app/history/page.tsx:82 | Green iff at least 70, amber iff in [40, 70), red iff below 40. |
| Stats.BandMonotone | src/app/dashboard/page.tsx:69 | A higher accuracy never gets a worse colour. |
| Stats.SplitRecombinesIff | src/app/history/page.tsx:92 | Minutes and seconds recombine to the time iff it is not negative or is whole minutes. A non-negative time has seconds under 60. |
| Stats.Minutes | src/app/history/page.tsx:92 | Whole minutes, rounded down, as `Math.floor(t / 60)`. |
| Stats.Seconds | src/app/history/page.tsx:92 | The seconds shown, as JavaScript's `t % 60`, with the sign of `t`. `SplitRecombinesIff` relates both to the duration. |
| SetupDatabase.EntryOfLine | setup-database.mjs:21-24 | A kept line's entry is the trimmed text before its first "=" and the trimmed rest, so the key has no "=". |
| SetupDatabase.Kept | setup-database.mjs:20 | A line is read when it holds "=" and does not start with "#". `KeptLinesGiveEntries` and `EntriesFromKeptLines` relate it to the entries. |
| SetupDatabase.EntryOf | setup-database.mjs:21-24 | A line's entry: the trimmed text before the first "=" and the trimmed rest rejoined with "=". `EntryOfLine` states its shape. |
| SetupDatabase.Entries | setup-database.mjs:17-25 | At most one entry per line. |
| SetupDatabase.KeptLinesGiveEntries | setup-database.mjs:20-24 | Every line with "=" that is not a comment gives an entry. |
| SetupDatabase.EntriesFromKeptLines | setup-database.mjs:20-24 | Every entry comes from such a line. |
| SetupDatabase.FromEntriesLastWins | setup-database.mjs:17-25 | A key is set iff some entry has it, and its value is that of the last such entry. |
| SetupDatabase.FromEntries | setup-database.mjs:17 | `Object.fromEntries`, adding entries in order. `FromEntriesLastWins` proves a later entry replaces an earlier one. |
| SetupDatabase.Env | setup-database.mjs:15-25 | The environment read from `.env.local`: its lines split on newlines, kept and collected. |
| SetupDatabase.ProjectRef | setup-database.mjs:36 | The project reference contains no dot. |
| SetupDatabase.StripScheme | setup-database.mjs:36 | Removing the first "https://" from a URL that starts with it leaves the rest. |
| SetupDatabase.ProjectRefOfUrl | setup-database.mjs:36 | For a `https://ref.domain` URL the reference is `ref`. |
| SetupDatabase.Startup | setup-database.mjs:27-33 | The script exits with code 1 iff the URL or the key is missing or empty. Otherwise it proceeds with both and the project reference. |
| SetupDatabase.OkCount | setup-database.mjs:305-332 | No more statements succeed than were run. |
| SetupDatabase.RunStatements | setup-database.mjs:305-332 | The loop counts as ok the statements that succeeded or already existed, and every other one as failed. |
| SetupDatabase.Succeeded | setup-database.mjs:313-331 | A statement counts as ok on a 2xx reply or on an error whose message says "already exists" or "duplicate". A thrown request or a body that is not JSON counts as a failure. `RerunFailsNothing` follows from it. |
| SetupDatabase.Label | setup-database.mjs:310 | A statement's label is its entry in the list, or "Statement n" past it. `EveryStatementLabelled` and `FallbackLabelsDistinct` state its properties. |
| SetupDatabase.NoFailureIffAllSucceed | setup-database.mjs:309-332 | Nothing fails iff every statement's outcome counts as a success. |
| SetupDatabase.RerunFailsNothing | setup-database.mjs:318-322 | A rerun where each statement either succeeds or reports "already exists" has no failures. |
| SetupDatabase.EveryStatementLabelled | setup-database.mjs:290-310 | Each of the statements the script sends has its own entry in the label list. The number of statements is the constant `StatementCount` (33): the SQL list itself is not modelled. |
| SetupDatabase.FallbackLabelsDistinct | setup-database.mjs:310 | A statement past the label list would get a "Statement n" label distinct from every other fallback. The current script never uses one, since its list has a label for every statement. |
| SetupDatabase.SummaryAllDone | setup-database.mjs:334-342 | The summary announces "All done" iff nothing failed. |
| SetupDatabase.Summary | setup-database.mjs:334-342 | The closing line: "All done" with the ok count when nothing failed, otherwise both counts. |

## Left out

- Supabase I/O is left out: the queries, their ordering by name or date, the joins on subject names, and the reloads after a write. A read is a parameter and a write is a returned value or a recorded field.
- The database's answer to each write is a parameter (`storeError`, `accepted`), and the schema's own checks are not enforced on it. The schema stores correct answers in lower case, while both pages store upper case and the test page compares case-sensitively. `Scoring.CaseMismatchScoresZero`, `QuestionIntake.RowRecordNeverAdmitted`, `QuestionIntake.NothingStoredUnderSchema` and `QuestionSubmit.UploadUnderSchema` state what follows when the database enforces that check.
- CSV parsing by Papa.parse is left out: a row is a map from the headers the pages read to cell text. Other headers are never read.
- React scheduling is left out: effects, re-renders, `setTimeout` message clearing and loading flags.
- `TestSession.Session.Tick` submits with the current answers and time, as evidently intended. As written, the interval keeps the `handleSubmit` of the render that started it, so its automatic submit sends no answers and a time taken of 0; `TestSession.StaleAutoResult` models that result and Findings states the discrepancy.
- The shuffles of the test page use a random comparator; the model takes the permutation they produce as a parameter. Any bias of comparator sorting is not modelled.
- Floating point is left out: accuracies and means are exact reals, and `toFixed` rounding in displays is not modelled.
- Date formatting and the emoji prefixes of the pages' messages are left out (the setup script's summary keeps its own), as are CSS classes other than the colour bands and badges.
- `TestStart.ParseNum` models the part of JavaScript's `Number()` that yields a whole count: blank text is 0, surrounding white space is ignored and one leading "+" is accepted. Fractions ("7.5"), exponents ("1e1"), hexadecimal ("0x10"), negative numbers, "Infinity" and text that gives NaN are not modelled; `ParseNum` returns None for them.
- `TestGenerator` removes the selected questions from the pool by value, where `!selected.includes(q)` compares object identity. Pool rows carry distinct primary-key ids, so the two agree on every pool the database can return.
- Case mapping covers ASCII letters only.
- The query string read-back assumes the subject id and difficulty carry no `&` (URL escaping is not modelled).
- The setup script's HTTPS transport, SQL text, console output and `padEnd` layout are left out. A statement's outcome is a parameter. A reply body's JSON `message` is modelled only as text or missing.
- `TestSession.Session`, `QuestionSubmit.SubmitPage`, `AdminQuestions.AdminQuestionsPage` and `AdminSubjects.SubjectsPage` model the handlers named in the table. The delete of a question (`deleteQ`) is a confirmed database delete followed by a reload; it has no state of its own to model.
- The CSV handlers are split along their own seams: `UploadRows` for the insert loop and `FinishUpload` for the page state updated after it.
- `TestSession.Session.Choose`, `Clear` and `ToggleFlag` require a non-empty test. An empty pool sends the user back to the dashboard, but a non-empty pool with `num=0` still gives an empty test; the page then reads `questions[current].difficulty` while rendering (src/app/test/take/page.tsx:151 and 268) and fails before any of these handlers can run.
- `TestSession.ResultOf`: the time taken is not clamped at 0, following the code (`totalTime - timeLeft`).
- `TestStart.DefaultOfferedIff`: with 6 to 9 questions the page starts with a count of that many, which the menu does not list.
- `Stats.SplitRecombinesIff`: a negative duration would show one minute too few with negative seconds. A stored time is never negative unless `timeLeft` exceeds `totalTime`.
- `AdminSubjects.SubjectsPage.DeleteSubject`: the confirmation says questions remain, yet the schema deletes a subject's topics, questions and test results with it (`ON DELETE CASCADE`). So the page's first delete, of the topics, is redundant against that schema, and no topic is ever left without its subject whichever delete runs first. The question and result tables are not part of this page's model.

## Findings

| source | as written | input that shows it | evidently intended | confidence | as-written member | corrected member |
|---|---|---|---|---|---|---|
| src/app/test/take/page.tsx:107-119 | The interval effect depends on `[loading]` only, so its automatic submit calls the `handleSubmit` of the render that started the countdown, whose `answers` are empty and whose `timeLeft` equals `totalTime`. | A one-question test answered correctly that reaches 1 second left on a 60-second limit: the result stored scores 0 with a time taken of 0 instead of 1 with 59. | Submit the answers given so far, with `totalTime` minus the time left before the final tick as the time taken. | not executed | TestSession.StaleAutoSubmitCounterexample | TestSession.Session.Tick |

=== FILE: admin_questions.dfy ===
/** The administrators' question manager (src/app/admin/questions/page.tsx):
    a paged, filtered list of questions, a modal form that adds or edits one
    question, and a CSV upload. */
module AdminQuestions {
  import opened Records
  import opened Strings
  import opened QuestionIntake
  import opened Seqs
  import QuestionSubmit

  const PageSize := 20
  const FieldsRequired := "All fields except topic are required"
  const Updated := "Question updated!"
  const Added := "Question added!"

  /** `save`'s guard: subject, question text and the four options are all
      non-empty strings. Nothing is trimmed, and the topic may be empty. */
  predicate Complete(f: QuestionForm) {
    && f.subjectId != "" && f.questionText != ""
    && f.optionA != "" && f.optionB != "" && f.optionC != "" && f.optionD != ""
  }

  /** The record `save` writes: the form's fields, an empty topic sent as null. */
  function Payload(f: QuestionForm): (r: QuestionRecord)
    ensures r.topicId.None? <==> f.topicId == ""
    ensures r.topicId.Some? ==> r.topicId.value == f.topicId
    ensures r.subjectId == f.subjectId && r.questionText == f.questionText
    ensures r.optionA == f.optionA && r.optionB == f.optionB && r.optionC == f.optionC && r.optionD == f.optionD
    ensures r.correctAnswer == f.correctAnswer && r.difficulty == f.difficulty
    ensures r.createdBy.None?
  {
    QuestionRecord(f.subjectId, if f.topicId == "" then None else Some(f.topicId), f.questionText,
                   f.optionA, f.optionB, f.optionC, f.optionD, f.correctAnswer, f.difficulty, None)
  }

  /** `openEdit`: the question's fields copied into the form, a null topic becoming "". */
  function EditForm(q: Question): (f: QuestionForm)
    ensures f.topicId == OrElse(q.topicId, "")
    ensures f.subjectId == q.subjectId && f.questionText == q.questionText
    ensures f.optionA == q.optionA && f.optionB == q.optionB && f.optionC == q.optionC && f.optionD == q.optionD
    ensures f.correctAnswer == q.correctAnswer && f.difficulty == DifficultyName(q.difficulty)
  {
    QuestionForm(q.subjectId, OrElse(q.topicId, ""), q.questionText, q.optionA, q.optionB, q.optionC, q.optionD,
                 q.correctAnswer, DifficultyName(q.difficulty))
  }

  /** Opening a question and saving it untouched writes the question back as
      it was (a topic id that is the empty string would come back as null). */
  lemma EditSaveRoundTrip(q: Question)
    requires q.topicId != Some("")
    ensures var r := Payload(EditForm(q));
      && r.subjectId == q.subjectId && r.topicId == q.topicId && r.questionText == q.questionText
      && r.optionA == q.optionA && r.optionB == q.optionB && r.optionC == q.optionC && r.optionD == q.optionD
      && r.correctAnswer == q.correctAnswer && r.difficulty == DifficultyName(q.difficulty)
  {
  }

  /** Every form the contributor page accepts passes the administrators' guard. */
  lemma ContributorFormsComplete(f: QuestionForm)
    requires QuestionSubmit.Validate(f) == ""
    ensures Complete(f)
  {
    assert Trim(f.questionText) != "";
  }

  /** The converse fails: the administrators' guard does not trim, so a
      question text of blanks passes it and fails the contributor page. */
  lemma BlankTextPassesAdminOnly()
    ensures var f := QuestionForm("s1", "", " ", "a", "b", "c", "d", "A", "medium");
      Complete(f) && QuestionSubmit.Validate(f) == QuestionSubmit.TextMissing
  {
    var f := QuestionForm("s1", "", " ", "a", "b", "c", "d", "A", "medium");
    assert AllSpace(f.questionText);
  }

  // CSV upload

  /** A cell used as a lookup key: missing counts as "", lower-cased but, unlike the contributor
      page, not trimmed. */
  function Key(row: Row, key: Column): string {
    ToLower(FieldOr(row, key, ""))
  }

  /** One CSV row of `handleCSV`: skipped (`None`) only when no subject matches;
      the record carries no contributor and keeps an empty question text. */
  function MapRow(row: Row, subjects: seq<Subject>, topics: seq<Topic>): (r: Option<QuestionRecord>)
    ensures r.None? <==> forall i :: 0 <= i < |subjects| ==> ToLower(subjects[i].name) != Key(row, SubjectName)
    ensures r.Some? ==> r.value == RecordFromRow(row, r.value.subjectId, r.value.topicId, None)
    ensures r.Some? ==> r.value.subjectId == FindSubject(subjects, Key(row, SubjectName)).value.id
    ensures r.Some? ==> r.value.topicId == TopicIdOf(FindTopic(topics, Key(row, TopicName), FindSubject(subjects, Key(row, SubjectName))))
    ensures r.Some? ==> exists s :: s in subjects && s.id == r.value.subjectId && ToLower(s.name) == Key(row, SubjectName)
    ensures r.Some? && r.value.topicId.Some? ==>
              exists t :: t in topics && t.id == r.value.topicId.value && t.subjectId == r.value.subjectId
                          && ToLower(t.name) == Key(row, TopicName)
    ensures r.Some? && (forall t :: t in topics && t.subjectId == r.value.subjectId ==> ToLower(t.name) != Key(row, TopicName)) ==>
              r.value.topicId.None?
  {
    var subj := FindSubject(subjects, Key(row, SubjectName));
    var topic := FindTopic(topics, Key(row, TopicName), subj);
    if subj.None? then None
    else
      assert subj.value in subjects;
      if topic.Some? then
        assert topic.value in topics;
        Some(RecordFromRow(row, subj.value.id, Some(topic.value.id), None))
      else
        assert forall t :: t in topics && t.subjectId == subj.value.id ==> ToLower(t.name) != Key(row, TopicName) by {
          forall t | t in topics && t.subjectId == subj.value.id
            ensures ToLower(t.name) != Key(row, TopicName)
          {
            var i :| 0 <= i < |topics| && topics[i] == t;
          }
        }
        Some(RecordFromRow(row, subj.value.id, None, None))
  }

  /** A row without any question text is still uploaded here, with text "",
      while the contributor page skips it. */
  lemma MissingTextStillUploaded(row: Row, subjects: seq<Subject>, topics: seq<Topic>, userId: string)
    requires QuestionText !in row && QuestionShort !in row
    requires MapRow(row, subjects, topics).Some?
    ensures MapRow(row, subjects, topics).value.questionText == ""
    ensures QuestionSubmit.MapRow(row, subjects, topics, userId).None?
  {
  }

  /** Each upload row mapped to its record, or to `None` when skipped. */
  function Attempts(rows: seq<Row>, subjects: seq<Subject>, topics: seq<Topic>): (r: seq<Option<QuestionRecord>>)
    ensures |r| == |rows|
    ensures forall i :: 0 <= i < |rows| ==> r[i] == MapRow(rows[i], subjects, topics)
  {
    MapEach(rows, (row: Row) => MapRow(row, subjects, topics))
  }

  /** The insert loop of `handleCSV`; `accepted[i]` is the database's answer to
      the insert of row `i` (unused for a skipped row). */
  method UploadRows(rows: seq<Row>, subjects: seq<Subject>, topics: seq<Topic>, accepted: seq<bool>)
    returns (inserted: nat, failed: nat, added: seq<QuestionRecord>)
    requires |accepted| == |rows|
    ensures added == Stored(Attempts(rows, subjects, topics), accepted)
    ensures inserted == |added| && inserted + failed == |rows|
  {
    var attempts := Attempts(rows, subjects, topics);
    inserted, failed, added := Tally(attempts, accepted);
  }

  /** "Bulk upload: N inserted, F failed", shown whatever the outcome. */
  function BulkMessage(inserted: nat, failed: nat): string {
    "Bulk upload: " + (NatToString(inserted) + (" inserted, " + (NatToString(failed) + " failed")))
  }

  /** The message reports both counts unambiguously: equal messages come from
      equal counts. */
  lemma BulkMessageCounts(inserted: nat, failed: nat, inserted': nat, failed': nat)
    requires BulkMessage(inserted, failed) == BulkMessage(inserted', failed')
    ensures inserted == inserted' && failed == failed'
  {
    var a, b, a', b' := NatToString(inserted), NatToString(failed), NatToString(inserted'), NatToString(failed');
    var mid, tail := " inserted, ", " failed";
    DropPrefix("Bulk upload: ", a + (mid + (b + tail)), a' + (mid + (b' + tail)));
    DigitsThenNonDigit(a, mid + (b + tail), a', mid + (b' + tail));
    NatToStringInjective(inserted, inserted');
    DropPrefix(mid, b + tail, b' + tail);
    DigitsThenNonDigit(b, tail, b', tail);
    NatToStringInjective(failed, failed');
  }

  // Paging

  /** The inclusive index range `q.range(from, to)` that page `page` asks for. */
  function RangeStart(page: nat): nat { page * PageSize }
  function RangeEnd(page: nat): nat { page * PageSize + PageSize - 1 }

  /** The rows the range query returns out of the whole filtered, ordered list. */
  function PageRows(all: seq<Question>, page: nat): (r: seq<Question>)
    ensures |r| <= PageSize
    ensures RangeStart(page) < |all| ==> r != []
  {
    var from := if RangeStart(page) < |all| then RangeStart(page) else |all|;
    var to := if RangeEnd(page) + 1 < |all| then RangeEnd(page) + 1 else |all|;
    all[from..to]
  }

  /** The number shown beside row `i` of page `page`. */
  function RowLabel(page: nat, i: nat): nat { page * PageSize + i + 1 }

  /** Row `i` of page `page` is entry `RowLabel(page, i)` of the whole list, counting from 1. */
  lemma LabelIsPosition(all: seq<Question>, page: nat, i: nat)
    requires i < |PageRows(all, page)|
    ensures 1 <= RowLabel(page, i) <= |all|
    ensures all[RowLabel(page, i) - 1] == PageRows(all, page)[i]
  {
  }

  /** No two rows of any pages carry the same label. */
  lemma LabelsDistinct(page: nat, i: nat, page': nat, i': nat)
    requires i < PageSize && i' < PageSize
    requires RowLabel(page, i) == RowLabel(page', i')
    ensures page == page' && i == i'
  {
    var n := RowLabel(page, i) - 1;
    assert n / PageSize == page && n % PageSize == i;
    assert n / PageSize == page' && n % PageSize == i';
  }

  /** "Prev" is enabled unless on the first page. */
  predicate PrevEnabled(page: nat) { page != 0 }

  /** "Next" is enabled when the page came back full. */
  predicate NextEnabled(shown: nat) { !(shown < PageSize) }

  /** A page that came back short is the last: every later page is empty. */
  lemma ShortPageIsLast(all: seq<Question>, page: nat, later: nat)
    requires !NextEnabled(|PageRows(all, page)|)
    requires later > page
    ensures PageRows(all, later) == []
  {
    assert RangeStart(later) >= RangeStart(page) + PageSize by {
      assert later * PageSize >= (page + 1) * PageSize;
    }
  }

  /** The converse fails: with exactly one full page of questions "Next" is
      enabled and leads to an empty page. */
  lemma NextMayLeadToEmptyPage(all: seq<Question>)
    requires |all| == PageSize
    ensures NextEnabled(|PageRows(all, 0)|) && PageRows(all, 1) == []
  {
  }

  datatype Write = Insert(record: QuestionRecord) | Update(id: string, record: QuestionRecord)

  /** The page's state: the filters and page number of the list, the modal
      form with the question being edited (if any), and the two messages. */
  class AdminQuestionsPage {
    const subjects: seq<Subject>
    var page: nat
    var filterSubject: string
    var filterDifficulty: string
    var showModal: bool
    var editing: Option<Question>
    var form: QuestionForm
    var error: string
    var success: string

    constructor (subjects: seq<Subject>)
      ensures this.subjects == subjects && page == 0 && filterSubject == "" && filterDifficulty == ""
      ensures !showModal && editing.None? && form == EmptyForm && error == "" && success == ""
    {
      this.subjects := subjects;
      page := 0;
      filterSubject := "";
      filterDifficulty := "";
      showModal := false;
      editing := None;
      form := EmptyForm;
      error := "";
      success := "";
    }

    /** `openAdd`: a blank form preset to the first subject, if there is one. */
    method OpenAdd()
      modifies this`editing, this`form, this`error, this`showModal
      ensures editing.None? && showModal && error == ""
      ensures form == EmptyForm.(subjectId := if |subjects| > 0 then subjects[0].id else "")
    {
      editing := None;
      form := EmptyForm.(subjectId := if |subjects| > 0 then subjects[0].id else "");
      error := "";
      showModal := true;
    }

    /** `openEdit`: the form holds a copy of `q`. */
    method OpenEdit(q: Question)
      modifies this`editing, this`form, this`error, this`showModal
      ensures editing == Some(q) && form == EditForm(q) && showModal && error == ""
    {
      editing := Some(q);
      form := EditForm(q);
      error := "";
      showModal := true;
    }

    /** `save`, with `storeError` the database's answer to the write. Returns
        the write sent, if any: an update of the edited question, or an insert. */
    method Save(storeError: Option<string>) returns (write: Option<Write>)
      modifies this`error, this`showModal, this`success
      ensures !Complete(form) ==> write.None? && error == FieldsRequired
                                   && showModal == old(showModal) && success == old(success)
      ensures Complete(form) ==>
                write == Some(if editing.Some? then Update(editing.value.id, Payload(form)) else Insert(Payload(form)))
      ensures Complete(form) && storeError.Some? ==>
                error == storeError.value && showModal == old(showModal) && success == old(success)
      ensures Complete(form) && storeError.None? ==>
                error == "" && !showModal && success == if editing.Some? then Updated else Added
    {
      error := "";
      var f := form;
      if !Complete(f) {
        error := FieldsRequired;
        return None;
      }
      var record := Payload(f);
      write := Some(if editing.Some? then Update(editing.value.id, record) else Insert(record));
      if storeError.Some? {
        error := storeError.value;
        return;
      }
      showModal := false;
      success := if editing.Some? then Updated else Added;
    }

    /** Choosing a subject filter restarts the list at page 0. */
    method SetFilterSubject(id: string)
      modifies this`filterSubject, this`page
      ensures filterSubject == id && page == 0
    {
      filterSubject := id;
      page := 0;
    }

    /** Choosing a difficulty filter restarts the list at page 0. */
    method SetFilterDifficulty(d: string)
      modifies this`filterDifficulty, this`page
      ensures filterDifficulty == d && page == 0
    {
      filterDifficulty := d;
      page := 0;
    }

    /** "Prev", disabled on page 0. */
    method Prev()
      modifies this`page
      ensures page == if PrevEnabled(old(page)) then old(page) - 1 else old(page)
    {
      if PrevEnabled(page) {
        page := page - 1;
      }
    }

    /** "Next", with `shown` the number of rows the current page loaded. */
    method Next(shown: nat)
      modifies this`page
      ensures page == if NextEnabled(shown) then old(page) + 1 else old(page)
    {
      if NextEnabled(shown) {
        page := page + 1;
      }
    }

    /** The end of `handleCSV`: the counts are announced as a success message. */
    method FinishUpload(inserted: nat, failed: nat)
      modifies this`success
      ensures success == BulkMessage(inserted, failed)
    {
      success := BulkMessage(inserted, failed);
    }
  }
}

=== FILE: admin_subjects.dfy ===
/** The administrators' subjects page (src/app/admin/subjects/page.tsx): the
    subject and topic forms and their checks, the subject cards with their
    topic lists, the single expanded card, and the deletion of a subject
    together with its topics. The `subjects` and `topics` fields stand for the
    two tables as the page last loaded them. */
module AdminSubjects {
  import opened Records
  import opened Strings
  import opened Seqs

  /** The subject form: name, description and duration in minutes. */
  datatype SubjectForm = SubjectForm(name: string, description: string, durationMinutes: int)

  /** The topic form: name and owning subject. */
  datatype TopicForm = TopicForm(name: string, subjectId: string)

  /** The form a new subject starts from. */
  const BlankSubject := SubjectForm("", "", 20)

  const SubjectNameRequired := "Subject name is required"
  const TopicNameRequired := "Topic name is required"
  const SelectSubject := "Please select a subject"

  /** The writes the page sends to the `subjects` and `topics` tables. */
  datatype SubjectWrite = InsertSubject(form: SubjectForm) | UpdateSubject(id: string, form: SubjectForm)
  datatype TopicWrite = InsertTopic(form: TopicForm) | UpdateTopic(id: string, form: TopicForm)

  // The forms

  /** `openEditSubject`: the form for `s`, or the blank form when there is none;
      a missing description is shown as "". */
  function SubjectFormOf(s: Option<Subject>): SubjectForm {
    if s.Some? then SubjectForm(s.value.name, OrElse(s.value.description, ""), s.value.durationMinutes)
    else BlankSubject
  }

  /** The subject as it reads after `update(subjectForm)`: every form field is written. */
  function ApplySubjectForm(s: Subject, f: SubjectForm): (r: Subject)
    ensures r.id == s.id
  {
    s.(name := f.name, description := Some(f.description), durationMinutes := f.durationMinutes)
  }

  /** Saving an untouched edit form leaves the subject as it was exactly when it
      had a description: a missing one comes back as "". */
  lemma EditSubjectUnchangedIff(s: Subject)
    ensures ApplySubjectForm(s, SubjectFormOf(Some(s))) == s <==> s.description.Some?
    ensures s.description.None? ==> ApplySubjectForm(s, SubjectFormOf(Some(s))).description == Some("")
  {
  }

  /** The check of `saveSubject`: the name must hold more than white space. */
  function SubjectError(f: SubjectForm): (r: Option<string>)
    ensures r.None? <==> !AllSpace(f.name)
    ensures r.Some? ==> r.value == SubjectNameRequired
  {
    if Trim(f.name) == [] then Some(SubjectNameRequired) else None
  }

  /** The checks of `saveTopic`, in order: the name, then the subject. Only the
      first failure is reported. */
  function TopicError(f: TopicForm): (r: Option<string>)
    ensures r.None? <==> !AllSpace(f.name) && f.subjectId != ""
    ensures r == Some(TopicNameRequired) <==> AllSpace(f.name)
    ensures r == Some(SelectSubject) <==> !AllSpace(f.name) && f.subjectId == ""
  {
    if Trim(f.name) == [] then Some(TopicNameRequired)
    else if f.subjectId == "" then Some(SelectSubject)
    else None
  }

  /** `openAddTopic`: the subject of the new topic is the one given, else the
      first subject, else "". */
  function DefaultTopicSubject(given: Option<string>, subjects: seq<Subject>): (r: string)
    ensures given.Some? ==> r == given.value
    ensures given.None? ==> (r == "" <==> subjects == [] || subjects[0].id == "")
    ensures given.None? && r != "" ==> exists i :: 0 <= i < |subjects| && subjects[i].id == r
  {
    if given.Some? then given.value else if |subjects| > 0 then subjects[0].id else ""
  }

  /** A topic opened from the header's "+ Add Topic" is refused for its subject
      only when no subject has loaded. */
  lemma HeaderTopicNeedsSubjects(name: string, subjects: seq<Subject>)
    requires forall i :: 0 <= i < |subjects| ==> subjects[i].id != ""
    ensures TopicError(TopicForm(name, DefaultTopicSubject(None, subjects))) == Some(SelectSubject)
            <==> !AllSpace(name) && subjects == []
  {
  }

  // The cards

  /** The topics listed on the card of subject `id`, in table order. */
  function TopicsOf(topics: seq<Topic>, id: string): (r: seq<Topic>)
    ensures forall t :: t in r <==> t in topics && t.subjectId == id
  {
    Filter(topics, (t: Topic) => t.subjectId == id)
  }

  /** Every topic refers to a loaded subject. */
  predicate Consistent(subjects: seq<Subject>, topics: seq<Topic>) {
    forall t :: t in topics ==> exists s :: s in subjects && s.id == t.subjectId
  }

  /** Of consistent tables, each topic is listed on the card of its subject, and
      on no card of another id. */
  lemma TopicOnItsCard(subjects: seq<Subject>, topics: seq<Topic>, t: Topic)
    requires Consistent(subjects, topics) && t in topics
    ensures exists s :: s in subjects && t in TopicsOf(topics, s.id)
    ensures forall id :: t in TopicsOf(topics, id) <==> id == t.subjectId
  {
    var s :| s in subjects && s.id == t.subjectId;
    assert t in TopicsOf(topics, s.id);
  }

  // Deleting

  /** The first delete of `deleteSubject`: the topics of subject `id`. */
  function DropTopicsOf(topics: seq<Topic>, id: string): (r: seq<Topic>)
    ensures forall t :: t in r <==> t in topics && t.subjectId != id
  {
    Filter(topics, (t: Topic) => t.subjectId != id)
  }

  /** The second delete of `deleteSubject`: the subject itself. */
  function DropSubject(subjects: seq<Subject>, id: string): (r: seq<Subject>)
    ensures forall s :: s in r <==> s in subjects && s.id != id
  {
    Filter(subjects, (s: Subject) => s.id != id)
  }

  /** Deleting the topics first keeps every topic pointing at a subject after
      each of the two deletes. */
  lemma DeleteOrderKeepsReferences(subjects: seq<Subject>, topics: seq<Topic>, id: string)
    requires Consistent(subjects, topics)
    ensures Consistent(subjects, DropTopicsOf(topics, id))
    ensures Consistent(DropSubject(subjects, id), DropTopicsOf(topics, id))
  {
    var rest := DropTopicsOf(topics, id);
    forall t | t in rest
      ensures exists s :: s in DropSubject(subjects, id) && s.id == t.subjectId
    {
      var s :| s in subjects && s.id == t.subjectId;
      assert s in DropSubject(subjects, id);
    }
  }

  /** Deleting one subject's topics leaves every other card's list as it was. */
  lemma {:induction false} OtherCardsUnchanged(topics: seq<Topic>, id: string, other: string)
    requires other != id
    ensures TopicsOf(DropTopicsOf(topics, id), other) == TopicsOf(topics, other)
  {
    if topics != [] {
      var n := |topics| - 1;
      var keep: Topic -> bool := (t: Topic) => t.subjectId != id;
      var shown: Topic -> bool := (t: Topic) => t.subjectId == other;
      OtherCardsUnchanged(topics[..n], id, other);
      var tail := if keep(topics[n]) then [topics[n]] else [];
      FilterAppend(Filter(topics[..n], keep), tail, shown);
    }
  }

  /** The page: the loaded tables, the two modals with their forms, the
      messages, and the expanded card. */
  class SubjectsPage {
    var subjects: seq<Subject>
    var topics: seq<Topic>
    var showSubjectModal: bool
    var showTopicModal: bool
    var editSubject: Option<Subject>
    var editTopic: Option<Topic>
    var subjectForm: SubjectForm
    var topicForm: TopicForm
    var error: string
    var success: string
    var expanded: Option<string>

    constructor (subjects: seq<Subject>, topics: seq<Topic>)
      ensures this.subjects == subjects && this.topics == topics
      ensures !showSubjectModal && !showTopicModal && editSubject.None? && editTopic.None?
      ensures subjectForm == BlankSubject && topicForm == TopicForm("", "")
      ensures error == "" && success == "" && expanded.None?
    {
      this.subjects := subjects;
      this.topics := topics;
      showSubjectModal := false;
      showTopicModal := false;
      editSubject := None;
      editTopic := None;
      subjectForm := BlankSubject;
      topicForm := TopicForm("", "");
      error := "";
      success := "";
      expanded := None;
    }

    /** Whether the card of subject `id` is open. */
    predicate IsExpanded(id: string)
      reads this
    {
      expanded == Some(id)
    }

    /** A click on a card closes it if it was open, and otherwise opens it and
        closes every other card. */
    method ToggleCard(id: string)
      modifies this`expanded
      ensures old(IsExpanded(id)) ==> expanded.None?
      ensures !old(IsExpanded(id)) ==> IsExpanded(id)
      ensures forall other :: other != id ==> !IsExpanded(other)
    {
      expanded := if expanded == Some(id) then None else Some(id);
    }

    /** `openEditSubject`: the subject modal, on `s` or on a new subject. */
    method OpenEditSubject(s: Option<Subject>)
      modifies this`editSubject, this`subjectForm, this`error, this`showSubjectModal
      ensures editSubject == s && subjectForm == SubjectFormOf(s) && error == "" && showSubjectModal
      ensures s.None? ==> subjectForm == BlankSubject
    {
      editSubject := s;
      subjectForm := SubjectFormOf(s);
      error := "";
      showSubjectModal := true;
    }

    /** `saveSubject`, with `storeError` the database's answer to the write.
        Returns the write sent, if any. */
    method SaveSubject(storeError: Option<string>) returns (write: Option<SubjectWrite>)
      modifies this`error, this`showSubjectModal, this`success
      ensures SubjectError(subjectForm).Some? ==>
                write.None? && error == SubjectNameRequired
                && showSubjectModal == old(showSubjectModal) && success == old(success)
      ensures SubjectError(subjectForm).None? ==>
                write == Some(if editSubject.Some? then UpdateSubject(editSubject.value.id, subjectForm)
                              else InsertSubject(subjectForm))
      ensures SubjectError(subjectForm).None? && storeError.Some? ==>
                error == storeError.value && showSubjectModal == old(showSubjectModal) && success == old(success)
      ensures SubjectError(subjectForm).None? && storeError.None? ==>
                error == "" && !showSubjectModal
                && success == if editSubject.Some? then "Subject updated!" else "Subject created!"
    {
      error := "";
      var f := subjectForm;
      var problem := SubjectError(f);
      if problem.Some? {
        error := problem.value;
        return None;
      }
      write := Some(if editSubject.Some? then UpdateSubject(editSubject.value.id, f) else InsertSubject(f));
      if storeError.Some? {
        error := storeError.value;
        return;
      }
      showSubjectModal := false;
      success := if editSubject.Some? then "Subject updated!" else "Subject created!";
    }

    /** `openAddTopic`: a new topic under `subjectId`, or under the default subject. */
    method OpenAddTopic(subjectId: Option<string>)
      modifies this`editTopic, this`topicForm, this`error, this`showTopicModal
      ensures editTopic.None? && topicForm == TopicForm("", DefaultTopicSubject(subjectId, subjects))
      ensures error == "" && showTopicModal
    {
      editTopic := None;
      topicForm := TopicForm("", DefaultTopicSubject(subjectId, subjects));
      error := "";
      showTopicModal := true;
    }

    /** `openEditTopic`: the topic modal on `t`. */
    method OpenEditTopic(t: Topic)
      modifies this`editTopic, this`topicForm, this`error, this`showTopicModal
      ensures editTopic == Some(t) && topicForm == TopicForm(t.name, t.subjectId)
      ensures error == "" && showTopicModal
    {
      editTopic := Some(t);
      topicForm := TopicForm(t.name, t.subjectId);
      error := "";
      showTopicModal := true;
    }

    /** `saveTopic`, with `storeError` the database's answer to the write.
        Returns the write sent, if any. */
    method SaveTopic(storeError: Option<string>) returns (write: Option<TopicWrite>)
      modifies this`error, this`showTopicModal, this`success
      ensures TopicError(topicForm).Some? ==>
                write.None? && error == TopicError(topicForm).value
                && showTopicModal == old(showTopicModal) && success == old(success)
      ensures TopicError(topicForm).None? ==>
                write == Some(if editTopic.Some? then UpdateTopic(editTopic.value.id, topicForm)
                              else InsertTopic(topicForm))
      ensures TopicError(topicForm).None? && storeError.Some? ==>
                error == storeError.value && showTopicModal == old(showTopicModal) && success == old(success)
      ensures TopicError(topicForm).None? && storeError.None? ==>
                error == "" && !showTopicModal
                && success == if editTopic.Some? then "Topic updated!" else "Topic added!"
    {
      error := "";
      var f := topicForm;
      var problem := TopicError(f);
      if problem.Some? {
        error := problem.value;
        return None;
      }
      write := Some(if editTopic.Some? then UpdateTopic(editTopic.value.id, f) else InsertTopic(f));
      if storeError.Some? {
        error := storeError.value;
        return;
      }
      showTopicModal := false;
      success := if editTopic.Some? then "Topic updated!" else "Topic added!";
    }

    /** `deleteSubject`, once the confirmation has been answered: the subject's
        topics go first, then the subject, and the tables are reloaded. */
    method DeleteSubject(id: string, confirmed: bool)
      modifies this`subjects, this`topics
      ensures !confirmed ==> subjects == old(subjects) && topics == old(topics)
      ensures confirmed ==> subjects == DropSubject(old(subjects), id) && topics == DropTopicsOf(old(topics), id)
      ensures old(Consistent(subjects, topics)) ==> Consistent(subjects, topics)
    {
      if !confirmed {
        return;
      }
      if Consistent(subjects, topics) {
        DeleteOrderKeepsReferences(subjects, topics, id);
      }
      topics := DropTopicsOf(topics, id);
      subjects := DropSubject(subjects, id);
    }

    /** `deleteTopic`, once the confirmation has been answered. */
    method DeleteTopic(id: string, confirmed: bool)
      modifies this`topics
      ensures !confirmed ==> topics == old(topics)
      ensures confirmed ==> topics == Filter(old(topics), (t: Topic) => t.id != id)
      ensures forall t :: t in topics <==> t in old(topics) && (confirmed ==> t.id != id)
      ensures old(Consistent(subjects, topics)) ==> Consistent(subjects, topics)
    {
      if confirmed {
        topics := Filter(topics, (t: Topic) => t.id != id);
      }
    }
  }
}

=== FILE: admin_users.dfy ===
/** The administrators' users page (src/app/admin/users/page.tsx): one stats
    row per user with the number of tests and the average accuracy among the
    fifty newest results, and the badges and durations of the results table. */
module AdminUsers {
  import opened Records
  import opened Seqs
  import opened Stats

  /** The results table loads the fifty newest results. */
  const ResultLimit := 50

  /** A row of `userStats`: the profile with its test count and average accuracy. */
  datatype UserStat = UserStat(user: Profile, testCount: nat, avgAccuracy: real)

  /** The loaded results of user `id`, in order. */
  function ResultsOf(results: seq<TestResult>, id: string): (r: seq<TestResult>)
    ensures forall x :: x in r <==> x in results && x.userId == id
  {
    Filter(results, (x: TestResult) => x.userId == id)
  }

  /** The user id of each result, in order. */
  function UserIdsOf(results: seq<TestResult>): (r: seq<string>)
    ensures |r| == |results| && forall i :: 0 <= i < |r| ==> r[i] == results[i].userId
  {
    seq(|results|, i requires 0 <= i < |results| => results[i].userId)
  }

  /** The profile id of each user, in order. */
  function ProfileIds(users: seq<Profile>): (r: seq<string>)
    ensures |r| == |users| && forall i :: 0 <= i < |r| ==> r[i] == users[i].id
  {
    MapEach(users, (u: Profile) => u.id)
  }

  /** A user's results are as many as the results carrying that user's id. */
  lemma {:induction false} ResultsOfCount(results: seq<TestResult>, id: string)
    ensures |ResultsOf(results, id)| == Occurrences(UserIdsOf(results), id)
  {
    if results != [] {
      var n := |results| - 1;
      ResultsOfCount(results[..n], id);
      assert UserIdsOf(results)[..n] == UserIdsOf(results[..n]);
    }
  }

  /** The stats of user `u`: the average is 0 for a user without results. */
  function StatOf(u: Profile, results: seq<TestResult>): (s: UserStat)
    ensures s.user == u && s.testCount == |ResultsOf(results, u.id)|
    ensures s.avgAccuracy == if s.testCount > 0 then Mean(Accuracies(ResultsOf(results, u.id))) else 0.0
  {
    var mine := ResultsOf(results, u.id);
    UserStat(u, |mine|, if |mine| > 0 then Mean(Accuracies(mine)) else 0.0)
  }

  /** A user's test count is the number of results with that user's id, and the
      average is 0 without results, else an accuracy no higher than the user's best. */
  lemma StatMeaning(u: Profile, results: seq<TestResult>)
    ensures StatOf(u, results).testCount == Occurrences(UserIdsOf(results), u.id)
    ensures StatOf(u, results).testCount == 0 ==> StatOf(u, results).avgAccuracy == 0.0
    ensures StatOf(u, results).testCount > 0 ==>
              StatOf(u, results).avgAccuracy <= Max(Accuracies(ResultsOf(results, u.id)))
    ensures (forall i :: 0 <= i < |results| ==> 0.0 <= results[i].accuracy <= 100.0) ==>
              0.0 <= StatOf(u, results).avgAccuracy <= 100.0
  {
    ResultsOfCount(results, u.id);
    var mine := ResultsOf(results, u.id);
    if |mine| > 0 {
      var accs := Accuracies(mine);
      MeanAtMostMax(accs);
      if forall i :: 0 <= i < |results| ==> 0.0 <= results[i].accuracy <= 100.0 {
        assert forall i :: 0 <= i < |accs| ==> mine[i] in results;
        MeanWithin(accs);
      }
    }
  }

  /** `userStats`: one row per user, in user order. */
  function UserStats(users: seq<Profile>, results: seq<TestResult>): (r: seq<UserStat>)
    ensures |r| == |users| && forall i :: 0 <= i < |r| ==> r[i] == StatOf(users[i], results)
  {
    seq(|users|, i requires 0 <= i < |users| => StatOf(users[i], results))
  }

  /** The "Tests Taken" column, added up. */
  function TotalCount(stats: seq<UserStat>): nat {
    if stats == [] then 0 else TotalCount(stats[..|stats| - 1]) + stats[|stats| - 1].testCount
  }

  /** The column's total is the number of results counted under the users' ids. */
  lemma {:induction false} TotalCountIsSum(users: seq<Profile>, results: seq<TestResult>)
    ensures TotalCount(UserStats(users, results)) == SumOccurrences(ProfileIds(users), UserIdsOf(results))
  {
    if users != [] {
      var n := |users| - 1;
      TotalCountIsSum(users[..n], results);
      assert UserStats(users, results)[..n] == UserStats(users[..n], results);
      assert ProfileIds(users)[..n] == ProfileIds(users[..n]);
      ResultsOfCount(results, users[n].id);
    }
  }

  /** Users having distinct ids, the test counts add up to at most the fifty
      loaded results, and to all of them when every result's user is listed. */
  lemma TestCountsWithinLoaded(users: seq<Profile>, results: seq<TestResult>)
    requires Distinct(ProfileIds(users))
    ensures var loaded := Newest(results, ResultLimit);
      TotalCount(UserStats(users, loaded)) <= |loaded| <= ResultLimit
    ensures var loaded := Newest(results, ResultLimit);
      (forall i :: 0 <= i < |loaded| ==> loaded[i].userId in ProfileIds(users)) ==>
        TotalCount(UserStats(users, loaded)) == |loaded|
  {
    var loaded := Newest(results, ResultLimit);
    TotalCountIsSum(users, loaded);
    SumOccurrencesBound(ProfileIds(users), UserIdsOf(loaded));
  }

  /** The "Avg Accuracy" cell: "—" (`None`) exactly when the user has no tests. */
  function AverageCell(s: UserStat): (r: Option<real>)
    ensures r.None? <==> s.testCount == 0
    ensures r.Some? ==> r.value == s.avgAccuracy
  {
    if s.testCount > 0 then Some(s.avgAccuracy) else None
  }

  /** The average's badge: success from 70, medium from 40, red below. */
  function AverageBadge(s: UserStat): Band {
    BandOf(s.avgAccuracy)
  }

  /** The results table's accuracy badge has two colours only. */
  datatype ResultBadge = SuccessBadge | MediumBadge

  function ResultBadgeOf(acc: real): (b: ResultBadge)
    ensures b == SuccessBadge <==> BandOf(acc) == Good
  {
    if acc >= 70.0 then SuccessBadge else MediumBadge
  }
}

=== FILE: dashboard.dfy ===
/** The student dashboard (src/app/dashboard/page.tsx): the number of
    questions per subject card, and the headline over the five most recent
    results with their colour bands. */
module Dashboard {
  import opened Records
  import opened Seqs
  import opened Stats

  /** The count a subject card shows: its entry in the table, 0 when it has none. */
  function CountShown(counts: map<string, nat>, id: string): nat {
    if id in counts then counts[id] else 0
  }

  /** The `forEach` over the `subject_id` of every question row, adding one to
      that subject's entry. */
  method CountBySubject(rows: seq<string>) returns (counts: map<string, nat>)
    ensures forall id :: id in counts <==> id in rows
    ensures forall id :: CountShown(counts, id) == Occurrences(rows, id)
  {
    counts := map[];
    for i := 0 to |rows|
      invariant forall id :: id in counts <==> id in rows[..i]
      invariant forall id :: CountShown(counts, id) == Occurrences(rows[..i], id)
    {
      assert rows[..i + 1][..i] == rows[..i];
      assert rows[..i + 1] == rows[..i] + [rows[i]];
      var id := rows[i];
      counts := counts[id := CountShown(counts, id) + 1];
    }
    assert rows[..|rows|] == rows;
  }

  /** The ids of the subject cards, in card order. */
  function Ids(subjects: seq<Subject>): (r: seq<string>)
    ensures |r| == |subjects| && forall i :: 0 <= i < |r| ==> r[i] == subjects[i].id
  {
    MapEach(subjects, (s: Subject) => s.id)
  }

  /** The counts shown on the cards, added up. */
  function CardTotal(subjects: seq<Subject>, counts: map<string, nat>): nat {
    if subjects == [] then 0
    else CardTotal(subjects[..|subjects| - 1], counts) + CountShown(counts, subjects[|subjects| - 1].id)
  }

  /** With counts from `CountBySubject`, the cards add up to at most the number
      of question rows, and to exactly that number when every question belongs
      to a card's subject (subject ids being distinct). */
  lemma CardTotalCountsRows(subjects: seq<Subject>, rows: seq<string>, counts: map<string, nat>)
    requires Distinct(Ids(subjects))
    requires forall id :: CountShown(counts, id) == Occurrences(rows, id)
    ensures CardTotal(subjects, counts) <= |rows|
    ensures (forall i :: 0 <= i < |rows| ==> rows[i] in Ids(subjects)) ==> CardTotal(subjects, counts) == |rows|
  {
    CardTotalIsSum(subjects, rows, counts);
    SumOccurrencesBound(Ids(subjects), rows);
  }

  /** The card total is the number of rows counted under the cards' ids. */
  lemma {:induction false} CardTotalIsSum(subjects: seq<Subject>, rows: seq<string>, counts: map<string, nat>)
    requires forall id :: CountShown(counts, id) == Occurrences(rows, id)
    ensures CardTotal(subjects, counts) == SumOccurrences(Ids(subjects), rows)
  {
    if subjects != [] {
      var n := |subjects| - 1;
      CardTotalIsSum(subjects[..n], rows, counts);
      assert Ids(subjects)[..n] == Ids(subjects[..n]);
    }
  }

  /** The recent results: the five newest. */
  const RecentLimit := 5

  /** The "Avg Acc." tile: the mean accuracy, or "—" (`None`) without results. */
  function AverageShown(recent: seq<TestResult>): (r: Option<real>)
    ensures r.None? <==> recent == []
    ensures r.Some? ==> r.value == Mean(Accuracies(recent))
  {
    if |recent| > 0 then Some(Mean(Accuracies(recent))) else None
  }

  /** The "Best" tile: the highest accuracy, or "—" (`None`) without results. */
  function BestShown(recent: seq<TestResult>): (r: Option<real>)
    ensures r.None? <==> recent == []
    ensures r.Some? ==> r.value in Accuracies(recent)
    ensures r.Some? ==> forall i :: 0 <= i < |recent| ==> recent[i].accuracy <= r.value
  {
    if |recent| > 0 then Some(Max(Accuracies(recent))) else None
  }

  /** The headline of the latest results: at most five tests; both tiles show
      "—" together, and otherwise the average is at most the best. */
  lemma Headline(results: seq<TestResult>)
    ensures |Newest(results, RecentLimit)| <= 5
    ensures var recent := Newest(results, RecentLimit);
      (AverageShown(recent).None? <==> BestShown(recent).None?)
      && (AverageShown(recent).Some? ==> AverageShown(recent).value <= BestShown(recent).value)
  {
    var recent := Newest(results, RecentLimit);
    if |recent| > 0 {
      MeanAtMostMax(Accuracies(recent));
    }
  }

  /** The colour of a recent result's accuracy. */
  function RecentBand(r: TestResult): Band {
    BandOf(r.accuracy)
  }
}

=== FILE: history.dfy ===
/** A student's test history (src/app/history/page.tsx): the subject filter
    over the loaded results, the average and best tiles over all of them,
    and each row's colour band, duration and weak-topic note. */
module History {
  import opened Records
  import opened Seqs
  import opened Stats

  /** The list shown: the results of subject `filter`, in order, or all of them
      when no subject is chosen (""). */
  function Filtered(results: seq<TestResult>, filter: string): (r: seq<TestResult>)
    ensures filter == "" ==> r == results
    ensures forall x :: x in r <==> x in results && (filter != "" ==> x.subjectId == filter)
  {
    if filter == "" then results else Filter(results, (x: TestResult) => x.subjectId == filter)
  }

  /** Choosing the same subject again shows the same list. */
  lemma FilteredTwice(results: seq<TestResult>, filter: string)
    ensures Filtered(Filtered(results, filter), filter) == Filtered(results, filter)
  {
    if filter != "" {
      var f := (x: TestResult) => x.subjectId == filter;
      FilterAll(Filter(results, f), f);
    }
  }

  /** The "Avg Accuracy" tile over all results, 0 when there are none. */
  function AverageOrZero(results: seq<TestResult>): (r: real)
    ensures results == [] ==> r == 0.0
    ensures results != [] ==> r == Mean(Accuracies(results))
  {
    if |results| > 0 then Mean(Accuracies(results)) else 0.0
  }

  /** The "Best Score" tile over all results, 0 when there are none. */
  function BestOrZero(results: seq<TestResult>): (r: real)
    ensures results == [] ==> r == 0.0
    ensures results != [] ==> r in Accuracies(results)
    ensures forall i :: 0 <= i < |results| ==> results[i].accuracy <= r
  {
    if |results| > 0 then Max(Accuracies(results)) else 0.0
  }

  /** The tiles never depend on the filter; the average is at most the best,
      and both are accuracies when every result's accuracy is one. */
  lemma TilesBounds(results: seq<TestResult>)
    ensures AverageOrZero(results) <= BestOrZero(results)
    ensures (forall i :: 0 <= i < |results| ==> 0.0 <= results[i].accuracy <= 100.0) ==>
              0.0 <= AverageOrZero(results) <= 100.0 && 0.0 <= BestOrZero(results) <= 100.0
  {
    if |results| > 0 {
      var accs := Accuracies(results);
      MeanAtMostMax(accs);
      if forall i :: 0 <= i < |results| ==> 0.0 <= results[i].accuracy <= 100.0 {
        MeanWithin(accs);
      }
    }
  }

  /** A row's colour. */
  function RowBand(r: TestResult): Band {
    BandOf(r.accuracy)
  }

  /** The "N weak topics" note, shown only for a result with weak topics. */
  function WeakNote(r: TestResult): (n: Option<nat>)
    ensures n.Some? <==> r.weakTopics != []
    ensures n.Some? ==> n.value == |r.weakTopics| && n.value > 0
  {
    if |r.weakTopics| > 0 then Some(|r.weakTopics|) else None
  }
}

=== FILE: question_intake.dfy ===
/** What the two question-entry pages share (src/app/questions/submit/page.tsx
    and src/app/admin/questions/page.tsx): the question form, CSV rows as
    parsed by the CSV reader (a header-keyed map of strings), the record a row
    becomes, the case-insensitive lookup of subjects and topics by name, and
    the inserted/failed tally of an upload. */
module QuestionIntake {
  import opened Records
  import opened Strings

  /** The CSV headers the pages read, named after the header text: `subject`,
      `topic`, `question_text`, `question`, `option_a`..`option_d`, `a`..`d`,
      `correct_answer`, `answer`, `difficulty`. Other headers are never read. */
  datatype Column =
    | SubjectName | TopicName | QuestionText | QuestionShort
    | OptionA | OptionB | OptionC | OptionD
    | LetterA | LetterB | LetterC | LetterD
    | CorrectAnswer | AnswerShort | DifficultyLevel

  /** A parsed CSV row: header to cell text. A missing key is `undefined`. */
  type Row = map<Column, string>

  function Field(row: Row, key: Column): Option<string> {
    if key in row then Some(row[key]) else None
  }

  /** The cell under `key`, or `fallback` when the row has no such cell. */
  function FieldOr(row: Row, key: Column, fallback: string): (r: string)
    ensures key in row ==> r == row[key]
    ensures key !in row ==> r == fallback
  {
    OrElse(Field(row, key), fallback)
  }

  /** JavaScript truthiness of a possibly missing string: present and non-empty. */
  predicate Truthy(s: Option<string>) {
    s.Some? && s.value != ""
  }

  /** The question form of both pages; every field is text, `""` meaning unset. */
  datatype QuestionForm = QuestionForm(
    subjectId: string,
    topicId: string,
    questionText: string,
    optionA: string,
    optionB: string,
    optionC: string,
    optionD: string,
    correctAnswer: string,
    difficulty: string)

  /** `EMPTY` / `EMPTY_FORM`: answer "A", difficulty "medium", everything else empty. */
  const EmptyForm := QuestionForm("", "", "", "", "", "", "", "A", "medium")

  /** A row sent to the `questions` table. `difficulty` is the text sent, which
      the table checks; `createdBy` is set by the contributor page only. */
  datatype QuestionRecord = QuestionRecord(
    subjectId: string,
    topicId: Option<string>,
    questionText: string,
    optionA: string,
    optionB: string,
    optionC: string,
    optionD: string,
    correctAnswer: string,
    difficulty: string,
    createdBy: Option<string>)

  /** The record built from a CSV row once its subject is known: question text
      from `question_text`, else `question`; each option from `option_x`, else
      `x`; the answer from `correct_answer`, else `answer`, else "A", upper-cased;
      the difficulty from `difficulty`, else "medium". */
  function RecordFromRow(row: Row, subjectId: string, topicId: Option<string>, createdBy: Option<string>)
    : (r: QuestionRecord)
    ensures r.subjectId == subjectId && r.topicId == topicId && r.createdBy == createdBy
    ensures r.questionText == FieldOr(row, QuestionText, FieldOr(row, QuestionShort, ""))
    ensures r.optionA == FieldOr(row, OptionA, FieldOr(row, LetterA, ""))
    ensures r.optionB == FieldOr(row, OptionB, FieldOr(row, LetterB, ""))
    ensures r.optionC == FieldOr(row, OptionC, FieldOr(row, LetterC, ""))
    ensures r.optionD == FieldOr(row, OptionD, FieldOr(row, LetterD, ""))
    ensures CorrectAnswer !in row && AnswerShort !in row ==> r.correctAnswer == "A"
    ensures r.correctAnswer == ToUpper(FieldOr(row, CorrectAnswer, FieldOr(row, AnswerShort, "A")))
    ensures forall i :: 0 <= i < |r.correctAnswer| ==> !IsLowerAscii(r.correctAnswer[i])
    ensures r.difficulty == FieldOr(row, DifficultyLevel, "medium")
  {
    QuestionRecord(
      subjectId,
      topicId,
      FieldOr(row, QuestionText, FieldOr(row, QuestionShort, "")),
      FieldOr(row, OptionA, FieldOr(row, LetterA, "")),
      FieldOr(row, OptionB, FieldOr(row, LetterB, "")),
      FieldOr(row, OptionC, FieldOr(row, LetterC, "")),
      FieldOr(row, OptionD, FieldOr(row, LetterD, "")),
      ToUpper(FieldOr(row, CorrectAnswer, FieldOr(row, AnswerShort, "A"))),
      FieldOr(row, DifficultyLevel, "medium"),
      createdBy)
  }

  /** The first subject whose lower-cased name is `name`. */
  function FindSubject(subjects: seq<Subject>, name: string): (r: Option<Subject>)
    ensures r.None? <==> forall i :: 0 <= i < |subjects| ==> ToLower(subjects[i].name) != name
    ensures r.Some? ==> exists i :: 0 <= i < |subjects| && subjects[i] == r.value
                          && ToLower(subjects[i].name) == name
                          && forall j :: 0 <= j < i ==> ToLower(subjects[j].name) != name
  {
    FindSubjectFrom(subjects, name, 0)
  }

  /** The search of `FindSubject` from index `from` on. */
  function FindSubjectFrom(subjects: seq<Subject>, name: string, from: nat): (r: Option<Subject>)
    requires from <= |subjects|
    decreases |subjects| - from
    ensures r.None? <==> forall i :: from <= i < |subjects| ==> ToLower(subjects[i].name) != name
    ensures r.Some? ==> exists i :: from <= i < |subjects| && subjects[i] == r.value
                          && ToLower(subjects[i].name) == name
                          && forall j :: from <= j < i ==> ToLower(subjects[j].name) != name
  {
    if from == |subjects| then None
    else if ToLower(subjects[from].name) == name then Some(subjects[from])
    else FindSubjectFrom(subjects, name, from + 1)
  }

  /** Whether topic `t` is named `name` and belongs to the matched subject. */
  predicate TopicMatches(t: Topic, name: string, subject: Option<Subject>) {
    ToLower(t.name) == name && subject.Some? && t.subjectId == subject.value.id
  }

  /** The first topic whose lower-cased name is `name` and whose subject is the
      matched one; none when no subject matched. */
  function FindTopic(topics: seq<Topic>, name: string, subject: Option<Subject>): (r: Option<Topic>)
    ensures subject.None? ==> r.None?
    ensures r.None? <==> forall i :: 0 <= i < |topics| ==> !TopicMatches(topics[i], name, subject)
    ensures r.Some? ==> exists i :: 0 <= i < |topics| && topics[i] == r.value
                          && TopicMatches(topics[i], name, subject)
                          && forall j :: 0 <= j < i ==> !TopicMatches(topics[j], name, subject)
  {
    FindTopicFrom(topics, name, subject, 0)
  }

  /** The search of `FindTopic` from index `from` on. */
  function FindTopicFrom(topics: seq<Topic>, name: string, subject: Option<Subject>, from: nat): (r: Option<Topic>)
    requires from <= |topics|
    decreases |topics| - from
    ensures r.None? <==> forall i :: from <= i < |topics| ==> !TopicMatches(topics[i], name, subject)
    ensures r.Some? ==> exists i :: from <= i < |topics| && topics[i] == r.value
                          && TopicMatches(topics[i], name, subject)
                          && forall j :: from <= j < i ==> !TopicMatches(topics[j], name, subject)
  {
    if from == |topics| then None
    else if TopicMatches(topics[from], name, subject) then Some(topics[from])
    else FindTopicFrom(topics, name, subject, from + 1)
  }

  /** `topic?.id ?? null`: the id of the matched topic, or none. */
  function TopicIdOf(t: Option<Topic>): (r: Option<string>)
    ensures r.Some? <==> t.Some?
    ensures t.Some? ==> r.value == t.value.id
  {
    if t.Some? then Some(t.value.id) else None
  }

  /** The records actually stored: rows that reached the insert (`Some`) and
      that the database accepted (`accepted[i]`), in upload order. */
  function Stored(attempts: seq<Option<QuestionRecord>>, accepted: seq<bool>): (r: seq<QuestionRecord>)
    requires |accepted| == |attempts|
    ensures |r| <= |attempts|
  {
    if attempts == [] then []
    else
      var n := |attempts| - 1;
      Stored(attempts[..n], accepted[..n]) + (if attempts[n].Some? && accepted[n] then [attempts[n].value] else [])
  }

  /** Every stored record came from a row that reached the insert and was accepted. */
  lemma {:induction false} StoredFromAttempts(attempts: seq<Option<QuestionRecord>>, accepted: seq<bool>)
    requires |accepted| == |attempts|
    ensures forall x :: x in Stored(attempts, accepted) ==>
              exists i :: 0 <= i < |attempts| && attempts[i] == Some(x) && accepted[i]
  {
    if attempts != [] {
      var n := |attempts| - 1;
      StoredFromAttempts(attempts[..n], accepted[..n]);
      forall x | x in Stored(attempts, accepted)
        ensures exists i :: 0 <= i < |attempts| && attempts[i] == Some(x) && accepted[i]
      {
        if x in Stored(attempts[..n], accepted[..n]) {
          var i :| 0 <= i < n && attempts[..n][i] == Some(x) && accepted[..n][i];
          assert attempts[i] == Some(x) && accepted[i];
        } else {
          assert attempts[n] == Some(x) && accepted[n];
        }
      }
    }
  }

  /** The upload loop: a skipped row or a rejected insert is `failed++`, an
      accepted insert `inserted++`. */
  method Tally(attempts: seq<Option<QuestionRecord>>, accepted: seq<bool>)
    returns (inserted: nat, failed: nat, stored: seq<QuestionRecord>)
    requires |accepted| == |attempts|
    ensures stored == Stored(attempts, accepted)
    ensures inserted == |stored| && inserted + failed == |attempts|
  {
    inserted, failed, stored := 0, 0, [];
    for n := 0 to |attempts|
      invariant stored == Stored(attempts[..n], accepted[..n])
      invariant inserted == |stored| && inserted + failed == n
    {
      assert attempts[..n + 1][..n] == attempts[..n] && accepted[..n + 1][..n] == accepted[..n];
      var a := attempts[n];
      if a.None? {
        failed := failed + 1;
        continue;
      }
      if accepted[n] {
        inserted := inserted + 1;
        stored := stored + [a.value];
      } else {
        failed := failed + 1;
      }
    }
    assert attempts[..|attempts|] == attempts && accepted[..|accepted|] == accepted;
  }

  /** What the `questions` table's CHECK constraints admit: `correct_answer` in
      'a'..'d' (lower case) and `difficulty` in easy/medium/hard. */
  predicate SchemaAdmits(r: QuestionRecord) {
    && (r.correctAnswer == "a" || r.correctAnswer == "b" || r.correctAnswer == "c" || r.correctAnswer == "d")
    && (r.difficulty == "easy" || r.difficulty == "medium" || r.difficulty == "hard")
  }

  /** A record built from a CSV row carries an upper-cased answer, which the
      table's lower-case CHECK never admits. */
  lemma RowRecordNeverAdmitted(row: Row, subjectId: string, topicId: Option<string>, createdBy: Option<string>)
    ensures !SchemaAdmits(RecordFromRow(row, subjectId, topicId, createdBy))
  {
    var r := RecordFromRow(row, subjectId, topicId, createdBy);
    if |r.correctAnswer| == 1 {
      assert !IsLowerAscii(r.correctAnswer[0]);
    }
  }

  /** Against a database that enforces the CHECK constraints, an upload whose
      records all carry an answer without lower-case letters stores nothing. */
  lemma {:induction false} NothingStoredUnderSchema(attempts: seq<Option<QuestionRecord>>, accepted: seq<bool>)
    requires |accepted| == |attempts|
    requires forall i :: 0 <= i < |attempts| && attempts[i].Some? && accepted[i] ==> SchemaAdmits(attempts[i].value)
    requires forall i :: 0 <= i < |attempts| && attempts[i].Some? ==>
               forall k :: 0 <= k < |attempts[i].value.correctAnswer| ==> !IsLowerAscii(attempts[i].value.correctAnswer[k])
    ensures Stored(attempts, accepted) == []
  {
    if attempts != [] {
      var n := |attempts| - 1;
      NothingStoredUnderSchema(attempts[..n], accepted[..n]);
      var a := attempts[n];
      if a.Some? && |a.value.correctAnswer| == 1 {
        assert !IsLowerAscii(a.value.correctAnswer[0]);
      }
    }
  }
}

=== FILE: question_submit.dfy ===
/** The contributor page for new questions (src/app/questions/submit/page.tsx):
    a four-step form for one question and a CSV upload for many. */
module QuestionSubmit {
  import opened Records
  import opened Strings
  import opened QuestionIntake
  import opened Seqs

  const SubjectMissing := "Please select a subject."
  const TextMissing := "Question text is required."
  const OptionMissing := "All four options are required."
  const Submitted := "Question submitted! Thank you for contributing."

  /** No option is blank after trimming. */
  predicate OptionsFilled(f: QuestionForm) {
    !AllSpace(f.optionA) && !AllSpace(f.optionB) && !AllSpace(f.optionC) && !AllSpace(f.optionD)
  }

  /** `validate()`: the first failing check's message, or "" when the form is complete. */
  function Validate(f: QuestionForm): (msg: string)
    ensures msg == "" <==> f.subjectId != "" && !AllSpace(f.questionText) && OptionsFilled(f)
    ensures f.subjectId == "" ==> msg == SubjectMissing
    ensures f.subjectId != "" && AllSpace(f.questionText) ==> msg == TextMissing
    ensures f.subjectId != "" && !AllSpace(f.questionText) && !OptionsFilled(f) ==> msg == OptionMissing
  {
    if f.subjectId == "" then SubjectMissing
    else if Trim(f.questionText) == "" then TextMissing
    else if Trim(f.optionA) == "" || Trim(f.optionB) == "" || Trim(f.optionC) == "" || Trim(f.optionD) == "" then OptionMissing
    else ""
  }

  /** `stepValid(s)`: the condition for leaving step `s` of the form. */
  function StepValid(f: QuestionForm, step: int): (ok: bool)
    ensures step == 1 ==> (ok <==> f.subjectId != "")
    ensures step == 2 ==> (ok <==> Utf16Length(Trim(f.questionText)) > 10)
    ensures step == 3 ==> (ok <==> OptionsFilled(f))
    ensures step != 1 && step != 2 && step != 3 ==> ok
  {
    if step == 1 then f.subjectId != ""
    else if step == 2 then Utf16Length(Trim(f.questionText)) > 10
    else if step == 3 then Trim(f.optionA) != "" && Trim(f.optionB) != "" && Trim(f.optionC) != "" && Trim(f.optionD) != ""
    else true
  }

  /** A form that passed the first three steps always validates. */
  lemma StepsImplyValid(f: QuestionForm)
    requires StepValid(f, 1) && StepValid(f, 2) && StepValid(f, 3)
    ensures Validate(f) == ""
  {
    assert Trim(f.questionText) != [];
  }

  /** The length test of step 2 counts UTF-16 code units: six characters from
      outside the Basic Multilingual Plane make twelve units and pass it. */
  lemma AstralTextPassesStep2(f: QuestionForm)
    requires f.questionText == ['\U{1F4DA}', '\U{1F4DA}', '\U{1F4DA}', '\U{1F4DA}', '\U{1F4DA}', '\U{1F4DA}']
    ensures StepValid(f, 2) && |Trim(f.questionText)| == 6
  {
    var s := f.questionText;
    assert TrimStart(s) == s;
    assert TrimEnd(s) == s;
  }

  /** The single-question payload: the form, an empty topic sent as null, and the contributor. */
  function SingleRecord(f: QuestionForm, userId: string): (r: QuestionRecord)
    ensures r.topicId.None? <==> f.topicId == ""
    ensures r.topicId.Some? ==> r.topicId.value == f.topicId
    ensures r.subjectId == f.subjectId && r.questionText == f.questionText && r.createdBy == Some(userId)
    ensures r.optionA == f.optionA && r.optionB == f.optionB && r.optionC == f.optionC && r.optionD == f.optionD
    ensures r.correctAnswer == f.correctAnswer && r.difficulty == f.difficulty
  {
    QuestionRecord(f.subjectId, if f.topicId == "" then None else Some(f.topicId), f.questionText,
                   f.optionA, f.optionB, f.optionC, f.optionD, f.correctAnswer, f.difficulty, Some(userId))
  }

  /** A cell used as a lookup key: missing counts as "", trimmed, then lower-cased. */
  function Key(row: Row, key: Column): string {
    ToLower(Trim(FieldOr(row, key, "")))
  }

  /** One CSV row: skipped (`None`) when no subject matches or `question_text` is
      missing or empty; otherwise the record, with the topic looked up within
      the matched subject. */
  function MapRow(row: Row, subjects: seq<Subject>, topics: seq<Topic>, userId: string): (r: Option<QuestionRecord>)
    ensures r.None? <==> (forall i :: 0 <= i < |subjects| ==> ToLower(subjects[i].name) != Key(row, SubjectName))
                         || !Truthy(Field(row, QuestionText))
    ensures r.Some? ==> r.value == RecordFromRow(row, r.value.subjectId, r.value.topicId, Some(userId))
    ensures r.Some? ==> r.value.subjectId == FindSubject(subjects, Key(row, SubjectName)).value.id
    ensures r.Some? ==> r.value.topicId == TopicIdOf(FindTopic(topics, Key(row, TopicName), FindSubject(subjects, Key(row, SubjectName))))
    ensures r.Some? ==> && r.value.questionText == row[QuestionText]
                        && r.value.createdBy == Some(userId)
                        && (forall k :: 0 <= k < |r.value.correctAnswer| ==> !IsLowerAscii(r.value.correctAnswer[k]))
                        && (exists s :: s in subjects && s.id == r.value.subjectId && ToLower(s.name) == Key(row, SubjectName))
    ensures r.Some? && r.value.topicId.Some? ==>
              exists t :: t in topics && t.id == r.value.topicId.value && t.subjectId == r.value.subjectId
                          && ToLower(t.name) == Key(row, TopicName)
    ensures r.Some? && (forall t :: t in topics && t.subjectId == r.value.subjectId ==> ToLower(t.name) != Key(row, TopicName)) ==>
              r.value.topicId.None?
  {
    var subj := FindSubject(subjects, Key(row, SubjectName));
    var topic := FindTopic(topics, Key(row, TopicName), subj);
    if subj.None? || !Truthy(Field(row, QuestionText)) then None
    else
      assert subj.value in subjects;
      if topic.Some? then
        assert topic.value in topics;
        Some(RecordFromRow(row, subj.value.id, Some(topic.value.id), Some(userId)))
      else
        assert forall t :: t in topics && t.subjectId == subj.value.id ==> ToLower(t.name) != Key(row, TopicName) by {
          forall t | t in topics && t.subjectId == subj.value.id
            ensures ToLower(t.name) != Key(row, TopicName)
          {
            var i :| 0 <= i < |topics| && topics[i] == t;
          }
        }
        Some(RecordFromRow(row, subj.value.id, None, Some(userId)))
  }

  function Plural(n: nat): string {
    if n != 1 then "s" else ""
  }

  datatype Notice = Success(text: string) | Failure(text: string)

  const UploadDone := "Bulk upload complete: "
  const UploadFailed := "Upload failed. "

  /** The message after an upload: a success message iff some row was inserted. */
  function UploadNotice(inserted: nat, failed: nat): (n: Notice)
    ensures n.Success? <==> inserted > 0
  {
    if inserted > 0 then
      Success((UploadDone + NatToString(inserted) + " question")
              + (Plural(inserted) + " added" + (if failed > 0 then ", " + NatToString(failed) + " skipped" else "") + "!"))
    else
      Failure((UploadFailed + NatToString(failed) + " row")
              + (Plural(failed) + " had errors. Check subject names match exactly."))
  }

  /** The upload message reports the number inserted, or on failure the number of bad rows. */
  lemma UploadNoticeCounts(inserted: nat, failed: nat)
    ensures var n := UploadNotice(inserted, failed);
      && (n.Success? ==> StartsWith(n.text, UploadDone + NatToString(inserted) + " question"))
      && (n.Failure? ==> StartsWith(n.text, UploadFailed + NatToString(failed) + " row"))
  {
    if inserted > 0 {
      StartsWithAppend(UploadDone + NatToString(inserted) + " question",
        Plural(inserted) + " added" + (if failed > 0 then ", " + NatToString(failed) + " skipped" else "") + "!");
    } else {
      StartsWithAppend(UploadFailed + NatToString(failed) + " row",
        Plural(failed) + " had errors. Check subject names match exactly.");
    }
  }

  datatype Mode = Single | Bulk

  /** The contributor page's state. `stored` is what reached the `questions` table. */
  class SubmitPage {
    const subjects: seq<Subject>
    const topics: seq<Topic>
    const userId: string
    var mode: Mode
    var form: QuestionForm
    var step: int
    var myCount: nat
    var error: string
    var success: string
    var preview: seq<Row>
    var stored: seq<QuestionRecord>

    predicate Valid()
      reads this
    {
      1 <= step <= 4
    }

    constructor (subjects: seq<Subject>, topics: seq<Topic>, userId: string, myCount: nat)
      ensures Valid()
      ensures this.subjects == subjects && this.topics == topics && this.userId == userId
      ensures this.myCount == myCount && mode == Single && form == EmptyForm && step == 1
      ensures error == "" && success == "" && preview == [] && stored == []
    {
      this.subjects := subjects;
      this.topics := topics;
      this.userId := userId;
      this.myCount := myCount;
      mode := Single;
      form := EmptyForm;
      step := 1;
      error := "";
      success := "";
      preview := [];
      stored := [];
    }

    /** The single/bulk toggle: clears the messages and the preview and restarts the form at step 1. */
    method SelectMode(m: Mode)
      requires Valid()
      modifies this
      ensures Valid()
      ensures mode == m && step == 1 && error == "" && success == "" && preview == []
      ensures form == old(form) && myCount == old(myCount) && stored == old(stored)
    {
      mode := m;
      error := "";
      success := "";
      preview := [];
      step := 1;
    }

    /** Choosing a subject clears the topic, which belonged to the previous subject. */
    method SelectSubject(id: string)
      requires Valid()
      modifies this
      ensures Valid()
      ensures form == old(form).(subjectId := id, topicId := "")
      ensures step == old(step) && myCount == old(myCount) && stored == old(stored)
      ensures error == old(error) && success == old(success) && mode == old(mode) && preview == old(preview)
    {
      form := form.(subjectId := id, topicId := "");
    }

    /** Typing into or clicking any other field of the form. */
    method EditFields(f: QuestionForm)
      requires Valid()
      modifies this
      ensures Valid()
      ensures form == f.(subjectId := old(form).subjectId)
      ensures step == old(step) && myCount == old(myCount) && stored == old(stored)
      ensures error == old(error) && success == old(success) && mode == old(mode) && preview == old(preview)
    {
      form := f.(subjectId := form.subjectId);
    }

    /** "Back", disabled at step 1. */
    method Back()
      requires Valid()
      modifies this
      ensures Valid()
      ensures old(step) > 1 ==> step == old(step) - 1 && error == ""
      ensures old(step) == 1 ==> step == 1 && error == old(error)
      ensures form == old(form) && myCount == old(myCount) && stored == old(stored)
      ensures success == old(success) && mode == old(mode) && preview == old(preview)
    {
      if step > 1 {
        step := step - 1;
        error := "";
      }
    }

    /** "Continue", offered below step 4 and enabled only when the step is valid. */
    method Continue()
      requires Valid()
      modifies this
      ensures Valid()
      ensures step == if old(step) < 4 && StepValid(form, old(step)) then old(step) + 1 else old(step)
      ensures error == if old(step) < 4 && StepValid(form, old(step)) then "" else old(error)
      ensures form == old(form) && myCount == old(myCount) && stored == old(stored)
      ensures success == old(success) && mode == old(mode) && preview == old(preview)
    {
      var f, s := form, step;
      if s < 4 && StepValid(f, s) {
        step := step + 1;
        error := "";
      }
    }

    /** `submitSingle`, with `storeError` the database's answer to the insert. */
    method SubmitSingle(storeError: Option<string>)
      requires Valid()
      modifies this
      ensures Valid()
      ensures Validate(old(form)) != "" ==>
                error == Validate(old(form)) && form == old(form) && step == old(step)
                && stored == old(stored) && myCount == old(myCount) && success == old(success)
      ensures Validate(old(form)) == "" && storeError.Some? ==>
                error == storeError.value && form == old(form) && step == old(step)
                && stored == old(stored) && myCount == old(myCount) && success == old(success)
      ensures Validate(old(form)) == "" && storeError.None? ==>
                && stored == old(stored) + [SingleRecord(old(form), userId)]
                && myCount == old(myCount) + 1
                && form == EmptyForm.(subjectId := old(form).subjectId)
                && step == 1 && error == "" && success == Submitted
      ensures mode == old(mode) && preview == old(preview)
    {
      var f := form;
      var err := Validate(f);
      if err != "" {
        error := err;
        return;
      }
      error := "";
      var record := SingleRecord(f, userId);
      if storeError.Some? {
        error := storeError.value;
        return;
      }
      stored := stored + [record];
      success := Submitted;
      myCount := myCount + 1;
      form := EmptyForm.(subjectId := f.subjectId);
      step := 1;
    }

    /** The page-state half of `handleCSVParse`: the first five rows become the
        preview, the inserted count is added to `myCount`, and the outcome is
        announced as a success or as an error (the other message is kept). */
    method FinishUpload(rows: seq<Row>, inserted: nat, failed: nat)
      requires Valid()
      modifies this`preview, this`myCount, this`success, this`error
      ensures Valid()
      ensures preview == rows[..if |rows| < 5 then |rows| else 5]
      ensures myCount == old(myCount) + inserted
      ensures inserted > 0 ==> success == UploadNotice(inserted, failed).text && error == old(error)
      ensures inserted == 0 ==> error == UploadNotice(inserted, failed).text && success == old(success)
    {
      preview := rows[..if |rows| < 5 then |rows| else 5];
      myCount := myCount + inserted;
      var notice := UploadNotice(inserted, failed);
      if notice.Success? {
        success := notice.text;
      } else {
        error := notice.text;
      }
    }
  }

  /** The insert half of `handleCSVParse`: each row is looked up and, unless
      skipped, inserted; `accepted[i]` is the database's answer to the insert
      of row `i` (unused for a skipped row). `added` is what reached the table. */
  method UploadRows(rows: seq<Row>, subjects: seq<Subject>, topics: seq<Topic>, userId: string, accepted: seq<bool>)
    returns (inserted: nat, failed: nat, added: seq<QuestionRecord>)
    requires |accepted| == |rows|
    ensures added == Stored(Attempts(rows, subjects, topics, userId), accepted)
    ensures inserted == |added| && inserted + failed == |rows|
  {
    var attempts := Attempts(rows, subjects, topics, userId);
    inserted, failed, added := Tally(attempts, accepted);
  }

  /** Each upload row mapped to its record, or to `None` when skipped. */
  function Attempts(rows: seq<Row>, subjects: seq<Subject>, topics: seq<Topic>, userId: string)
    : (r: seq<Option<QuestionRecord>>)
    ensures |r| == |rows|
    ensures forall i :: 0 <= i < |rows| ==> r[i] == MapRow(rows[i], subjects, topics, userId)
  {
    MapEach(rows, (row: Row) => MapRow(row, subjects, topics, userId))
  }

  /** With a database that enforces the table's CHECK constraints, a CSV upload
      stores nothing: every record it builds carries an upper-case answer. */
  lemma UploadUnderSchema(rows: seq<Row>, subjects: seq<Subject>, topics: seq<Topic>, userId: string,
                          accepted: seq<bool>)
    requires |accepted| == |rows|
    requires forall i :: 0 <= i < |rows| && accepted[i] && MapRow(rows[i], subjects, topics, userId).Some? ==>
               SchemaAdmits(MapRow(rows[i], subjects, topics, userId).value)
    ensures Stored(Attempts(rows, subjects, topics, userId), accepted) == []
  {
    NothingStoredUnderSchema(Attempts(rows, subjects, topics, userId), accepted);
  }
}

=== FILE: records.dfy ===
/** The database rows the application reads and writes (src/lib/supabase.ts),
    with `null` written as `None`. Timestamps (`created_at`) are not modelled. */
module Records {

  datatype Option<T> = None | Some(value: T)

  /** The value of a nullable field, or `d` when it is null. */
  function OrElse<T>(x: Option<T>, d: T): T {
    if x.Some? then x.value else d
  }

  datatype Difficulty = Easy | Medium | Hard

  /** The text stored in the `difficulty` column. */
  function DifficultyName(d: Difficulty): string {
    match d
    case Easy => "easy"
    case Medium => "medium"
    case Hard => "hard"
  }

  datatype Question = Question(
    id: string,
    subjectId: string,
    topicId: Option<string>,
    questionText: string,
    optionA: string,
    optionB: string,
    optionC: string,
    optionD: string,
    correctAnswer: string,
    difficulty: Difficulty)

  datatype Subject = Subject(
    id: string,
    name: string,
    description: Option<string>,
    durationMinutes: int)

  datatype Topic = Topic(id: string, subjectId: string, name: string)

  datatype Role = User | Admin

  datatype Profile = Profile(id: string, name: string, email: string, role: Role)

  /** One entry of `topic_performance`: the key is the topic id (or "general"),
      and the stored `topicName` is always that same key. */
  datatype TopicEntry = TopicEntry(key: string, correct: nat, total: nat)

  /** A `test_results` row. `answers` maps question ids to the chosen letter;
      `topicPerformance` lists the topic entries in the order their keys were first met. */
  datatype TestResult = TestResult(
    userId: string,
    subjectId: string,
    score: nat,
    totalQuestions: nat,
    accuracy: real,
    timeTakenSeconds: int,
    answers: map<string, string>,
    weakTopics: seq<string>,
    topicPerformance: seq<TopicEntry>)
}

=== FILE: scoring.dfy ===
/** Scoring of a submitted test (src/app/test/take/page.tsx:53-70): the score,
    the per-topic `{correct, total}` table keyed by `topic_id ?? "general"`,
    the accuracy percentage and the weak topics. The JavaScript object
    `topicPerf` is a sequence of entries in the order its keys were first
    met, which is the order `Object.entries` lists them. */
module Scoring {
  import opened Records

  /** The answer chosen for `q`, or "" when it was left unanswered. */
  function GivenAnswer(answers: map<string, string>, q: Question): string {
    if q.id in answers then answers[q.id] else ""
  }

  predicate IsCorrect(answers: map<string, string>, q: Question) {
    GivenAnswer(answers, q) == q.correctAnswer
  }

  /** The topic key of `q`: its topic id, or "general" when it has none. */
  function TopicKey(q: Question): string {
    OrElse(q.topicId, "general")
  }

  /** The number of questions answered correctly. */
  function Score(qs: seq<Question>, answers: map<string, string>): (n: nat)
    ensures n <= |qs|
  {
    if qs == [] then 0
    else Score(qs[..|qs| - 1], answers) + (if IsCorrect(answers, qs[|qs| - 1]) then 1 else 0)
  }

  /** How many of `qs` belong to topic key `k`. */
  function KeyCount(qs: seq<Question>, k: string): nat {
    if qs == [] then 0
    else KeyCount(qs[..|qs| - 1], k) + (if TopicKey(qs[|qs| - 1]) == k then 1 else 0)
  }

  /** How many of `qs` belong to topic key `k` and are answered correctly. */
  function KeyCorrect(qs: seq<Question>, answers: map<string, string>, k: string): nat {
    if qs == [] then 0
    else
      var q := qs[|qs| - 1];
      KeyCorrect(qs[..|qs| - 1], answers, k) + (if TopicKey(q) == k && IsCorrect(answers, q) then 1 else 0)
  }

  function Keys(perf: seq<TopicEntry>): (ks: seq<string>)
    ensures |ks| == |perf| && forall i :: 0 <= i < |perf| ==> ks[i] == perf[i].key
  {
    seq(|perf|, i requires 0 <= i < |perf| => perf[i].key)
  }

  /** Position of the entry for `key`, or |perf| when there is none. */
  function EntryIndex(perf: seq<TopicEntry>, key: string): (i: nat)
    ensures i <= |perf|
    ensures i < |perf| ==> perf[i].key == key
    ensures i == |perf| <==> key !in Keys(perf)
  {
    if perf == [] then 0
    else if perf[0].key == key then 0
    else
      var j := EntryIndex(perf[1..], key);
      assert Keys(perf) == [perf[0].key] + Keys(perf[1..]);
      j + 1
  }

  /** One question counted into the table: an entry for its topic is added with zero counts
      when there is none yet, then its total and, when correct, its correct count go up by one. */
  function Tally(perf: seq<TopicEntry>, key: string, correct: bool): (r: seq<TopicEntry>)
    ensures Keys(r) == if key in Keys(perf) then Keys(perf) else Keys(perf) + [key]
  {
    var i := EntryIndex(perf, key);
    var inc := if correct then 1 else 0;
    if i == |perf| then perf + [TopicEntry(key, inc, 1)]
    else perf[i := perf[i].(correct := perf[i].correct + inc, total := perf[i].total + 1)]
  }

  /** The table `handleSubmit` builds from the questions in order. */
  function Performance(qs: seq<Question>, answers: map<string, string>): seq<TopicEntry> {
    if qs == [] then []
    else
      var q := qs[|qs| - 1];
      Tally(Performance(qs[..|qs| - 1], answers), TopicKey(q), IsCorrect(answers, q))
  }

  /** The percentage of questions answered correctly, or 0 with no questions. */
  function Accuracy(score: nat, count: nat): real {
    if count > 0 then (score as real / count as real) * 100.0 else 0.0
  }

  /** A topic with questions of which under half, as a real ratio, were answered correctly. */
  predicate IsWeak(e: TopicEntry) {
    e.total > 0 && (e.correct as real) / (e.total as real) < 0.5
  }

  /** The keys of the weak entries, in table order. */
  function WeakTopics(perf: seq<TopicEntry>): (ks: seq<string>)
    ensures forall k :: k in ks <==> exists i :: 0 <= i < |perf| && perf[i].key == k && IsWeak(perf[i])
  {
    if perf == [] then []
    else
      var e := perf[|perf| - 1];
      var rest := WeakTopics(perf[..|perf| - 1]);
      assert forall i :: 0 <= i < |perf| - 1 ==> perf[..|perf| - 1][i] == perf[i];
      rest + (if IsWeak(e) then [e.key] else [])
  }

  /** The scoring loop of `handleSubmit`: one pass over the questions updating the score
      and the per-topic table in place. */
  method ScoreAnswers(questions: seq<Question>, answers: map<string, string>)
    returns (score: nat, topicPerf: seq<TopicEntry>)
    ensures score == Score(questions, answers)
    ensures topicPerf == Performance(questions, answers)
  {
    score := 0;
    topicPerf := [];
    for n := 0 to |questions|
      invariant score == Score(questions[..n], answers)
      invariant topicPerf == Performance(questions[..n], answers)
    {
      var q := questions[n];
      ScoreStep(questions, n, answers);
      var userAns := if q.id in answers then answers[q.id] else "";
      var correct := userAns == q.correctAnswer;
      assert correct == IsCorrect(answers, q);
      if correct {
        score := score + 1;
      }
      var tid := TopicKey(q);
      topicPerf := Tally(topicPerf, tid, correct);
    }
    assert questions[..|questions|] == questions;
  }

  /** Scoring one more question adds it to the score and tallies it into the table. */
  lemma ScoreStep(qs: seq<Question>, n: int, answers: map<string, string>)
    requires 0 <= n < |qs|
    ensures Score(qs[..n + 1], answers) == Score(qs[..n], answers) + (if IsCorrect(answers, qs[n]) then 1 else 0)
    ensures Performance(qs[..n + 1], answers) == Tally(Performance(qs[..n], answers), TopicKey(qs[n]), IsCorrect(answers, qs[n]))
  {
    assert qs[..n + 1][..n] == qs[..n];
  }

  /** `perf` is the table of `qs`: one entry per topic key met, each counting
      exactly the questions of its key and the correct ones among them. */
  ghost predicate TableOf(perf: seq<TopicEntry>, qs: seq<Question>, answers: map<string, string>) {
    && (forall i, j :: 0 <= i < j < |perf| ==> perf[i].key != perf[j].key)
    && (forall k :: k in Keys(perf) <==> KeyCount(qs, k) > 0)
    && (forall i :: 0 <= i < |perf| ==>
          perf[i].total == KeyCount(qs, perf[i].key) && perf[i].correct == KeyCorrect(qs, answers, perf[i].key))
  }

  lemma CountsStep(qs: seq<Question>, q: Question, answers: map<string, string>, k: string)
    ensures KeyCount(qs + [q], k) == KeyCount(qs, k) + (if TopicKey(q) == k then 1 else 0)
    ensures KeyCorrect(qs + [q], answers, k) ==
              KeyCorrect(qs, answers, k) + (if TopicKey(q) == k && IsCorrect(answers, q) then 1 else 0)
  {
    assert (qs + [q])[..|qs|] == qs;
  }

  lemma TallyKeysDistinct(perf: seq<TopicEntry>, key: string, correct: bool)
    requires forall i, j :: 0 <= i < j < |perf| ==> perf[i].key != perf[j].key
    ensures var r := Tally(perf, key, correct); forall i, j :: 0 <= i < j < |r| ==> r[i].key != r[j].key
  {
    var r := Tally(perf, key, correct);
    var ks := Keys(perf);
    forall i, j | 0 <= i < j < |r|
      ensures r[i].key != r[j].key
    {
      assert r[i].key == Keys(r)[i] && r[j].key == Keys(r)[j];
      if key in ks {
        assert Keys(r)[i] == ks[i] && Keys(r)[j] == ks[j];
      } else if j == |perf| {
        assert Keys(r)[i] == ks[i] && Keys(r)[j] == key;
        assert ks[i] in ks;
      } else {
        assert Keys(r)[i] == ks[i] && Keys(r)[j] == ks[j];
      }
    }
  }

  /** Counting one more question keeps the table exact. */
  lemma TallyKeepsTable(perf: seq<TopicEntry>, qs: seq<Question>, q: Question, answers: map<string, string>)
    requires TableOf(perf, qs, answers)
    ensures TableOf(Tally(perf, TopicKey(q), IsCorrect(answers, q)), qs + [q], answers)
  {
    var key := TopicKey(q);
    var r := Tally(perf, key, IsCorrect(answers, q));
    TallyKeysDistinct(perf, key, IsCorrect(answers, q));
    forall k
      ensures k in Keys(r) <==> KeyCount(qs + [q], k) > 0
    {
      CountsStep(qs, q, answers, k);
    }
    forall j | 0 <= j < |r|
      ensures r[j].total == KeyCount(qs + [q], r[j].key) && r[j].correct == KeyCorrect(qs + [q], answers, r[j].key)
    {
      TallyEntry(perf, qs, q, answers, j);
    }
  }

  /** Entry `j` of the table after counting `q`: the tallied entry gains `q`,
      every other entry keeps counts that `q` does not change. */
  lemma TallyEntry(perf: seq<TopicEntry>, qs: seq<Question>, q: Question, answers: map<string, string>, j: int)
    requires TableOf(perf, qs, answers)
    requires 0 <= j < |Tally(perf, TopicKey(q), IsCorrect(answers, q))|
    ensures var e := Tally(perf, TopicKey(q), IsCorrect(answers, q))[j];
      e.total == KeyCount(qs + [q], e.key) && e.correct == KeyCorrect(qs + [q], answers, e.key)
  {
    var key := TopicKey(q);
    var inc := if IsCorrect(answers, q) then 1 else 0;
    var r := Tally(perf, key, IsCorrect(answers, q));
    var i := EntryIndex(perf, key);
    var e := r[j];
    CountsStep(qs, q, answers, e.key);
    if j == i && i == |perf| {
      // A new entry for the key of `q`, which no earlier question had.
      assert e == TopicEntry(key, inc, 1);
      assert key !in Keys(perf);
      assert KeyCount(qs, key) == 0;
      CorrectAtMostTotal(qs, answers, key);
      assert KeyCorrect(qs, answers, key) == 0;
    } else if j == i {
      // The existing entry for the key of `q`, one question more.
      var prev := perf[i];
      assert prev.key == key;
      assert prev.total == KeyCount(qs, key) && prev.correct == KeyCorrect(qs, answers, key);
      assert e == prev.(correct := prev.correct + inc, total := prev.total + 1);
    } else {
      // Another key: the entry and its counts are unchanged.
      assert e == perf[j];
      if i < |perf| {
        assert perf[i].key == key;
      } else {
        assert Keys(perf)[j] == perf[j].key;
      }
      assert e.key != key;
      assert e.total == KeyCount(qs, e.key) && e.correct == KeyCorrect(qs, answers, e.key);
    }
  }

  /** The table `handleSubmit` builds is exact: one entry per topic key met, each
      counting the questions of its key and the correct ones among them. */
  lemma {:induction false} PerformanceCounts(qs: seq<Question>, answers: map<string, string>)
    ensures TableOf(Performance(qs, answers), qs, answers)
  {
    if qs != [] {
      var pre := qs[..|qs| - 1];
      var q := qs[|qs| - 1];
      assert qs == pre + [q] && qs[..|qs|] == qs;
      ScoreStep(qs, |qs| - 1, answers);
      PerformanceCounts(pre, answers);
      TallyKeepsTable(Performance(pre, answers), pre, q, answers);
    }
  }

  /** Every entry has `0 <= correct <= total`. */
  lemma {:induction false} CorrectAtMostTotal(qs: seq<Question>, answers: map<string, string>, k: string)
    ensures KeyCorrect(qs, answers, k) <= KeyCount(qs, k)
  {
    if qs != [] {
      CorrectAtMostTotal(qs[..|qs| - 1], answers, k);
    }
  }

  function SumTotal(perf: seq<TopicEntry>): nat {
    if perf == [] then 0 else SumTotal(perf[..|perf| - 1]) + perf[|perf| - 1].total
  }

  function SumCorrect(perf: seq<TopicEntry>): nat {
    if perf == [] then 0 else SumCorrect(perf[..|perf| - 1]) + perf[|perf| - 1].correct
  }

  lemma {:induction false} SumsUpdate(perf: seq<TopicEntry>, i: nat, e: TopicEntry)
    requires i < |perf|
    ensures SumTotal(perf[i := e]) == SumTotal(perf) - perf[i].total + e.total
    ensures SumCorrect(perf[i := e]) == SumCorrect(perf) - perf[i].correct + e.correct
  {
    var n := |perf| - 1;
    if i < n {
      assert perf[i := e][..n] == perf[..n][i := e];
      SumsUpdate(perf[..n], i, e);
    } else {
      assert perf[i := e][..n] == perf[..n];
    }
  }

  lemma SumsAppend(perf: seq<TopicEntry>, e: TopicEntry)
    ensures SumTotal(perf + [e]) == SumTotal(perf) + e.total
    ensures SumCorrect(perf + [e]) == SumCorrect(perf) + e.correct
  {
    assert (perf + [e])[..|perf|] == perf;
  }

  /** The totals add up to the number of questions and the correct counts to the score. */
  lemma {:induction false} PerformanceSums(qs: seq<Question>, answers: map<string, string>)
    ensures SumTotal(Performance(qs, answers)) == |qs|
    ensures SumCorrect(Performance(qs, answers)) == Score(qs, answers)
  {
    if qs != [] {
      var pre := qs[..|qs| - 1];
      var q := qs[|qs| - 1];
      PerformanceSums(pre, answers);
      TallySums(Performance(pre, answers), TopicKey(q), IsCorrect(answers, q));
    }
  }

  /** Counting one question adds one to the totals, and one to the correct
      counts when it is correct. */
  lemma TallySums(perf: seq<TopicEntry>, key: string, correct: bool)
    ensures SumTotal(Tally(perf, key, correct)) == SumTotal(perf) + 1
    ensures SumCorrect(Tally(perf, key, correct)) == SumCorrect(perf) + (if correct then 1 else 0)
  {
    var i := EntryIndex(perf, key);
    var inc := if correct then 1 else 0;
    if i == |perf| {
      assert Tally(perf, key, correct) == perf + [TopicEntry(key, inc, 1)];
      SumsAppend(perf, TopicEntry(key, inc, 1));
    } else {
      var e := perf[i].(correct := perf[i].correct + inc, total := perf[i].total + 1);
      assert Tally(perf, key, correct) == perf[i := e];
      SumsUpdate(perf, i, e);
    }
  }

  /** `correct / total < 0.5` over the reals is `2 * correct < total`. */
  lemma WeakIsUnderHalf(e: TopicEntry)
    ensures IsWeak(e) <==> e.total > 0 && 2 * e.correct < e.total
  {
    if e.total > 0 {
      HalfIff(e.correct as real, e.total as real);
    }
  }

  /** Over the reals, a ratio is under one half exactly when twice its numerator is under its denominator. */
  lemma HalfIff(c: real, t: real)
    requires t > 0.0
    ensures c / t < 0.5 <==> 2.0 * c < t
  {
    var q := c / t;
    assert c == q * t;
    if q < 0.5 {
      assert q * t < 0.5 * t;
    } else {
      assert q * t >= 0.5 * t;
    }
  }

  /** A topic key is weak exactly when some question has it and fewer than half
      of that topic's questions were answered correctly. */
  lemma WeakTopicsExact(qs: seq<Question>, answers: map<string, string>, k: string)
    ensures k in WeakTopics(Performance(qs, answers)) <==>
              KeyCount(qs, k) > 0 && 2 * KeyCorrect(qs, answers, k) < KeyCount(qs, k)
  {
    var perf := Performance(qs, answers);
    PerformanceCounts(qs, answers);
    if k in WeakTopics(perf) {
      var i :| 0 <= i < |perf| && perf[i].key == k && IsWeak(perf[i]);
      EntryIsWeak(perf, qs, answers, i);
    }
    if KeyCount(qs, k) > 0 && 2 * KeyCorrect(qs, answers, k) < KeyCount(qs, k) {
      assert k in Keys(perf);
      var i :| 0 <= i < |perf| && Keys(perf)[i] == k;
      EntryIsWeak(perf, qs, answers, i);
      assert perf[i].key == k && IsWeak(perf[i]);
    }
  }

  lemma EntryIsWeak(perf: seq<TopicEntry>, qs: seq<Question>, answers: map<string, string>, i: nat)
    requires TableOf(perf, qs, answers) && i < |perf|
    ensures IsWeak(perf[i]) <==>
              KeyCount(qs, perf[i].key) > 0 && 2 * KeyCorrect(qs, answers, perf[i].key) < KeyCount(qs, perf[i].key)
  {
    WeakIsUnderHalf(perf[i]);
  }

  /** Accuracy lies in [0, 100]; it is 100 exactly when every one of a non-empty
      set of questions is correct, and 0 exactly when none is or there are none. */
  lemma AccuracyBounds(score: nat, count: nat)
    requires score <= count
    ensures 0.0 <= Accuracy(score, count) <= 100.0
    ensures Accuracy(score, count) == 100.0 <==> count > 0 && score == count
    ensures Accuracy(score, count) == 0.0 <==> score == 0
  {
    if count > 0 {
      RatioVsOne(score as real, count as real);
    }
  }

  /** Over the reals, a ratio compares with 1 as its numerator compares with its denominator. */
  lemma RatioVsOne(s: real, c: real)
    requires c > 0.0
    ensures s / c < 1.0 <==> s < c
    ensures s / c == 1.0 <==> s == c
  {
    var q := s / c;
    assert s == q * c;
    if q > 1.0 {
      assert q * c > 1.0 * c;
    } else if q < 1.0 {
      assert q * c < 1.0 * c;
    }
  }

  /** A missing answer counts as "" and so never matches a non-empty correct answer. */
  lemma {:induction false} NoAnswersScoreZero(qs: seq<Question>)
    requires forall q :: q in qs ==> q.correctAnswer != ""
    ensures Score(qs, map[]) == 0
  {
    if qs != [] {
      NoAnswersScoreZero(qs[..|qs| - 1]);
    }
  }

  /** With no answers and never-empty answer keys, no question of any topic is correct. */
  lemma {:induction false} NoAnswersNoneCorrect(qs: seq<Question>, k: string)
    requires forall q :: q in qs ==> q.correctAnswer != ""
    ensures KeyCorrect(qs, map[], k) == 0
  {
    if qs != [] {
      NoAnswersNoneCorrect(qs[..|qs| - 1], k);
    }
  }

  /** The letters the test page records when an option is chosen. */
  predicate IsChoiceLetter(s: string) {
    s == "A" || s == "B" || s == "C" || s == "D"
  }

  /** The values the `questions` table accepts for `correct_answer`. */
  predicate IsSchemaAnswer(s: string) {
    s == "a" || s == "b" || s == "c" || s == "d"
  }

  /** The test page records upper-case letters and compares case-sensitively,
      so against questions whose answers follow the table's lower-case rule
      no answer ever scores. */
  lemma {:induction false} CaseMismatchScoresZero(qs: seq<Question>, answers: map<string, string>)
    requires forall q :: q in qs ==> IsSchemaAnswer(q.correctAnswer)
    requires forall id :: id in answers ==> IsChoiceLetter(answers[id])
    ensures Score(qs, answers) == 0
  {
    if qs != [] {
      CaseMismatchScoresZero(qs[..|qs| - 1], answers);
      var q := qs[|qs| - 1];
      assert q in qs;
      if q.id in answers {
        assert IsChoiceLetter(answers[q.id]);
      }
    }
  }
}

=== FILE: seqs.dfy ===
/** Sequence operations shared by the model: `Array.prototype.filter`,
    counting, duplicate-freedom, and permutations of positions, which stand for
    the random shuffles of the test generator. */
module Seqs {

  /** `s.filter(f)`: the elements of `s` satisfying `f`, in their order. */
  function Filter<T(!new)>(s: seq<T>, f: T -> bool): (r: seq<T>)
    ensures |r| <= |s|
    ensures forall x :: x in r <==> x in s && f(x)
  {
    if s == [] then [] else Filter(s[..|s| - 1], f) + (if f(s[|s| - 1]) then [s[|s| - 1]] else [])
  }

  /** How many elements of `s` satisfy `f`. */
  function Count<T(!new)>(s: seq<T>, f: T -> bool): nat
  {
    |Filter(s, f)|
  }

  /** How many times `x` occurs in `s`. */
  function Occurrences<T(==,!new)>(s: seq<T>, x: T): (n: nat)
    ensures n <= |s|
    ensures n == multiset(s)[x]
  {
    if s == [] then 0
    else
      assert s == s[..|s| - 1] + [s[|s| - 1]];
      Occurrences(s[..|s| - 1], x) + (if s[|s| - 1] == x then 1 else 0)
  }

  /** `f` applied to each element of `xs`, in order. */
  function MapEach<A, B>(xs: seq<A>, f: A -> B): (r: seq<B>)
    ensures |r| == |xs|
    ensures forall i :: 0 <= i < |xs| ==> r[i] == f(xs[i])
  {
    if xs == [] then [] else MapEach(xs[..|xs| - 1], f) + [f(xs[|xs| - 1])]
  }

  predicate Distinct<T(==,!new)>(s: seq<T>) {
    forall i, j :: 0 <= i < j < |s| ==> s[i] != s[j]
  }

  lemma {:induction false} FilterAppend<T(!new)>(a: seq<T>, b: seq<T>, f: T -> bool)
    ensures Filter(a + b, f) == Filter(a, f) + Filter(b, f)
    decreases |b|
  {
    if b != [] {
      assert (a + b)[..|a + b| - 1] == a + b[..|b| - 1];
      FilterAppend(a, b[..|b| - 1], f);
    } else {
      assert a + b == a;
    }
  }

  lemma {:induction false} FilterAll<T(!new)>(s: seq<T>, f: T -> bool)
    requires forall x :: x in s ==> f(x)
    ensures Filter(s, f) == s
  {
    if s != [] {
      var n := |s| - 1;
      var init := s[..n];
      assert s == init + [s[n]];
      assert forall x :: x in init ==> x in s;
      FilterAll(init, f);
      assert f(s[n]);
    }
  }

  lemma {:induction false} FilterNone<T(!new)>(s: seq<T>, f: T -> bool)
    requires forall x :: x in s ==> !f(x)
    ensures Filter(s, f) == []
  {
    if s != [] {
      var n := |s| - 1;
      var init := s[..n];
      assert s == init + [s[n]];
      assert forall x :: x in init ==> x in s;
      FilterNone(init, f);
      assert !f(s[n]);
    }
  }

  /** Filtering keeps the multiplicity of each kept element and drops the others. */
  lemma {:induction false} FilterMultiset<T(!new)>(s: seq<T>, f: T -> bool)
    ensures forall x :: multiset(Filter(s, f))[x] == if f(x) then multiset(s)[x] else 0
  {
    if s != [] {
      FilterMultiset(s[..|s| - 1], f);
      assert s == s[..|s| - 1] + [s[|s| - 1]];
    }
  }

  /** Two arrangements of the same elements have the same number satisfying `f`. */
  lemma CountOfPermutation<T(!new)>(a: seq<T>, b: seq<T>, f: T -> bool)
    requires multiset(a) == multiset(b)
    ensures Count(a, f) == Count(b, f)
  {
    FilterMultiset(a, f);
    FilterMultiset(b, f);
    assert multiset(Filter(a, f)) == multiset(Filter(b, f));
    assert |multiset(Filter(a, f))| == |Filter(a, f)|;
    assert |multiset(Filter(b, f))| == |Filter(b, f)|;
  }

  lemma {:induction false} FilterDistinct<T(!new)>(s: seq<T>, f: T -> bool)
    requires Distinct(s)
    ensures Distinct(Filter(s, f))
  {
    if s != [] {
      FilterDistinct(s[..|s| - 1], f);
    }
  }

  /** Joining two duplicate-free sequences with no element in common keeps them duplicate-free. */
  lemma AppendDistinct<T(!new)>(a: seq<T>, b: seq<T>)
    requires Distinct(a) && Distinct(b)
    requires forall x :: x in a ==> x !in b
    ensures Distinct(a + b)
  {
    var s := a + b;
    forall i, j | 0 <= i < j < |s|
      ensures s[i] != s[j]
    {
      if j < |a| {
        assert s[i] == a[i] && s[j] == a[j];
      } else if i >= |a| {
        assert s[i] == b[i - |a|] && s[j] == b[j - |a|];
      } else {
        assert s[i] in a && s[j] == b[j - |a|];
      }
    }
  }

  /** Dropping from a duplicate-free `s` the elements of a duplicate-free `sub`
      it holds leaves `|s| - |sub|` elements. */
  lemma FilterOutLength<T(!new)>(s: seq<T>, sub: seq<T>, f: T -> bool)
    requires Distinct(s) && Distinct(sub)
    requires forall x :: x in sub ==> x in s
    requires forall x :: f(x) <==> x !in sub
    ensures |Filter(s, f)| == |s| - |sub|
  {
    var r := Filter(s, f);
    FilterDistinct(s, f);
    DistinctCardinality(r);
    DistinctCardinality(s);
    DistinctCardinality(sub);
    var S, B, F := set x | x in s, set x | x in sub, set x | x in r;
    assert F == S - B;
    assert S * B == B && B - S == {} && S + B == S;
  }

  /** A duplicate-free sequence has as many elements as its set. */
  lemma {:induction false} DistinctCardinality<T(!new)>(s: seq<T>)
    requires Distinct(s)
    ensures |set x | x in s| == |s|
  {
    if s != [] {
      var t := s[..|s| - 1];
      DistinctCardinality(t);
      assert (set x | x in s) == (set x | x in t) + {s[|s| - 1]};
      assert s[|s| - 1] !in t;
    }
  }

  /** `p` rearranges the positions `0 .. n-1`: every position occurs exactly once. */
  predicate IsPermutation(p: seq<nat>, n: nat) {
    && |p| == n
    && (forall i :: 0 <= i < n ==> p[i] < n)
    && (forall i, j :: 0 <= i < j < n ==> p[i] != p[j])
    && (forall v :: 0 <= v < n ==> v in p)
  }

  /** `s` rearranged by `p`: position `i` of the result holds `s[p[i]]`. */
  function Permute<T(!new)>(s: seq<T>, p: seq<nat>): (r: seq<T>)
    requires IsPermutation(p, |s|)
    ensures |r| == |s|
    ensures forall i :: 0 <= i < |s| ==> r[i] == s[p[i]]
  {
    seq(|s|, i requires 0 <= i < |s| => s[p[i]])
  }

  /** Removing the entry that names the last position leaves a rearrangement of the others. */
  lemma DropLast(p: seq<nat>, n: nat, k: nat)
    requires n > 0 && IsPermutation(p, n) && k < n && p[k] == n - 1
    ensures IsPermutation(p[..k] + p[k + 1..], n - 1)
  {
    var q := p[..k] + p[k + 1..];
    forall i | 0 <= i < n - 1
      ensures q[i] < n - 1
    {
      if i < k { assert q[i] == p[i]; } else { assert q[i] == p[i + 1]; }
    }
    forall v | 0 <= v < n - 1
      ensures v in q
    {
      assert v in p;
      var j :| 0 <= j < n && p[j] == v;
      if j < k { assert q[j] == v; } else { assert q[j - 1] == v; }
    }
    forall i, j | 0 <= i < j < n - 1
      ensures q[i] != q[j]
    {
      var i' := if i < k then i else i + 1;
      var j' := if j < k then j else j + 1;
      assert q[i] == p[i'] && q[j] == p[j'];
    }
  }

  /** Rearranging by `p` is rearranging the rest by `p` without its last-position entry,
      then inserting the last element where `p` names it. */
  lemma PermuteSplice<T(!new)>(s: seq<T>, p: seq<nat>, k: nat)
    requires |s| > 0 && IsPermutation(p, |s|) && k < |s| && p[k] == |s| - 1
    requires IsPermutation(p[..k] + p[k + 1..], |s| - 1)
    ensures Permute(s, p) == Permute(s[..|s| - 1], p[..k] + p[k + 1..])[..k] + [s[|s| - 1]]
                             + Permute(s[..|s| - 1], p[..k] + p[k + 1..])[k..]
  {
    var q := p[..k] + p[k + 1..];
    var u := Permute(s[..|s| - 1], q);
    var r := Permute(s, p);
    forall i | 0 <= i < |s|
      ensures r[i] == (u[..k] + [s[|s| - 1]] + u[k..])[i]
    {
      if i > k { assert q[i - 1] == p[i]; }
    }
  }

  lemma MultisetSplice<T>(u: seq<T>, k: nat, x: T)
    requires k <= |u|
    ensures multiset(u[..k] + [x] + u[k..]) == multiset(u) + multiset{x}
  {
    assert u == u[..k] + u[k..];
  }

  lemma SpliceStep<T(!new)>(s: seq<T>, p: seq<nat>, k: nat)
    requires |s| > 0 && IsPermutation(p, |s|) && k < |s| && p[k] == |s| - 1
    requires IsPermutation(p[..k] + p[k + 1..], |s| - 1)
    requires multiset(Permute(s[..|s| - 1], p[..k] + p[k + 1..])) == multiset(s[..|s| - 1])
    ensures multiset(Permute(s, p)) == multiset(s)
  {
    PermuteSplice(s, p, k);
    MultisetSplice(Permute(s[..|s| - 1], p[..k] + p[k + 1..]), k, s[|s| - 1]);
    assert s == s[..|s| - 1] + [s[|s| - 1]];
  }

  /** A rearrangement has the same elements with the same multiplicities. */
  lemma {:induction false} PermuteMultiset<T(!new)>(s: seq<T>, p: seq<nat>)
    requires IsPermutation(p, |s|)
    ensures multiset(Permute(s, p)) == multiset(s)
    decreases |s|
  {
    if s != [] {
      var n := |s|;
      assert n - 1 in p;
      var k :| 0 <= k < n && p[k] == n - 1;
      var q := p[..k] + p[k + 1..];
      var t := s[..n - 1];
      DropLast(p, n, k);
      PermuteMultiset(t, q);
      SpliceStep(s, p, k);
    }
  }

  /** A rearrangement of a duplicate-free sequence is duplicate-free. */
  lemma PermuteDistinct<T(!new)>(s: seq<T>, p: seq<nat>)
    requires IsPermutation(p, |s|) && Distinct(s)
    ensures Distinct(Permute(s, p))
  {
  }

  /** A rearrangement has exactly the elements of the original. */
  lemma PermuteElements<T(!new)>(s: seq<T>, p: seq<nat>)
    requires IsPermutation(p, |s|)
    ensures forall x :: x in Permute(s, p) <==> x in s
  {
    PermuteMultiset(s, p);
    forall x
      ensures x in Permute(s, p) <==> x in s
    {
      assert x in Permute(s, p) <==> x in multiset(Permute(s, p));
    }
  }
}

=== FILE: setup_database.dfy ===
/** The database setup script (setup-database.mjs): it reads the Supabase
    credentials from `.env.local`, derives the project reference from the URL,
    sends each schema statement to the management API and tallies the outcomes. */
module SetupDatabase {
  import opened Records
  import opened Strings

  // Reading `.env.local`

  /** A line becomes an entry when it holds "=" and does not begin with "#". */
  predicate Kept(line: string) {
    '=' in line && !StartsWith(line, "#")
  }

  /** The entry of one kept line: the trimmed text before the first "=" and the trimmed text after it. */
  function EntryOf(line: string): (string, string) {
    var parts := Split(line, '=');
    (Trim(parts[0]), Trim(Join(parts[1..], '=')))
  }

  /** The key is the trimmed text before the first "=", the value the trimmed
      rest, further "=" signs included; the key never holds "=". */
  lemma EntryOfLine(line: string)
    requires '=' in line
    ensures var i := FirstIndex(line, '=');
      EntryOf(line) == (Trim(line[..i]), Trim(line[i + 1..]))
    ensures '=' !in EntryOf(line).0
  {
    SplitAtFirst(line, '=');
    var k := line[..FirstIndex(line, '=')];
    TrimIsMiddle(k);
    var a, b :| 0 <= a <= b <= |k| && Trim(k) == k[a..b];
    assert forall x :: x in k[a..b] ==> x in k;
  }

  /** The entries of the kept lines, in file order. */
  function Entries(lines: seq<string>): (es: seq<(string, string)>)
    ensures |es| <= |lines|
  {
    if lines == [] then []
    else
      var n := |lines| - 1;
      Entries(lines[..n]) + (if Kept(lines[n]) then [EntryOf(lines[n])] else [])
  }

  /** Every kept line gives an entry. */
  lemma {:induction false} KeptLinesGiveEntries(lines: seq<string>)
    ensures forall i :: 0 <= i < |lines| && Kept(lines[i]) ==> EntryOf(lines[i]) in Entries(lines)
  {
    if lines != [] {
      var n := |lines| - 1;
      KeptLinesGiveEntries(lines[..n]);
      assert forall i :: 0 <= i < n ==> lines[..n][i] == lines[i];
    }
  }

  /** Every entry comes from a kept line. */
  lemma {:induction false} EntriesFromKeptLines(lines: seq<string>)
    ensures forall e :: e in Entries(lines) ==> exists i :: 0 <= i < |lines| && Kept(lines[i]) && EntryOf(lines[i]) == e
  {
    if lines != [] {
      var n := |lines| - 1;
      EntriesFromKeptLines(lines[..n]);
      forall e | e in Entries(lines)
        ensures exists i :: 0 <= i < |lines| && Kept(lines[i]) && EntryOf(lines[i]) == e
      {
        if e in Entries(lines[..n]) {
          var i :| 0 <= i < n && Kept(lines[..n][i]) && EntryOf(lines[..n][i]) == e;
          assert lines[i] == lines[..n][i];
        } else {
          assert Kept(lines[n]) && EntryOf(lines[n]) == e;
        }
      }
    }
  }

  /** `Object.fromEntries`: entries are added in order, so a later one replaces
      an earlier one with the same key. */
  function FromEntries(es: seq<(string, string)>): map<string, string> {
    if es == [] then map[]
    else
      var n := |es| - 1;
      FromEntries(es[..n])[es[n].0 := es[n].1]
  }

  /** A key is present iff some entry has it, and its value is that of the last
      entry with the key. */
  lemma {:induction false} FromEntriesLastWins(es: seq<(string, string)>, k: string)
    ensures k in FromEntries(es) <==> exists i :: 0 <= i < |es| && es[i].0 == k
    ensures k in FromEntries(es) ==>
              exists i :: 0 <= i < |es| && es[i].0 == k && FromEntries(es)[k] == es[i].1
                          && forall j :: i < j < |es| ==> es[j].0 != k
  {
    if es != [] {
      var n := |es| - 1;
      FromEntriesLastWins(es[..n], k);
      if es[n].0 != k && k in FromEntries(es) {
        var i :| 0 <= i < n && es[..n][i].0 == k && FromEntries(es[..n])[k] == es[..n][i].1
                 && forall j :: i < j < n ==> es[..n][j].0 != k;
        assert es[i] == es[..n][i];
        assert forall j :: i < j < n ==> es[j] == es[..n][j];
      }
      if i :| 0 <= i < |es| && es[i].0 == k {
        if i < n {
          assert es[..n][i] == es[i];
        }
      }
    }
  }

  /** The parsed `.env.local`: its lines split on "\n", kept, and collected. */
  function Env(content: string): map<string, string> {
    FromEntries(Entries(Split(content, '\n')))
  }

  // Credentials and project reference

  const UrlName := "NEXT_PUBLIC_SUPABASE_URL"
  const KeyName := "SUPABASE_SERVICE_ROLE_KEY"

  /** JavaScript truthiness of `env[name]`: present and non-empty. */
  predicate Present(env: map<string, string>, name: string) {
    name in env && env[name] != ""
  }

  /** The project reference: the URL without its first "https://", up to the first dot. */
  function ProjectRef(url: string): (r: string)
    ensures '.' !in r
  {
    Split(ReplaceFirst(url, "https://", ""), '.')[0]
  }

  /** Removing the leading "https://". */
  lemma StripScheme(rest: string)
    ensures ReplaceFirst("https://" + rest, "https://", "") == rest
  {
    StartsWithAppend("https://", rest);
    assert ("https://" + rest)[|"https://"|..] == rest;
  }

  /** The project reference of a URL written the usual way is read back exactly. */
  lemma ProjectRefOfUrl(ref: string, domain: string)
    requires '.' !in ref
    ensures ProjectRef("https://" + (ref + "." + domain)) == ref
  {
    var rest := ref + "." + domain;
    StripScheme(rest);
    SplitCons(ref, '.', domain);
  }

  datatype Start = Exit(code: int) | Proceed(url: string, key: string, projectRef: string)

  /** The script stops with exit code 1, before any request, unless both
      credentials are present; otherwise it goes on with them and the reference. */
  function Startup(env: map<string, string>): (r: Start)
    ensures r.Exit? <==> !Present(env, UrlName) || !Present(env, KeyName)
    ensures r.Exit? ==> r.code == 1
    ensures r.Proceed? ==> r.url == env[UrlName] && r.key == env[KeyName] && r.projectRef == ProjectRef(r.url)
  {
    if !Present(env, UrlName) || !Present(env, KeyName) then Exit(1)
    else Proceed(env[UrlName], env[KeyName], ProjectRef(env[UrlName]))
  }

  // Running the statements

  /** `runSQL` resolves `ok` exactly for a 2xx status. */
  predicate StatusOk(status: int) {
    200 <= status < 300
  }

  /** The reply body read as JSON: either it is not JSON, or it yields a value whose
      `message` (a string) may be missing. */
  datatype Parsed = NotJson | Json(message: Option<string>)

  /** One request: the request itself failed (`runSQL` rejected), or a reply
      came with a status, a body, and what `JSON.parse` makes of the body. */
  datatype Outcome = Threw | Replied(status: int, body: string, parsed: Parsed)

  /** The message of a failed reply: the JSON `message` field when there is one, else the raw body. */
  function ErrorMessage(body: string, message: Option<string>): string {
    OrElse(message, body)
  }

  /** Whether a statement counts as `ok`: a 2xx reply, or an error whose message
      says "already exists" or "duplicate". A failed request and an error body
      that is not JSON (the parse throws) count as `fail`. */
  predicate Succeeded(o: Outcome) {
    match o
    case Threw => false
    case Replied(status, body, parsed) =>
      if StatusOk(status) then true
      else if parsed.NotJson? then false
      else
        var msg := ErrorMessage(body, parsed.message);
        Contains(msg, "already exists") || Contains(msg, "duplicate")
  }

  /** How many of the outcomes count as `ok`. */
  function OkCount(outcomes: seq<Outcome>): (n: nat)
    ensures n <= |outcomes|
  {
    if outcomes == [] then 0
    else
      var k := |outcomes| - 1;
      OkCount(outcomes[..k]) + (if Succeeded(outcomes[k]) then 1 else 0)
  }

  /** The main loop: one request per statement, `ok++` or `fail++` for each. */
  method RunStatements(outcomes: seq<Outcome>) returns (ok: nat, fail: nat)
    ensures ok == OkCount(outcomes)
    ensures ok + fail == |outcomes|
  {
    ok, fail := 0, 0;
    for i := 0 to |outcomes|
      invariant ok == OkCount(outcomes[..i])
      invariant ok + fail == i
    {
      assert outcomes[..i + 1][..i] == outcomes[..i];
      if Succeeded(outcomes[i]) {
        ok := ok + 1;
      } else {
        fail := fail + 1;
      }
    }
    assert outcomes[..|outcomes|] == outcomes;
  }

  /** Nothing fails iff every statement counts as `ok`. */
  lemma {:induction false} NoFailureIffAllSucceed(outcomes: seq<Outcome>)
    ensures OkCount(outcomes) == |outcomes| <==> forall i :: 0 <= i < |outcomes| ==> Succeeded(outcomes[i])
  {
    if outcomes != [] {
      var k := |outcomes| - 1;
      NoFailureIffAllSucceed(outcomes[..k]);
      assert forall i :: 0 <= i < k ==> outcomes[..k][i] == outcomes[i];
    }
  }

  /** Running the script again on a set-up database, where every statement
      either succeeds or is refused with a JSON error saying the object
      already exists, fails nothing. */
  lemma RerunFailsNothing(outcomes: seq<Outcome>)
    requires forall i :: 0 <= i < |outcomes| ==>
               outcomes[i].Replied? &&
               (StatusOk(outcomes[i].status) ||
                (outcomes[i].parsed.Json? &&
                 Contains(ErrorMessage(outcomes[i].body, outcomes[i].parsed.message), "already exists")))
    ensures OkCount(outcomes) == |outcomes|
  {
    NoFailureIffAllSucceed(outcomes);
  }

  /** The labels printed beside the statements, one per statement of the script. */
  const Labels: seq<string> := [
    "Table: profiles", "Table: subjects", "Table: topics",
    "Table: questions", "Table: test_results",
    "RLS: profiles", "RLS: subjects", "RLS: topics", "RLS: questions", "RLS: test_results",
    "Policy: profile view", "Policy: profile update", "Policy: profile insert",
    "Policy: subject view", "Policy: subject admin",
    "Policy: topic view", "Policy: topic admin",
    "Policy: question view", "Policy: question insert", "Policy: question admin",
    "Policy: result view", "Policy: result insert", "Policy: result admin-view",
    "Trigger function", "Drop old trigger", "Create trigger",
    "Seed: subjects",
    "Seed: Java topics", "Seed: SQL topics", "Seed: Angular topics",
    "Seed: Python topics", "Seed: Aptitude topics", "Seed: WebDev topics"]

  /** The number of statements the script sends. */
  const StatementCount := 33

  /** The label of statement `i`: its entry in the list, or "Statement n" counting from 1 past the list. */
  function Label(i: nat): string {
    if i < |Labels| then Labels[i] else "Statement " + NatToString(i + 1)
  }

  /** Every statement of the script has a label of its own from the list. */
  lemma EveryStatementLabelled(i: nat)
    requires i < StatementCount
    ensures Label(i) == Labels[i]
  {
  }

  /** Statements beyond the list get fallback labels that tell them apart. */
  lemma FallbackLabelsDistinct(i: nat, j: nat)
    requires i >= |Labels| && j >= |Labels|
    requires Label(i) == Label(j)
    ensures i == j
  {
    DropPrefix("Statement ", NatToString(i + 1), NatToString(j + 1));
    NatToStringInjective(i + 1, j + 1);
  }

  /** The closing summary: "All done!" with the count when nothing failed,
      otherwise both counts. */
  function Summary(ok: nat, fail: nat): string {
    if fail == 0 then "✅  All done! " + (NatToString(ok) + " statements executed successfully.")
    else "⚠️   " + (NatToString(ok) + " succeeded · " + NatToString(fail) + " failed")
  }

  /** The success summary is printed iff no statement failed. */
  lemma SummaryAllDone(ok: nat, fail: nat)
    ensures StartsWith(Summary(ok, fail), "✅  All done!") <==> fail == 0
  {
    if fail == 0 {
      StartsWithAppend("✅  All done! ", NatToString(ok) + " statements executed successfully.");
      assert "✅  All done! "[..|"✅  All done!"|] == "✅  All done!";
    } else {
      assert Summary(ok, fail)[0] == '⚠';
    }
  }
}

=== FILE: stats.dfy ===
/** The aggregates the dashboard, history and user pages compute from loaded
    test results: sums, means and maxima of accuracies, the three colour
    bands, the minutes/seconds split of a duration, and counts per key. */
module Stats {
  import opened Records
  import opened Seqs

  // Loaded results

  /** `.limit(n)` on a newest-first query: the first `n` rows, or all of them. */
  function Newest<T>(rows: seq<T>, n: nat): (r: seq<T>)
    ensures |r| == if |rows| < n then |rows| else n
    ensures |r| <= n && r == rows[..|r|]
  {
    rows[..if |rows| < n then |rows| else n]
  }

  /** The accuracy of each result, in order. */
  function Accuracies(results: seq<TestResult>): (r: seq<real>)
    ensures |r| == |results| && forall i :: 0 <= i < |r| ==> r[i] == results[i].accuracy
  {
    seq(|results|, i requires 0 <= i < |results| => results[i].accuracy)
  }

  // Sums, means and maxima

  /** The sum of the values, added from left to right starting at 0. */
  function Sum(xs: seq<real>): real {
    if xs == [] then 0.0 else Sum(xs[..|xs| - 1]) + xs[|xs| - 1]
  }

  /** The sum divided by the number of values. */
  function Mean(xs: seq<real>): real
    requires |xs| > 0
  {
    Sum(xs) / |xs| as real
  }

  /** The largest of a non-empty list of values. */
  function Max(xs: seq<real>): (r: real)
    requires |xs| > 0
    ensures r in xs
    ensures forall i :: 0 <= i < |xs| ==> xs[i] <= r
  {
    if |xs| == 1 then xs[0]
    else
      var m := Max(xs[..|xs| - 1]);
      assert forall i :: 0 <= i < |xs| - 1 ==> xs[..|xs| - 1][i] == xs[i];
      if xs[|xs| - 1] > m then xs[|xs| - 1] else m
  }

  /** A sum of values each at most `b` is at most `|xs|·b`. */
  lemma {:induction false} SumAtMost(xs: seq<real>, b: real)
    requires forall i :: 0 <= i < |xs| ==> xs[i] <= b
    ensures Sum(xs) <= |xs| as real * b
  {
    if xs != [] {
      var n := |xs| - 1;
      assert forall i :: 0 <= i < n ==> xs[..n][i] == xs[i];
      SumAtMost(xs[..n], b);
    }
  }

  /** A sum of values each at least `b` is at least `|xs|·b`. */
  lemma {:induction false} SumAtLeast(xs: seq<real>, b: real)
    requires forall i :: 0 <= i < |xs| ==> b <= xs[i]
    ensures |xs| as real * b <= Sum(xs)
  {
    if xs != [] {
      var n := |xs| - 1;
      assert forall i :: 0 <= i < n ==> xs[..n][i] == xs[i];
      SumAtLeast(xs[..n], b);
    }
  }

  /** Dividing bounds by a positive count keeps them. */
  lemma DivideBounds(s: real, n: real, lo: real, hi: real)
    requires n > 0.0
    ensures s <= n * hi ==> s / n <= hi
    ensures n * lo <= s ==> lo <= s / n
  {
    var q := s / n;
    assert s == q * n;
    if q > hi {
      assert q * n > hi * n;
    }
    if q < lo {
      assert q * n < lo * n;
    }
  }

  /** A mean of values each at most `b` is at most `b`. */
  lemma MeanAtMost(xs: seq<real>, b: real)
    requires |xs| > 0
    requires forall i :: 0 <= i < |xs| ==> xs[i] <= b
    ensures Mean(xs) <= b
  {
    SumAtMost(xs, b);
    DivideBounds(Sum(xs), |xs| as real, b, b);
  }

  /** The mean never exceeds the best value. */
  lemma MeanAtMostMax(xs: seq<real>)
    requires |xs| > 0
    ensures Mean(xs) <= Max(xs)
  {
    MeanAtMost(xs, Max(xs));
  }

  /** A mean of accuracies is an accuracy: values in [0, 100] have their mean in [0, 100]. */
  lemma MeanWithin(xs: seq<real>)
    requires |xs| > 0
    requires forall i :: 0 <= i < |xs| ==> 0.0 <= xs[i] <= 100.0
    ensures 0.0 <= Mean(xs) <= 100.0
  {
    SumAtMost(xs, 100.0);
    SumAtLeast(xs, 0.0);
    DivideBounds(Sum(xs), |xs| as real, 0.0, 100.0);
  }

  // Colour bands

  /** The three colours of an accuracy: green from 70, amber from 40, red below. */
  datatype Band = Good | Fair | Poor

  function BandOf(acc: real): (b: Band)
    ensures b == Good <==> acc >= 70.0
    ensures b == Fair <==> 40.0 <= acc < 70.0
    ensures b == Poor <==> acc < 40.0
  {
    if acc >= 70.0 then Good else if acc >= 40.0 then Fair else Poor
  }

  function Rank(b: Band): nat {
    match b
    case Poor => 0
    case Fair => 1
    case Good => 2
  }

  /** A higher accuracy never gets a worse colour. */
  lemma BandMonotone(a: real, b: real)
    requires a <= b
    ensures Rank(BandOf(a)) <= Rank(BandOf(b))
  {
  }

  // Durations

  /** JavaScript's `a % b` for `b > 0`: the remainder takes the sign of `a`. */
  function JsRem(a: int, b: int): (r: int)
    requires b > 0
    ensures a >= 0 ==> 0 <= r < b
    ensures a < 0 ==> -b < r <= 0
  {
    if a >= 0 then a % b else -((-a) % b)
  }

  /** Whole minutes, rounded down: Dafny's division rounds down for a positive divisor. */
  function Minutes(t: int): int {
    t / 60
  }

  /** The seconds shown beside the minutes: the remainder of a division by 60, with the sign of `t`. */
  function Seconds(t: int): int {
    JsRem(t, 60)
  }

  /** The "Xm Ys" display recombines to the duration exactly when the duration
      is not negative or is whole minutes; a negative duration shows a minute
      too few with negative seconds. */
  lemma SplitRecombinesIff(t: int)
    ensures 60 * Minutes(t) + Seconds(t) == t <==> t >= 0 || t % 60 == 0
    ensures t >= 0 ==> 0 <= Seconds(t) < 60
  {
    var q, r := t / 60, t % 60;
    assert t == 60 * q + r && 0 <= r < 60;
    if t < 0 {
      assert -t == 60 * (-q - 1) + (60 - r);
      if r == 0 {
        assert -t == 60 * -q;
        assert (-t) % 60 == 0;
      } else {
        assert (-t) % 60 == 60 - r;
        assert 60 * Minutes(t) + Seconds(t) == t - 60;
      }
    }
  }

  /** A result's "Xm Ys", as the history and the admin results table show it. */
  function Duration(r: TestResult): (d: (int, int))
    ensures r.timeTakenSeconds >= 0 ==> 60 * d.0 + d.1 == r.timeTakenSeconds && 0 <= d.1 < 60
  {
    SplitRecombinesIff(r.timeTakenSeconds);
    (Minutes(r.timeTakenSeconds), Seconds(r.timeTakenSeconds))
  }

  // Counting per key

  /** The counts of the keys `keys` among `xs`, added up. */
  function SumOccurrences<T(==,!new)>(keys: seq<T>, xs: seq<T>): nat {
    if keys == [] then 0
    else SumOccurrences(keys[..|keys| - 1], xs) + Occurrences(xs, keys[|keys| - 1])
  }

  /** A key occurs at most once in a list of distinct keys. */
  lemma {:induction false} DistinctOccurrences<T(!new)>(keys: seq<T>, x: T)
    requires Distinct(keys)
    ensures Occurrences(keys, x) == if x in keys then 1 else 0
  {
    if keys != [] {
      var n := |keys| - 1;
      assert forall i :: 0 <= i < n ==> keys[..n][i] == keys[i];
      DistinctOccurrences(keys[..n], x);
      assert keys == keys[..n] + [keys[n]];
      if keys[n] == x {
        assert x !in keys[..n];
      }
    }
  }

  /** One more element adds its own number of occurrences among the keys. */
  lemma {:induction false} SumOccurrencesSnoc<T(!new)>(keys: seq<T>, xs: seq<T>, x: T)
    ensures SumOccurrences(keys, xs + [x]) == SumOccurrences(keys, xs) + Occurrences(keys, x)
  {
    if keys != [] {
      var n := |keys| - 1;
      SumOccurrencesSnoc(keys[..n], xs, x);
      assert (xs + [x])[..|xs|] == xs;
    }
  }

  /** Counting each of some distinct keys never counts more elements than there
      are, and counts all of them when every element is one of the keys. */
  lemma {:induction false} SumOccurrencesBound<T(!new)>(keys: seq<T>, xs: seq<T>)
    requires Distinct(keys)
    ensures SumOccurrences(keys, xs) <= |xs|
    ensures (forall i :: 0 <= i < |xs| ==> xs[i] in keys) ==> SumOccurrences(keys, xs) == |xs|
  {
    if xs == [] {
      EmptyCounts(keys);
    } else {
      var n := |xs| - 1;
      assert xs == xs[..n] + [xs[n]];
      assert forall i :: 0 <= i < n ==> xs[..n][i] == xs[i];
      SumOccurrencesBound(keys, xs[..n]);
      SumOccurrencesSnoc(keys, xs[..n], xs[n]);
      DistinctOccurrences(keys, xs[n]);
    }
  }

  /** No element, no count. */
  lemma {:induction false} EmptyCounts<T(!new)>(keys: seq<T>)
    ensures SumOccurrences(keys, []) == 0
  {
    if keys != [] {
      EmptyCounts(keys[..|keys| - 1]);
    }
  }
}

=== FILE: strings.dfy ===
/** String operations of the JavaScript runtime that the application relies on:
    `trim`, `toLowerCase`/`toUpperCase`, `includes`, `startsWith`, `indexOf`,
    `replace` (first occurrence), `split`/`join` on one character, decimal
    `toString` of a non-negative integer, and `padStart`. */
module Strings {

  /** The characters `String.prototype.trim` removes: ECMAScript WhiteSpace
      (TAB, VT, FF, SP, NBSP, ZWNBSP and the Zs category) and LineTerminator
      (LF, CR, LS, PS). */
  predicate IsSpace(c: char) {
    var n := c as int;
    n == 0x09 || n == 0x0A || n == 0x0B || n == 0x0C || n == 0x0D || n == 0x20 ||
    n == 0xA0 || n == 0x1680 || (0x2000 <= n <= 0x200A) || n == 0x2028 || n == 0x2029 ||
    n == 0x202F || n == 0x205F || n == 0x3000 || n == 0xFEFF
  }

  predicate AllSpace(s: string) {
    forall i :: 0 <= i < |s| ==> IsSpace(s[i])
  }

  /** `s` with its leading white space removed. */
  function TrimStart(s: string): (r: string)
    ensures |r| <= |s|
    ensures r == [] || !IsSpace(r[0])
    ensures r == [] <==> AllSpace(s)
  {
    if s == [] || !IsSpace(s[0]) then s
    else
      assert AllSpace(s) <==> AllSpace(s[1..]) by {
        assert forall k :: 1 <= k < |s| ==> s[k] == s[1..][k - 1];
      }
      TrimStart(s[1..])
  }

  /** `s` with its trailing white space removed. */
  function TrimEnd(s: string): (r: string)
    ensures |r| <= |s|
    ensures r == [] || !IsSpace(r[|r| - 1])
    ensures r == [] <==> AllSpace(s)
  {
    if s == [] || !IsSpace(s[|s| - 1]) then s
    else
      assert AllSpace(s) <==> AllSpace(s[..|s| - 1]) by {
        assert forall k :: 0 <= k < |s| - 1 ==> s[k] == s[..|s| - 1][k];
      }
      TrimEnd(s[..|s| - 1])
  }

  /** `TrimStart` removes a prefix of white space and nothing else. */
  lemma {:induction false} TrimStartIsSuffix(s: string)
    ensures TrimStart(s) == s[|s| - |TrimStart(s)|..]
    ensures AllSpace(s[..|s| - |TrimStart(s)|])
    decreases |s|
  {
    if s != [] && IsSpace(s[0]) {
      TrimStartIsSuffix(s[1..]);
      var n := |s| - |TrimStart(s)|;
      assert s[1..][n - 1..] == s[n..];
      assert forall k :: 1 <= k < n ==> s[k] == s[1..][..n - 1][k - 1];
    }
  }

  /** `TrimEnd` removes a suffix of white space and nothing else. */
  lemma {:induction false} TrimEndIsPrefix(s: string)
    ensures TrimEnd(s) == s[..|TrimEnd(s)|]
    ensures AllSpace(s[|TrimEnd(s)|..])
    decreases |s|
  {
    if s != [] && IsSpace(s[|s| - 1]) {
      var t := s[..|s| - 1];
      TrimEndIsPrefix(t);
      var n := |TrimEnd(s)|;
      assert t[..n] == s[..n];
      assert forall k :: n <= k < |s| - 1 ==> s[k] == t[n..][k - n];
    }
  }

  /** `s.trim()`: white space dropped from both ends (see TrimStart and TrimEnd). */
  function Trim(s: string): (r: string)
    ensures |r| <= |s|
    ensures r == [] || (!IsSpace(r[0]) && !IsSpace(r[|r| - 1]))
    ensures r == [] <==> AllSpace(s)
  {
    TrimEndIsPrefix(TrimStart(s));
    TrimEnd(TrimStart(s))
  }

  /** What `trim` keeps is the middle of `s`: only white space lies outside it. */
  lemma TrimIsMiddle(s: string)
    ensures exists i, j :: 0 <= i <= j <= |s| && Trim(s) == s[i..j] && AllSpace(s[..i]) && AllSpace(s[j..])
  {
    var t := TrimStart(s);
    TrimStartIsSuffix(s);
    TrimEndIsPrefix(t);
    var i := |s| - |t|;
    var m := |TrimEnd(t)|;
    assert s[i..i + m] == t[..m];
    assert s[i + m..] == t[m..];
  }

  /** How many UTF-16 code units encode `c`: two for a character outside the
      Basic Multilingual Plane (a surrogate pair), one otherwise. */
  function CodeUnits(c: char): nat {
    if c as int > 0xFFFF then 2 else 1
  }

  /** `s.length`: JavaScript counts UTF-16 code units, not characters. */
  function Utf16Length(s: string): (n: nat)
    ensures |s| <= n <= 2 * |s|
    ensures (forall i :: 0 <= i < |s| ==> s[i] as int <= 0xFFFF) ==> n == |s|
    ensures (forall i :: 0 <= i < |s| ==> s[i] as int > 0xFFFF) ==> n == 2 * |s|
  {
    if s == [] then 0 else Utf16Length(s[..|s| - 1]) + CodeUnits(s[|s| - 1])
  }

  predicate IsUpperAscii(c: char) { 'A' <= c <= 'Z' }
  predicate IsLowerAscii(c: char) { 'a' <= c <= 'z' }

  function LowerChar(c: char): char {
    if IsUpperAscii(c) then (c as int + 32) as char else c
  }

  function UpperChar(c: char): char {
    if IsLowerAscii(c) then (c as int - 32) as char else c
  }

  /** `s.toLowerCase()` on the ASCII letters. */
  function ToLower(s: string): (r: string)
    ensures |r| == |s|
    ensures forall i :: 0 <= i < |s| ==> r[i] == LowerChar(s[i])
  {
    if s == [] then [] else [LowerChar(s[0])] + ToLower(s[1..])
  }

  /** `s.toUpperCase()` on the ASCII letters. */
  function ToUpper(s: string): (r: string)
    ensures |r| == |s|
    ensures forall i :: 0 <= i < |s| ==> r[i] == UpperChar(s[i])
    ensures forall i :: 0 <= i < |r| ==> !IsLowerAscii(r[i])
  {
    if s == [] then [] else [UpperChar(s[0])] + ToUpper(s[1..])
  }

  predicate StartsWith(s: string, prefix: string) {
    |prefix| <= |s| && s[..|prefix|] == prefix
  }

  lemma StartsWithAppend(prefix: string, rest: string)
    ensures StartsWith(prefix + rest, prefix)
  {
    assert (prefix + rest)[..|prefix|] == prefix;
  }

  /** `sub` occurs in `s` at position `i`. */
  predicate OccursAt(s: string, sub: string, i: int) {
    0 <= i <= |s| - |sub| && s[i..i + |sub|] == sub
  }

  /** `s.includes(sub)`. */
  predicate Contains(s: string, sub: string) {
    exists i | 0 <= i <= |s| - |sub| :: OccursAt(s, sub, i)
  }

  /** `s.indexOf(sub)`, with -1 for "absent". */
  function IndexOf(s: string, sub: string): (r: int)
    ensures r == -1 || 0 <= r <= |s| - |sub|
    ensures r >= 0 ==> OccursAt(s, sub, r)
    ensures r >= 0 ==> forall j :: 0 <= j < r ==> !OccursAt(s, sub, j)
    ensures r == -1 <==> !Contains(s, sub)
    decreases |s|
  {
    if |s| < |sub| then assert !Contains(s, sub); -1
    else if s[..|sub|] == sub then assert OccursAt(s, sub, 0); 0
    else
      var k := IndexOf(s[1..], sub);
      ContainsShift(s, sub);
      if k == -1 then -1 else k + 1
  }

  /** An occurrence in `s` is at the front or an occurrence in `s[1..]` shifted by one. */
  lemma ContainsShift(s: string, sub: string)
    requires |s| >= |sub| && |s| > 0
    ensures forall j :: 1 <= j <= |s| - |sub| ==> (OccursAt(s, sub, j) <==> OccursAt(s[1..], sub, j - 1))
    ensures Contains(s, sub) <==> s[..|sub|] == sub || Contains(s[1..], sub)
  {
    forall j | 1 <= j <= |s| - |sub|
      ensures OccursAt(s, sub, j) <==> OccursAt(s[1..], sub, j - 1)
    {
      TailSlice(s, j, j + |sub|);
    }
    if Contains(s[1..], sub) {
      var j :| OccursAt(s[1..], sub, j);
      assert OccursAt(s[1..], sub, j);
      assert OccursAt(s, sub, j + 1);
    }
    if s[..|sub|] == sub {
      assert OccursAt(s, sub, 0);
    }
    if Contains(s, sub) {
      var j :| OccursAt(s, sub, j);
      assert OccursAt(s, sub, j);
      if j > 0 {
        assert OccursAt(s[1..], sub, j - 1);
      }
    }
  }

  /** A slice of the tail is the slice of the whole text one further on. */
  lemma TailSlice(s: string, a: int, b: int)
    requires 1 <= a <= b <= |s|
    ensures s[1..][a - 1..b - 1] == s[a..b]
  {
    assert forall m :: 0 <= m < b - a ==> s[1..][a - 1..b - 1][m] == s[a..b][m];
  }

  /** Replacement of a text pattern: only its first occurrence is replaced. */
  function ReplaceFirst(s: string, pattern: string, replacement: string): (r: string)
    ensures !Contains(s, pattern) ==> r == s
    ensures StartsWith(s, pattern) ==> r == replacement + s[|pattern|..]
  {
    var i := IndexOf(s, pattern);
    if i < 0 then s else s[..i] + replacement + s[i + |pattern|..]
  }

  /** Index of the first `c` in `s`, or |s| when there is none. */
  function FirstIndex(s: string, c: char): (r: nat)
    ensures r <= |s|
    ensures r < |s| ==> s[r] == c
    ensures c !in s[..r]
    ensures r == |s| <==> c !in s
  {
    var r := FirstIndexFrom(s, c, 0);
    assert forall x :: x in s[..r] ==> exists i :: 0 <= i < r && s[i] == x;
    r
  }

  /** The search of `FirstIndex` from index `from` on. */
  function FirstIndexFrom(s: string, c: char, from: nat): (r: nat)
    requires from <= |s|
    decreases |s| - from
    ensures from <= r <= |s|
    ensures r < |s| ==> s[r] == c
    ensures forall i :: from <= i < r ==> s[i] != c
  {
    if from == |s| then |s|
    else if s[from] == c then from
    else FirstIndexFrom(s, c, from + 1)
  }

  /** The first `c` of `a + [c] + b` is the one after `a` when `a` has none. */
  lemma FirstIndexAfter(a: string, c: char, b: string)
    requires c !in a
    ensures FirstIndex(a + [c] + b, c) == |a|
  {
    var s := a + [c] + b;
    assert s[|a|] == c;
    assert s[..|a|] == a;
  }

  /** `s.split(c)` for a one-character separator. */
  function Split(s: string, c: char): (parts: seq<string>)
    ensures |parts| >= 1
    ensures parts[0] == s[..FirstIndex(s, c)]
    ensures forall i :: 0 <= i < |parts| ==> c !in parts[i]
    decreases |s|
  {
    var i := FirstIndex(s, c);
    if i == |s| then [s] else [s[..i]] + Split(s[i + 1..], c)
  }

  /** `parts.join(c)` for a one-character separator. */
  function Join(parts: seq<string>, c: char): string
  {
    if |parts| == 0 then ""
    else if |parts| == 1 then parts[0]
    else parts[0] + [c] + Join(parts[1..], c)
  }

  /** Joining what `split` produced gives back the string. */
  lemma {:induction false} JoinSplit(s: string, c: char)
    ensures Join(Split(s, c), c) == s
    decreases |s|
  {
    var i := FirstIndex(s, c);
    if i < |s| {
      var head, tail := s[..i], s[i + 1..];
      SplitStep(s, c);
      JoinSplit(tail, c);
      JoinCons(head, Split(tail, c), c);
      assert s == head + [c] + tail;
    }
  }

  /** One step of `Split`: the text before the first separator, then the split of the rest. */
  lemma SplitStep(s: string, c: char)
    requires FirstIndex(s, c) < |s|
    ensures Split(s, c) == [s[..FirstIndex(s, c)]] + Split(s[FirstIndex(s, c) + 1..], c)
  {
  }

  /** Splitting a text without the separator gives the text alone. */
  lemma SplitNone(s: string, c: char)
    requires c !in s
    ensures Split(s, c) == [s]
  {
  }

  /** Splitting `a + [c] + b`, where `a` has no `c`, gives `a` and then the parts of `b`. */
  lemma SplitCons(a: string, c: char, b: string)
    requires c !in a
    ensures Split(a + [c] + b, c) == [a] + Split(b, c)
  {
    var s := a + [c] + b;
    FirstIndexAfter(a, c, b);
    SplitStep(s, c);
    assert s[..|a|] == a && s[|a| + 1..] == b;
  }

  /** One step of `Join` on at least two parts. */
  lemma JoinCons(head: string, rest: seq<string>, c: char)
    requires |rest| >= 1
    ensures Join([head] + rest, c) == head + [c] + Join(rest, c)
  {
    assert ([head] + rest)[1..] == rest;
  }

  /** Splitting at `c`, taking the first part and joining the rest back with `c`:
      the first part is the text before the first `c` and the join is the whole text after it,
      later separators included. */
  lemma SplitAtFirst(s: string, c: char)
    requires c in s
    ensures Split(s, c)[0] == s[..FirstIndex(s, c)]
    ensures Join(Split(s, c)[1..], c) == s[FirstIndex(s, c) + 1..]
  {
    var i := FirstIndex(s, c);
    var rest := Split(s[i + 1..], c);
    SplitStep(s, c);
    assert Split(s, c)[1..] == rest;
    JoinSplit(s[i + 1..], c);
  }

  predicate IsDigit(c: char) { '0' <= c <= '9' }

  predicate AllDigits(s: string) {
    forall i :: 0 <= i < |s| ==> IsDigit(s[i])
  }

  function DigitChar(d: nat): char
    requires d < 10
  {
    ('0' as int + d) as char
  }

  function DigitValue(c: char): nat
    requires IsDigit(c)
  {
    c as int - '0' as int
  }

  /** The value of a string of decimal digits (the empty string reads as 0). */
  function DigitsValue(s: string): nat
    requires AllDigits(s)
  {
    if s == [] then 0 else DigitsValue(s[..|s| - 1]) * 10 + DigitValue(s[|s| - 1])
  }

  /** `n.toString()` for a non-negative integer below 10^21: its decimal digits. */
  function NatToString(n: nat): (r: string)
    ensures |r| >= 1 && AllDigits(r)
    ensures n < 10 ==> |r| == 1
    ensures 10 <= n < 100 ==> |r| == 2
  {
    if n < 10 then [DigitChar(n)] else NatToString(n / 10) + [DigitChar(n % 10)]
  }

  /** Reading back the digits `toString` wrote gives the number. */
  lemma {:induction false} NatToStringValue(n: nat)
    ensures DigitsValue(NatToString(n)) == n
  {
    if n >= 10 {
      var s := NatToString(n);
      assert s[..|s| - 1] == NatToString(n / 10);
      NatToStringValue(n / 10);
    }
  }

  /** Different numbers are written differently. */
  lemma NatToStringInjective(a: nat, b: nat)
    requires NatToString(a) == NatToString(b)
    ensures a == b
  {
    NatToStringValue(a);
    NatToStringValue(b);
  }

  lemma DropPrefix(prefix: string, s: string, t: string)
    requires prefix + s == prefix + t
    ensures s == t
  {
    assert s == (prefix + s)[|prefix|..];
    assert t == (prefix + t)[|prefix|..];
  }

  /** A run of digits followed by a non-digit is read off unambiguously. */
  lemma DigitsThenNonDigit(x: string, u: string, y: string, v: string)
    requires AllDigits(x) && AllDigits(y)
    requires u != [] && v != [] && !IsDigit(u[0]) && !IsDigit(v[0])
    requires x + u == y + v
    ensures x == y && u == v
  {
    var w := x + u;
    assert !IsDigit(w[|x|]) && !IsDigit(w[|y|]);
    assert forall i :: 0 <= i < |x| ==> IsDigit(w[i]);
    assert forall i :: 0 <= i < |y| ==> IsDigit(w[i]);
    assert x == (x + u)[..|x|] && y == (y + v)[..|y|];
    assert u == (x + u)[|x|..] && v == (y + v)[|y|..];
  }

  function Repeat(c: char, n: nat): (r: string)
    ensures |r| == n && forall i :: 0 <= i < n ==> r[i] == c
  {
    if n == 0 then [] else [c] + Repeat(c, n - 1)
  }

  /** `s.padStart(width, c)` with a one-character pad. */
  function PadStart(s: string, width: nat, c: char): (r: string)
    ensures |r| == if |s| >= width then |s| else width
    ensures r == Repeat(c, |r| - |s|) + s
  {
    if |s| >= width then s else Repeat(c, width - |s|) + s
  }
}

=== FILE: test_generator.dfy ===
/** `generateQuestions` of the test page (src/app/test/take/page.tsx:29-44):
    choose `total` questions from a subject's pool, by difficulty or in the
    40/40/20 easy/medium/hard mix. The two random shuffles are rearrangements
    of positions passed in as arguments, so every property below holds for
    every outcome of the shuffles. */
module TestGenerator {
  import opened Records
  import opened Seqs

  /** `d` is the value of the `difficulty` URL parameter: "mixed" or a difficulty name. */
  const Mixed: string := "mixed"

  function Named(diff: string): Question -> bool {
    (q: Question) => DifficultyName(q.difficulty) == diff
  }

  function Of(d: Difficulty): Question -> bool {
    (q: Question) => q.difficulty == d
  }

  /** Not yet among the selected questions. */
  function NotIn(selected: seq<Question>): Question -> bool {
    (q: Question) => q !in selected
  }

  /** The questions the shuffle starts from: the pool in mixed mode, otherwise the
      questions of that difficulty, or the whole pool when there are none. */
  function Candidates(pool: seq<Question>, diff: string): (r: seq<Question>)
    ensures diff == Mixed ==> r == pool
    ensures diff != Mixed && (exists q :: q in pool && Named(diff)(q)) ==>
              forall q :: q in r <==> q in pool && DifficultyName(q.difficulty) == diff
    ensures diff != Mixed && (forall q :: q in pool ==> !Named(diff)(q)) ==> r == pool
    ensures forall q :: q in r ==> q in pool
  {
    if diff == Mixed then pool
    else
      var f := Filter(pool, Named(diff));
      if |f| == 0 then
        assert forall q :: q in pool ==> !Named(diff)(q) by {
          forall q | q in pool ensures !Named(diff)(q) { assert q !in f; }
        }
        pool
      else
        assert f[0] in f;
        f
  }

  /** `s.slice(0, end)`: a negative `end` counts back from the end of `s`. */
  function SliceTo<T>(s: seq<T>, end: int): (r: seq<T>)
    ensures |r| == if end >= 0 then (if end < |s| then end else |s|) else (if |s| + end > 0 then |s| + end else 0)
    ensures r == s[..|r|]
    ensures forall x :: x in r ==> x in s
  {
    if end >= |s| then s
    else if end >= 0 then s[..end]
    else if |s| + end > 0 then s[..|s| + end]
    else []
  }

  /** The easy quota: 40% of the total, rounded half up. */
  function EasyQuota(total: int): (r: int)
    ensures (r as real) - 0.5 <= 0.4 * (total as real) < (r as real) + 0.5
  {
    (4 * total + 5) / 10
  }

  /** A fifth of the total, rounded half up. */
  function RoundFifth(total: int): (r: int)
    ensures (r as real) - 0.5 <= 0.2 * (total as real) < (r as real) + 0.5
  {
    (2 * total + 5) / 10
  }

  /** The hard quota: a fifth of the total rounded half up, but at least 1. */
  function HardQuota(total: int): (r: int)
    ensures r >= 1 && r >= RoundFifth(total)
    ensures r == 1 || r == RoundFifth(total)
  {
    if RoundFifth(total) > 1 then RoundFifth(total) else 1
  }

  /** `total - easyCount - hardCount` */
  function MediumQuota(total: int): int {
    total - EasyQuota(total) - HardQuota(total)
  }

  /** For any positive count the three quotas are non-negative, at least one
      question is hard, and together they ask for exactly `total` questions. */
  lemma QuotasSplit(total: int)
    requires total >= 1
    ensures EasyQuota(total) >= 0 && MediumQuota(total) >= 0 && HardQuota(total) >= 1
    ensures EasyQuota(total) + MediumQuota(total) + HardQuota(total) == total
  {
    var e, f := EasyQuota(total), RoundFifth(total);
    assert 10 * e <= 4 * total + 5;
    assert 10 * f <= 2 * total + 5;
    if f < 1 {
      assert 2 * total + 5 < 10;
    }
  }

  /** The quota slices of the mixed mode: `[...easy.slice(0, easyCount),
      ...medium.slice(0, medCount), ...hard.slice(0, hardCount)]`. */
  function Selected(shuffled: seq<Question>, total: int): seq<Question> {
    SliceTo(Filter(shuffled, Of(Easy)), EasyQuota(total))
      + SliceTo(Filter(shuffled, Of(Medium)), MediumQuota(total))
      + SliceTo(Filter(shuffled, Of(Hard)), HardQuota(total))
  }

  /** How many items the backfill loop moves: up to the shortfall, as far as supply lasts. */
  function Shortfall(selected: nat, remaining: nat, total: int): nat {
    if total <= selected then 0
    else if total - selected < remaining then total - selected
    else remaining
  }

  /** The quota selection, topped up from the unselected questions in shuffled order. */
  function Filled(shuffled: seq<Question>, total: int): seq<Question> {
    var sel := Selected(shuffled, total);
    var rem := Filter(shuffled, NotIn(sel));
    sel + rem[..Shortfall(|sel|, |rem|, total)]
  }

  /** What the generator returns before the final shuffle of the mixed mode. */
  function Picked(pool: seq<Question>, total: int, diff: string, p1: seq<nat>): seq<Question>
    requires IsPermutation(p1, |Candidates(pool, diff)|)
  {
    var shuffled := Permute(Candidates(pool, diff), p1);
    if diff != Mixed then SliceTo(shuffled, total) else SliceTo(Filled(shuffled, total), total)
  }

  /** The generated test for the shuffle outcomes `p1` (of the candidates) and
      `p2` (of the mixed selection). */
  function Generate(pool: seq<Question>, total: int, diff: string, p1: seq<nat>, p2: seq<nat>): seq<Question>
    requires IsPermutation(p1, |Candidates(pool, diff)|)
    requires diff == Mixed ==> IsPermutation(p2, |Picked(pool, total, diff, p1)|)
  {
    if diff != Mixed then Picked(pool, total, diff, p1) else Permute(Picked(pool, total, diff, p1), p2)
  }

  /** The back-fill loop: while fewer than `total` are selected and some remain,
      the next remaining question is moved over, so the shortfall is made up
      from the front of `remaining`, as far as it lasts. */
  method Backfill(selected: seq<Question>, remaining: seq<Question>, total: int) returns (filled: seq<Question>)
    ensures filled == selected + remaining[..Shortfall(|selected|, |remaining|, total)]
    ensures total >= |selected| ==> |filled| == if total - |selected| < |remaining| then total else |selected| + |remaining|
  {
    filled := selected;
    var rest := remaining;
    ghost var k := 0;
    while |filled| < total && |rest| > 0
      invariant 0 <= k <= |remaining|
      invariant filled == selected + remaining[..k] && rest == remaining[k..]
      invariant k > 0 ==> |selected| + k <= total
      decreases |rest|
    {
      filled := filled + [rest[0]];
      rest := rest[1..];
      k := k + 1;
    }
  }

  /** `generateQuestions(pool, total, diff)`, step by step as the page does it. */
  method GenerateQuestions(pool: seq<Question>, total: int, diff: string, p1: seq<nat>, p2: seq<nat>)
    returns (r: seq<Question>)
    requires IsPermutation(p1, |Candidates(pool, diff)|)
    requires diff == Mixed ==> IsPermutation(p2, |Picked(pool, total, diff, p1)|)
    ensures r == Generate(pool, total, diff, p1, p2)
  {
    var filtered := if diff == Mixed then pool else Filter(pool, Named(diff));
    if |filtered| == 0 {
      filtered := pool;
    }
    assert filtered == Candidates(pool, diff);
    var shuffled := Permute(filtered, p1);
    if diff != Mixed {
      return SliceTo(shuffled, total);
    }
    var easy := Filter(shuffled, Of(Easy));
    var medium := Filter(shuffled, Of(Medium));
    var hard := Filter(shuffled, Of(Hard));
    var easyCount := EasyQuota(total);
    var hardCount := HardQuota(total);
    var medCount := total - easyCount - hardCount;
    assert medCount == MediumQuota(total);
    var selected := SliceTo(easy, easyCount) + SliceTo(medium, medCount) + SliceTo(hard, hardCount);
    var remaining := Filter(shuffled, NotIn(selected));
    selected := Backfill(selected, remaining, total);
    assert SliceTo(selected, total) == Picked(pool, total, diff, p1);
    r := Permute(SliceTo(selected, total), p2);
  }

  /** Every generated question comes from the pool. */
  lemma GenerateFromPool(pool: seq<Question>, total: int, diff: string, p1: seq<nat>, p2: seq<nat>)
    requires IsPermutation(p1, |Candidates(pool, diff)|)
    requires diff == Mixed ==> IsPermutation(p2, |Picked(pool, total, diff, p1)|)
    ensures forall q :: q in Generate(pool, total, diff, p1, p2) ==> q in pool
  {
    var cand := Candidates(pool, diff);
    PermuteElements(cand, p1);
    var shuffled := Permute(cand, p1);
    var picked := Picked(pool, total, diff, p1);
    if diff == Mixed {
      var sel := Selected(shuffled, total);
      assert forall q :: q in sel ==> q in shuffled;
      assert forall q :: q in picked ==> q in shuffled;
      PermuteElements(picked, p2);
    }
  }

  /** The mixed-mode selection before top-up holds no question twice, from a
      duplicate-free shuffle. */
  lemma SelectedDistinct(shuffled: seq<Question>, total: int)
    requires Distinct(shuffled)
    ensures Distinct(Selected(shuffled, total))
    ensures forall q :: q in Selected(shuffled, total) ==> q in shuffled
  {
    var e := Filter(shuffled, Of(Easy));
    var m := Filter(shuffled, Of(Medium));
    var h := Filter(shuffled, Of(Hard));
    FilterDistinct(shuffled, Of(Easy));
    FilterDistinct(shuffled, Of(Medium));
    FilterDistinct(shuffled, Of(Hard));
    var a, b, c := SliceTo(e, EasyQuota(total)), SliceTo(m, MediumQuota(total)), SliceTo(h, HardQuota(total));
    SliceDistinct(e, EasyQuota(total));
    SliceDistinct(m, MediumQuota(total));
    SliceDistinct(h, HardQuota(total));
    assert forall x :: x in a ==> x.difficulty == Easy;
    assert forall x :: x in b ==> x.difficulty == Medium;
    assert forall x :: x in c ==> x.difficulty == Hard;
    AppendDistinct(a, b);
    AppendDistinct(a + b, c);
  }

  /** With a duplicate-free `s` holding every element of a duplicate-free `sub`,
      dropping the elements of `sub` leaves `|s| - |sub|` elements. */
  lemma FilterOutCount(s: seq<Question>, sub: seq<Question>)
    requires Distinct(s) && Distinct(sub)
    requires forall x :: x in sub ==> x in s
    ensures |Filter(s, NotIn(sub))| == |s| - |sub|
  {
    FilterOutLength(s, sub, NotIn(sub));
  }

  /** Distinct pool items give a test without repeats. */
  lemma GenerateDistinct(pool: seq<Question>, total: int, diff: string, p1: seq<nat>, p2: seq<nat>)
    requires Distinct(pool)
    requires IsPermutation(p1, |Candidates(pool, diff)|)
    requires diff == Mixed ==> IsPermutation(p2, |Picked(pool, total, diff, p1)|)
    ensures Distinct(Generate(pool, total, diff, p1, p2))
  {
    var cand := Candidates(pool, diff);
    if diff != Mixed && cand != pool {
      FilterDistinct(pool, Named(diff));
    }
    PermuteDistinct(cand, p1);
    var shuffled := Permute(cand, p1);
    if diff != Mixed {
      SliceDistinct(shuffled, total);
    } else {
      FilledDistinct(shuffled, total);
      SliceDistinct(Filled(shuffled, total), total);
      PermuteDistinct(Picked(pool, total, diff, p1), p2);
    }
  }

  lemma SliceDistinct<T(!new)>(s: seq<T>, end: int)
    requires Distinct(s)
    ensures Distinct(SliceTo(s, end))
  {
    var r := SliceTo(s, end);
    assert forall i :: 0 <= i < |r| ==> r[i] == s[i];
  }

  /** The topped-up mixed selection holds no question twice. */
  lemma FilledDistinct(shuffled: seq<Question>, total: int)
    requires Distinct(shuffled)
    ensures Distinct(Filled(shuffled, total))
  {
    var sel := Selected(shuffled, total);
    SelectedDistinct(shuffled, total);
    var rem := Filter(shuffled, NotIn(sel));
    FilterDistinct(shuffled, NotIn(sel));
    var pre := rem[..Shortfall(|sel|, |rem|, total)];
    assert forall i :: 0 <= i < |pre| ==> pre[i] == rem[i];
    assert forall x :: x in pre ==> x in rem;
    AppendDistinct(sel, pre);
  }

  /** For a non-negative count and a duplicate-free pool the test holds
      `min(total, |candidates|)` questions: the mixed mode makes up any
      shortfall of a difficulty from the other questions. */
  lemma GenerateLength(pool: seq<Question>, total: int, diff: string, p1: seq<nat>, p2: seq<nat>)
    requires total >= 0 && Distinct(pool)
    requires IsPermutation(p1, |Candidates(pool, diff)|)
    requires diff == Mixed ==> IsPermutation(p2, |Picked(pool, total, diff, p1)|)
    ensures |Generate(pool, total, diff, p1, p2)| == if total < |Candidates(pool, diff)| then total else |Candidates(pool, diff)|
  {
    if diff == Mixed && total > 0 {
      var shuffled := Permute(pool, p1);
      PermuteDistinct(pool, p1);
      var sel := Selected(shuffled, total);
      SelectedDistinct(shuffled, total);
      QuotasSplit(total);
      assert |sel| <= total;
      FilterOutCount(shuffled, sel);
    }
  }

  /** Choosing one difficulty that the pool has gives only questions of that difficulty. */
  lemma GenerateDifficulty(pool: seq<Question>, total: int, diff: string, p1: seq<nat>, p2: seq<nat>)
    requires diff != Mixed
    requires exists q :: q in pool && DifficultyName(q.difficulty) == diff
    requires IsPermutation(p1, |Candidates(pool, diff)|)
    ensures forall q :: q in Generate(pool, total, diff, p1, p2) ==> DifficultyName(q.difficulty) == diff
  {
    var cand := Candidates(pool, diff);
    PermuteElements(cand, p1);
  }

  /** In mixed mode, when every difficulty has at least its quota, the test has
      exactly the quota of each difficulty. */
  lemma MixedQuota(pool: seq<Question>, total: int, p1: seq<nat>, p2: seq<nat>)
    requires total >= 1 && Distinct(pool)
    requires Count(pool, Of(Easy)) >= EasyQuota(total)
    requires Count(pool, Of(Medium)) >= MediumQuota(total)
    requires Count(pool, Of(Hard)) >= HardQuota(total)
    requires IsPermutation(p1, |pool|)
    requires IsPermutation(p2, |Picked(pool, total, Mixed, p1)|)
    ensures Count(Generate(pool, total, Mixed, p1, p2), Of(Easy)) == EasyQuota(total)
    ensures Count(Generate(pool, total, Mixed, p1, p2), Of(Medium)) == MediumQuota(total)
    ensures Count(Generate(pool, total, Mixed, p1, p2), Of(Hard)) == HardQuota(total)
  {
    QuotasSplit(total);
    var shuffled := Permute(pool, p1);
    PermuteMultiset(pool, p1);
    CountOfPermutation(pool, shuffled, Of(Easy));
    CountOfPermutation(pool, shuffled, Of(Medium));
    CountOfPermutation(pool, shuffled, Of(Hard));
    var a := SliceTo(Filter(shuffled, Of(Easy)), EasyQuota(total));
    var b := SliceTo(Filter(shuffled, Of(Medium)), MediumQuota(total));
    var c := SliceTo(Filter(shuffled, Of(Hard)), HardQuota(total));
    var sel := Selected(shuffled, total);
    assert sel == a + b + c;
    assert |sel| == total;
    assert Filled(shuffled, total) == sel;
    var picked := Picked(pool, total, Mixed, p1);
    assert picked == sel;
    PermuteMultiset(picked, p2);
    var r := Generate(pool, total, Mixed, p1, p2);
    CountOfPermutation(r, picked, Of(Easy));
    CountOfPermutation(r, picked, Of(Medium));
    CountOfPermutation(r, picked, Of(Hard));
    QuotaCounts(a, b, c);
  }

  lemma QuotaCounts(a: seq<Question>, b: seq<Question>, c: seq<Question>)
    requires forall x :: x in a ==> x.difficulty == Easy
    requires forall x :: x in b ==> x.difficulty == Medium
    requires forall x :: x in c ==> x.difficulty == Hard
    ensures Count(a + b + c, Of(Easy)) == |a|
    ensures Count(a + b + c, Of(Medium)) == |b|
    ensures Count(a + b + c, Of(Hard)) == |c|
  {
    forall d | d in {Easy, Medium, Hard}
      ensures Filter(a + b + c, Of(d)) == Filter(a, Of(d)) + Filter(b, Of(d)) + Filter(c, Of(d))
    {
      FilterAppend(a + b, c, Of(d));
      FilterAppend(a, b, Of(d));
    }
    FilterAll(a, Of(Easy)); FilterNone(b, Of(Easy)); FilterNone(c, Of(Easy));
    FilterNone(a, Of(Medium)); FilterAll(b, Of(Medium)); FilterNone(c, Of(Medium));
    FilterNone(a, Of(Hard)); FilterNone(b, Of(Hard)); FilterAll(c, Of(Hard));
  }
}

=== FILE: test_session.dfy ===
/** The state of the test page while a test is taken
    (src/app/test/take/page.tsx): the answer map, the flagged set, the current
    question, the countdown, the once-only submit guard and the result row
    submitted. Events are handled one at a time: the model follows the
    intended sequential order of the handlers. */
module TestSession {
  import opened Records
  import opened Strings
  import opened Scoring

  function Ids(qs: seq<Question>): set<string> {
    set q | q in qs :: q.id
  }

  /** The row `handleSubmit` inserts. `time_taken_seconds` is `totalTime - timeLeft`, unclamped. */
  function ResultOf(userId: string, subjectId: string, qs: seq<Question>, answers: map<string, string>,
                    totalTime: int, timeLeft: int): (r: TestResult)
    ensures r.score <= r.totalQuestions == |qs|
    ensures r.timeTakenSeconds == totalTime - timeLeft
    ensures r.answers == answers && r.userId == userId && r.subjectId == subjectId
  {
    var score := Score(qs, answers);
    var perf := Performance(qs, answers);
    TestResult(userId, subjectId, score, |qs|, Accuracy(score, |qs|), totalTime - timeLeft,
               answers, WeakTopics(perf), perf)
  }

  /** The scoring half of `handleSubmit`: one pass over the questions, then the
      accuracy and the weak topics of the tally. */
  method BuildResult(userId: string, subjectId: string, qs: seq<Question>, answers: map<string, string>,
                     totalTime: int, timeLeft: int) returns (r: TestResult)
    ensures r == ResultOf(userId, subjectId, qs, answers, totalTime, timeLeft)
  {
    var timeTaken := totalTime - timeLeft;
    var score, topicPerf := ScoreAnswers(qs, answers);
    var accuracy := if |qs| > 0 then (score as real / |qs| as real) * 100.0 else 0.0;
    assert accuracy == Accuracy(score, |qs|);
    var weakTopics := WeakTopics(topicPerf);
    r := TestResult(userId, subjectId, score, |qs|, accuracy, timeTaken, answers, weakTopics, topicPerf);
  }

  // The automatic submit as written

  /** The row the timer's submit inserts as the page is written. The interval
      effect depends on the loading flag alone, so it is set up once, in the
      render where loading ended, and keeps that render's `handleSubmit`: no
      answers yet and the clock still full. */
  function StaleAutoResult(userId: string, subjectId: string, qs: seq<Question>, totalTime: int): (r: TestResult)
    ensures r.answers == map[] && r.timeTakenSeconds == 0 && r.totalQuestions == |qs|
  {
    ResultOf(userId, subjectId, qs, map[], totalTime, totalTime)
  }

  /** Whatever was answered, a test that runs out of time is stored, as written,
      with score 0, accuracy 0 and every topic it covers listed as weak
      (answer keys are never empty). */
  lemma StaleAutoResultScoresZero(userId: string, subjectId: string, qs: seq<Question>, totalTime: int)
    requires forall q :: q in qs ==> q.correctAnswer != ""
    ensures var r := StaleAutoResult(userId, subjectId, qs, totalTime);
      && r.score == 0 && r.accuracy == 0.0
      && forall k :: k in r.weakTopics <==> KeyCount(qs, k) > 0
  {
    NoAnswersScoreZero(qs);
    AccuracyBounds(0, |qs|);
    ResultConsistent(userId, subjectId, qs, map[], totalTime, totalTime);
    forall k
      ensures KeyCorrect(qs, map[], k) == 0
    {
      NoAnswersNoneCorrect(qs, k);
    }
  }

  /** A one-question test answered correctly that reaches 1 second left on a
      60-second limit: the intended submit, which reads `timeLeft == 1` before
      the final tick sets it to 0, stores score 1 and 59 seconds; the one as
      written stores score 0, 0 seconds and no answers. */
  lemma StaleAutoSubmitCounterexample()
    ensures var q := Question("q1", "s1", None, "2 + 2?", "4", "5", "6", "7", "A", Easy);
      && ResultOf("u1", "s1", [q], map["q1" := "A"], 60, 1).score == 1
      && ResultOf("u1", "s1", [q], map["q1" := "A"], 60, 1).timeTakenSeconds == 59
      && StaleAutoResult("u1", "s1", [q], 60).score == 0
      && StaleAutoResult("u1", "s1", [q], 60).timeTakenSeconds == 0
  {
    var q := Question("q1", "s1", None, "2 + 2?", "4", "5", "6", "7", "A", Easy);
    assert [q][..0] == [];
    assert IsCorrect(map["q1" := "A"], q);
    assert !IsCorrect(map[], q);
  }

  /** The submitted row is consistent: the topic totals add up to the number of
      questions, the correct counts to the score, the accuracy is a percentage,
      and a topic is listed as weak exactly when under half of it was right. */
  lemma ResultConsistent(userId: string, subjectId: string, qs: seq<Question>, answers: map<string, string>,
                         totalTime: int, timeLeft: int)
    ensures var r := ResultOf(userId, subjectId, qs, answers, totalTime, timeLeft);
      && SumTotal(r.topicPerformance) == r.totalQuestions
      && SumCorrect(r.topicPerformance) == r.score
      && 0.0 <= r.accuracy <= 100.0
      && (forall k :: k in r.weakTopics <==> KeyCount(qs, k) > 0 && 2 * KeyCorrect(qs, answers, k) < KeyCount(qs, k))
  {
    PerformanceSums(qs, answers);
    AccuracyBounds(Score(qs, answers), |qs|);
    forall k
      ensures k in WeakTopics(Performance(qs, answers)) <==>
                KeyCount(qs, k) > 0 && 2 * KeyCorrect(qs, answers, k) < KeyCount(qs, k)
    {
      WeakTopicsExact(qs, answers, k);
    }
  }

  /** One tick of the countdown: `t <= 1 ? 0 : t - 1`. */
  function NextTime(t: int): (r: int)
    ensures r >= 0
    ensures t > 1 ==> r == t - 1
    ensures t <= 1 ==> r == 0
  {
    if t <= 1 then 0 else t - 1
  }

  /** The remaining time after `n` ticks. */
  function Countdown(t: int, n: nat): int {
    if n == 0 then t else NextTime(Countdown(t, n - 1))
  }

  /** After `n >= 1` ticks the time left is `max(0, t - n)`: it never goes negative,
      and it reaches 0 at tick `t` (or at the first tick when `t <= 1`). */
  lemma {:induction false} CountdownValue(t: int, n: nat)
    requires n >= 1
    ensures Countdown(t, n) == if t - n > 0 then t - n else 0
  {
    if n > 1 {
      CountdownValue(t, n - 1);
    }
  }

  /** The flag button: removes `id` from the flagged set when it is there, adds it otherwise. */
  function Toggle(flags: set<string>, id: string): (r: set<string>)
    ensures id in r <==> id !in flags
    ensures forall x :: x != id ==> (x in r <==> x in flags)
  {
    if id in flags then flags - {id} else flags + {id}
  }

  /** Flagging a question twice leaves the flags as they were. */
  lemma ToggleTwice(flags: set<string>, id: string)
    ensures Toggle(Toggle(flags, id), id) == flags
  {
    assert forall x :: x in Toggle(Toggle(flags, id), id) <==> x in flags;
  }

  /** The number of questions with an answer. */
  function AnsweredCount(answers: map<string, string>): nat {
    |answers.Keys|
  }

  /** Choosing an option for a question adds one to the answered count exactly
      when the question had no answer yet. */
  lemma AnsweredAfterChoose(answers: map<string, string>, id: string, opt: string)
    ensures AnsweredCount(answers[id := opt]) == AnsweredCount(answers) + (if id in answers then 0 else 1)
  {
    if id in answers {
      assert answers[id := opt].Keys == answers.Keys;
    } else {
      assert answers[id := opt].Keys == answers.Keys + {id};
    }
  }

  /** Clearing a question's answer removes one from the count exactly when it had one. */
  lemma AnsweredAfterClear(answers: map<string, string>, id: string)
    ensures AnsweredCount(answers - {id}) == AnsweredCount(answers) - (if id in answers then 1 else 0)
  {
    if id in answers {
      assert (answers - {id}).Keys + {id} == answers.Keys;
    } else {
      assert (answers - {id}).Keys == answers.Keys;
    }
  }

  lemma {:induction false} IdsBound(qs: seq<Question>)
    ensures |Ids(qs)| <= |qs|
  {
    if qs != [] {
      var pre := qs[..|qs| - 1];
      IdsBound(pre);
      assert Ids(qs) == Ids(pre) + {qs[|qs| - 1].id} by {
        assert qs == pre + [qs[|qs| - 1]];
      }
    }
  }

  /** Answers are only recorded for questions of the test, so at most every
      question is answered and the "unanswered" figure is never negative. */
  lemma AnsweredAtMostQuestions(qs: seq<Question>, answers: map<string, string>)
    requires answers.Keys <= Ids(qs)
    ensures AnsweredCount(answers) <= |qs|
  {
    IdsBound(qs);
    assert |answers.Keys| <= |Ids(qs)| by {
      SubsetCard(answers.Keys, Ids(qs));
    }
  }

  lemma SubsetCard(a: set<string>, b: set<string>)
    requires a <= b
    ensures |a| <= |b|
  {
    assert b == a + (b - a);
  }

  /** The decimal digits of `n`, padded with "0" on the left to two characters. */
  function Pad2(n: nat): (r: string)
    ensures |r| >= 2 && AllDigits(r)
    ensures |r| == 2 <==> n < 100
  {
    assert n >= 100 ==> |NatToString(n)| >= 3 by {
      if n >= 100 { NatToStringWidth(n); }
    }
    PadStart(NatToString(n), 2, '0')
  }

  /** `formatTime(sec)`: minutes and seconds, each padded with "0" to two digits. */
  function FormatTime(sec: nat): (r: string)
    ensures |r| >= 5 && r[|r| - 3] == ':'
    ensures AllDigits(r[..|r| - 3]) && AllDigits(r[|r| - 2..])
    ensures |r| == 5 <==> sec < 6000
  {
    var m, s := Pad2(sec / 60), Pad2(sec % 60);
    assert (m + ":" + s)[..|m|] == m && (m + ":" + s)[|m| + 1..] == s;
    m + ":" + s
  }

  lemma NatToStringWidth(n: nat)
    requires n >= 100
    ensures |NatToString(n)| >= 3
  {
    assert NatToString(n) == NatToString(n / 10) + [DigitChar(n % 10)];
  }

  /** Leading zeros do not change the value of a digit string. */
  lemma {:induction false} LeadingZeros(k: nat, s: string)
    requires AllDigits(s)
    ensures AllDigits(Repeat('0', k) + s)
    ensures DigitsValue(Repeat('0', k) + s) == DigitsValue(s)
    decreases |s|, k
  {
    var z := Repeat('0', k);
    if s == [] {
      assert z + s == z;
      if k > 0 {
        assert z[..k - 1] == Repeat('0', k - 1) + [];
        LeadingZeros(k - 1, []);
      }
    } else {
      assert (z + s)[..|z + s| - 1] == z + s[..|s| - 1];
      LeadingZeros(k, s[..|s| - 1]);
    }
  }

  /** `MM:SS` reads back as the number of seconds. */
  function ParseTime(t: string): int
    requires |t| >= 3 && AllDigits(t[..|t| - 3]) && AllDigits(t[|t| - 2..])
  {
    DigitsValue(t[..|t| - 3]) * 60 + DigitsValue(t[|t| - 2..])
  }

  /** The timer shows the whole minutes before the colon and the leftover
      seconds after it, so reading it back gives the seconds it shows. */
  lemma FormatTimeRoundTrip(sec: nat)
    ensures var r := FormatTime(sec); DigitsValue(r[..|r| - 3]) == sec / 60 && DigitsValue(r[|r| - 2..]) == sec % 60
    ensures ParseTime(FormatTime(sec)) == sec
  {
    var m, s := Pad2(sec / 60), Pad2(sec % 60);
    var r := FormatTime(sec);
    assert r[..|r| - 3] == m && r[|r| - 2..] == s;
    Pad2Value(sec / 60);
    Pad2Value(sec % 60);
    var x, y := DigitsValue(r[..|r| - 3]), DigitsValue(r[|r| - 2..]);
    assert x == sec / 60 && y == sec % 60;
    ParseTimeParts(r);
  }

  /** Unfolds `ParseTime` on its own, outside the round trip's larger context. */
  lemma ParseTimeParts(t: string)
    requires |t| >= 3 && AllDigits(t[..|t| - 3]) && AllDigits(t[|t| - 2..])
    ensures ParseTime(t) == DigitsValue(t[..|t| - 3]) * 60 + DigitsValue(t[|t| - 2..])
  {
  }

  /** Padding a decimal numeral with leading zeros keeps its value. */
  lemma Pad2Value(n: nat)
    ensures DigitsValue(Pad2(n)) == n
  {
    var d := NatToString(n);
    NatToStringValue(n);
    LeadingZeros(|Pad2(n)| - |d|, d);
  }

  /** The page while a test is taken. */
  class Session {
    const questions: seq<Question>
    const totalTime: int
    const userId: string
    const subjectId: string
    var answers: map<string, string>
    var flagged: set<string>
    var current: nat
    var timeLeft: int
    var submitted: bool
    /** The rows sent to `test_results`. */
    var inserts: seq<TestResult>

    predicate Valid()
      reads this
    {
      && answers.Keys <= Ids(questions)
      && (current < |questions| || current == 0)
      && |inserts| == (if submitted then 1 else 0)
      && (timeLeft >= 0 || timeLeft == totalTime)
    }

    /** The loaded test: duration `duration_minutes * 60`, nothing answered or flagged. */
    constructor (questions: seq<Question>, durationMinutes: int, userId: string, subjectId: string)
      ensures Valid()
      ensures this.questions == questions && this.userId == userId && this.subjectId == subjectId
      ensures totalTime == durationMinutes * 60 && timeLeft == totalTime
      ensures answers == map[] && flagged == {} && current == 0 && !submitted && inserts == []
    {
      this.questions := questions;
      this.userId := userId;
      this.subjectId := subjectId;
      totalTime := durationMinutes * 60;
      timeLeft := durationMinutes * 60;
      answers := map[];
      flagged := {};
      current := 0;
      submitted := false;
      inserts := [];
    }

    function Answered(): (n: nat)
      reads this
      requires Valid()
      ensures n <= |questions|
    {
      AnsweredAtMostQuestions(questions, answers);
      AnsweredCount(answers)
    }

    /** Clicking option `opt` of the current question. */
    method Choose(opt: string)
      requires Valid() && |questions| > 0
      modifies this
      ensures Valid()
      ensures answers == old(answers)[questions[current].id := opt]
      ensures flagged == old(flagged) && current == old(current) && timeLeft == old(timeLeft)
      ensures submitted == old(submitted) && inserts == old(inserts)
    {
      answers := answers[questions[current].id := opt];
    }

    /** "Clear Answer" on the current question. */
    method Clear()
      requires Valid() && |questions| > 0
      modifies this
      ensures Valid()
      ensures answers == old(answers) - {questions[current].id}
      ensures flagged == old(flagged) && current == old(current) && timeLeft == old(timeLeft)
      ensures submitted == old(submitted) && inserts == old(inserts)
    {
      answers := answers - {questions[current].id};
    }

    /** The flag button of the current question. */
    method ToggleFlag()
      requires Valid() && |questions| > 0
      modifies this
      ensures Valid()
      ensures flagged == Toggle(old(flagged), questions[current].id)
      ensures answers == old(answers) && current == old(current) && timeLeft == old(timeLeft)
      ensures submitted == old(submitted) && inserts == old(inserts)
    {
      flagged := Toggle(flagged, questions[current].id);
    }

    /** "Previous", disabled on the first question. */
    method Previous()
      requires Valid()
      modifies this
      ensures Valid()
      ensures current == if old(current) > 0 then old(current) - 1 else old(current)
      ensures answers == old(answers) && flagged == old(flagged) && timeLeft == old(timeLeft)
      ensures submitted == old(submitted) && inserts == old(inserts)
    {
      if current > 0 {
        current := current - 1;
      }
    }

    /** "Next", disabled on the last question. */
    method Next()
      requires Valid()
      modifies this
      ensures Valid()
      ensures current == if old(current) + 1 < |questions| then old(current) + 1 else old(current)
      ensures answers == old(answers) && flagged == old(flagged) && timeLeft == old(timeLeft)
      ensures submitted == old(submitted) && inserts == old(inserts)
    {
      if current + 1 < |questions| {
        current := current + 1;
      }
    }

    /** A square of the question palette. */
    method GoTo(i: nat)
      requires Valid() && i < |questions|
      modifies this
      ensures Valid()
      ensures current == i
      ensures answers == old(answers) && flagged == old(flagged) && timeLeft == old(timeLeft)
      ensures submitted == old(submitted) && inserts == old(inserts)
    {
      current := i;
    }

    /** `handleSubmit`: once only. The guard is set before scoring, so whatever
        calls it (the confirm button or the timer) at most one row is inserted. */
    method Submit()
      requires Valid()
      modifies this
      ensures Valid() && submitted
      ensures old(submitted) ==> inserts == old(inserts)
      ensures !old(submitted) ==>
                inserts == old(inserts) + [ResultOf(userId, subjectId, questions, answers, totalTime, timeLeft)]
      ensures answers == old(answers) && flagged == old(flagged) && current == old(current)
      ensures timeLeft == old(timeLeft)
    {
      if submitted {
        return;
      }
      submitted := true;
      var row := BuildResult(userId, subjectId, questions, answers, totalTime, timeLeft);
      inserts := inserts + [row];
    }

    /** One second of the countdown. At `t <= 1` the updater calls `handleSubmit`
        (which still sees `t`) and then sets the time to 0. Once the test is
        submitted the interval is cleared and ticks have no effect. */
    method Tick()
      requires Valid()
      modifies this
      ensures Valid()
      ensures old(submitted) ==> timeLeft == old(timeLeft) && inserts == old(inserts)
      ensures !old(submitted) ==> timeLeft == NextTime(old(timeLeft))
      ensures !old(submitted) && old(timeLeft) <= 1 ==>
                submitted && inserts == old(inserts) + [ResultOf(userId, subjectId, questions, answers, totalTime, old(timeLeft))]
      ensures !old(submitted) && old(timeLeft) > 1 ==> !submitted && inserts == old(inserts)
      ensures answers == old(answers) && flagged == old(flagged) && current == old(current)
    {
      if submitted {
        return;
      }
      if timeLeft <= 1 {
        Submit();
        timeLeft := 0;
      } else {
        timeLeft := timeLeft - 1;
      }
    }
  }
}

=== FILE: test_start.dfy ===
/** The page that prepares a test (src/app/test/start/page.tsx): how many
    questions to offer for the subject, the default choice, the start button,
    and the address of the test page, as that page reads it back
    (src/app/test/take/page.tsx). */
module TestStart {
  import opened Records
  import opened Strings
  import opened Seqs

  /** `qCount`: the number of questions the count query reported, 0 when it reported none. */
  function QuestionCount(count: Option<nat>): nat {
    OrElse(count, 0)
  }

  /** The count chosen when the page loads: the question count capped at 10, or 10 when no count came back. */
  function DefaultNum(count: Option<nat>): (n: nat)
    ensures n <= 10
    ensures count.None? ==> n == 10
    ensures count.Some? ==> n <= count.value && (count.value >= 10 ==> n == 10)
    ensures count.Some? && count.value < 10 ==> n == count.value
  {
    if OrElse(count, 10) < 10 then OrElse(count, 10) else 10
  }

  /** The fixed choices of the question-count menu. */
  const Choices: seq<int> := [5, 10, 15, 20]

  /** The fixed choices up to the question count, in order. */
  function StandardOptions(qCount: int): seq<int> {
    Filter(Choices, n => n <= qCount)
  }

  /** The extra "(all available)" entry is offered when there are some, but fewer than 5, questions. */
  predicate AllAvailable(qCount: int) {
    qCount > 0 && qCount < 5
  }

  /** The entries of the question-count menu, in display order. */
  function Options(qCount: int): (r: seq<int>)
    ensures forall n :: n in r <==> (n in Choices && n <= qCount) || (AllAvailable(qCount) && n == qCount)
  {
    StandardOptions(qCount) + if AllAvailable(qCount) then [qCount] else []
  }

  /** The filter goes through the choices in order, keeping each one up to the count. */
  lemma StandardOptionsUnfold(qCount: int)
    ensures StandardOptions(qCount) ==
              (if 5 <= qCount then [5] else []) + (if 10 <= qCount then [10] else [])
              + (if 15 <= qCount then [15] else []) + (if 20 <= qCount then [20] else [])
  {
    var f := (n: int) => n <= qCount;
    var c1, c2, c3 := [5], [5, 10], [5, 10, 15];
    assert Choices[..3] == c3 && c3[..2] == c2 && c2[..1] == c1 && c1[..0] == [];
    assert Filter(c1, f) == if 5 <= qCount then [5] else [];
    assert Filter(c2, f) == Filter(c1, f) + if 10 <= qCount then [10] else [];
    assert Filter(c3, f) == Filter(c2, f) + if 15 <= qCount then [15] else [];
  }

  /** The standard choices offered are exactly those up to the count, in their order. */
  lemma StandardOptionsPrefix(qCount: int)
    ensures qCount < 5 ==> StandardOptions(qCount) == []
    ensures 5 <= qCount < 10 ==> StandardOptions(qCount) == [5]
    ensures 10 <= qCount < 15 ==> StandardOptions(qCount) == [5, 10]
    ensures 15 <= qCount < 20 ==> StandardOptions(qCount) == [5, 10, 15]
    ensures 20 <= qCount ==> StandardOptions(qCount) == Choices
  {
    StandardOptionsUnfold(qCount);
  }

  /** The "(all available)" entry is there iff `0 < qCount < 5`, and then it is
      the only entry; otherwise every entry is a standard one. */
  lemma AllAvailableIff(qCount: int)
    ensures AllAvailable(qCount) <==> qCount in Options(qCount) && qCount !in Choices
    ensures AllAvailable(qCount) ==> Options(qCount) == [qCount]
    ensures !AllAvailable(qCount) ==> forall n :: n in Options(qCount) ==> n in Choices
  {
    StandardOptionsPrefix(qCount);
  }

  /** Every entry is a count the subject can fill, and the menu is empty iff
      there are no questions. */
  lemma OptionsWithinCount(qCount: int)
    ensures forall n :: n in Options(qCount) ==> 0 < n <= qCount
    ensures Options(qCount) == [] <==> qCount <= 0
  {
    StandardOptionsPrefix(qCount);
  }

  /** The start button is disabled iff there are no questions. */
  predicate StartDisabled(qCount: int) {
    qCount == 0
  }

  /** For any count the query can report, the start button is enabled exactly
      when the menu has an entry. */
  lemma StartEnabledIffOptions(count: Option<nat>)
    ensures !StartDisabled(QuestionCount(count)) <==> Options(QuestionCount(count)) != []
  {
    OptionsWithinCount(QuestionCount(count));
  }

  /** The count chosen on load is one of the menu's entries iff the subject
      has 1 to 5 or at least 10 questions: with 6 to 9 the page starts with a
      count the menu does not show. */
  lemma DefaultOfferedIff(c: nat)
    ensures DefaultNum(Some(c)) in Options(c) <==> (0 < c <= 5 || c >= 10)
  {
    StandardOptionsPrefix(c);
  }

  // The address of the test page

  /** The address `startTest` navigates to: the test page with the subject, the count and the difficulty as query parameters. */
  function StartUrl(subjectId: string, num: nat, difficulty: string): string {
    "/test/take?" + StartQuery(subjectId, num, difficulty)
  }

  function StartQuery(subjectId: string, num: nat, difficulty: string): string {
    Query3("subject", subjectId, "num", NatToString(num), "difficulty", difficulty)
  }

  /** `name=value` */
  function Pair(name: string, value: string): string {
    name + "=" + value
  }

  /** The query string of an address: the text after its first "?". */
  function QueryOf(url: string): string {
    var i := FirstIndex(url, '?');
    if i < |url| then url[i + 1..] else ""
  }

  /** The name of a `name=value` pair (the whole pair when it has no "="). */
  function PairName(pair: string): string {
    pair[..FirstIndex(pair, '=')]
  }

  /** The value of a `name=value` pair ("" when it has no "="). */
  function PairValue(pair: string): string {
    var i := FirstIndex(pair, '=');
    if i < |pair| then pair[i + 1..] else ""
  }

  /** The value of the first pair named `name`, from pair `from` on. */
  function FirstValue(pairs: seq<string>, name: string, from: nat): (r: Option<string>)
    requires from <= |pairs|
    decreases |pairs| - from
    ensures r.None? <==> forall i :: from <= i < |pairs| ==> PairName(pairs[i]) != name
  {
    if from == |pairs| then None
    else if PairName(pairs[from]) == name then Some(PairValue(pairs[from]))
    else FirstValue(pairs, name, from + 1)
  }

  /** The value of the first parameter called `name` in a query without escapes. */
  function Get(query: string, name: string): Option<string> {
    FirstValue(Split(query, '&'), name, 0)
  }

  /** `Number(s)` for the texts a count takes: white space around the number is
      ignored, a blank text is 0, and a run of decimal digits, possibly after a
      "+", is its value. Any other text is `None`. */
  function ParseNum(s: string): (r: Option<nat>)
    ensures AllSpace(s) ==> r == Some(0)
    ensures r.Some? && !AllSpace(s) ==> AllDigits(Trim(s)) || (Trim(s)[0] == '+' && AllDigits(Trim(s)[1..]))
  {
    var t := Trim(s);
    if t == [] then Some(0)
    else if AllDigits(t) then Some(DigitsValue(t))
    else if t[0] == '+' && |t| > 1 && AllDigits(t[1..]) then Some(DigitsValue(t[1..]))
    else None
  }

  /** `?num=` with nothing after it asks for a test of no questions. */
  lemma EmptyNumIsZero(query: string)
    requires Get(query, "num") == Some("")
    ensures NumParam(query) == Some(0)
  {
  }

  /** The question count the test page reads: the `num` parameter, 10 when it is missing. */
  function NumParam(query: string): Option<nat> {
    var v := Get(query, "num");
    if v.None? then Some(10) else ParseNum(v.value)
  }

  /** The difficulty the test page reads: the `difficulty` parameter, "mixed" when it is missing. */
  function DifficultyParam(query: string): string {
    OrElse(Get(query, "difficulty"), "mixed")
  }

  /** A pair written as `name=value` reads back as that name and value. */
  lemma PairRoundTrip(name: string, value: string)
    requires '=' !in name
    ensures PairName(Pair(name, value)) == name && PairValue(Pair(name, value)) == value
  {
    FirstIndexAfter(name, '=', value);
    var p := name + "=" + value;
    assert p[..|name|] == name && p[|name| + 1..] == value;
  }

  /** The query string of the start page's address is the text after "?". */
  lemma QueryOfStartUrl(subjectId: string, num: nat, difficulty: string)
    ensures QueryOf(StartUrl(subjectId, num, difficulty)) == StartQuery(subjectId, num, difficulty)
  {
    var q := StartQuery(subjectId, num, difficulty);
    assert StartUrl(subjectId, num, difficulty) == "/test/take" + "?" + q;
    FirstIndexAfter("/test/take", '?', q);
  }

  /** A pair built from texts without "&" has none. */
  lemma AmpFreePair(name: string, value: string)
    requires '&' !in name && '&' !in value
    ensures '&' !in Pair(name, value)
  {
  }

  /** Three pairs joined by "&", none holding an "&" itself. */
  function Query3(a: string, va: string, b: string, vb: string, c: string, vc: string): string {
    Pair(a, va) + "&" + (Pair(b, vb) + "&" + Pair(c, vc))
  }

  /** A query of three pairs without "&" splits into those pairs. */
  lemma Query3Pairs(a: string, va: string, b: string, vb: string, c: string, vc: string)
    requires '&' !in a && '&' !in va && '&' !in b && '&' !in vb && '&' !in c && '&' !in vc
    ensures Split(Query3(a, va, b, vb, c, vc), '&') == [Pair(a, va), Pair(b, vb), Pair(c, vc)]
  {
    var p1, p2, p3 := Pair(a, va), Pair(b, vb), Pair(c, vc);
    AmpFreePair(a, va);
    AmpFreePair(b, vb);
    AmpFreePair(c, vc);
    SplitCons(p1, '&', p2 + "&" + p3);
    SplitCons(p2, '&', p3);
    SplitNone(p3, '&');
  }

  /** The value found for `name` is that of the first pair with that name. */
  lemma {:induction false} FirstValueAt(pairs: seq<string>, name: string, from: nat, i: nat)
    requires from <= i < |pairs| && PairName(pairs[i]) == name
    requires forall j :: from <= j < i ==> PairName(pairs[j]) != name
    ensures FirstValue(pairs, name, from) == Some(PairValue(pairs[i]))
    decreases i - from
  {
    if from < i {
      FirstValueAt(pairs, name, from + 1, i);
    }
  }

  /** Reading a query that splits into `pairs` finds the first pair named `name`. */
  lemma GetAt(query: string, pairs: seq<string>, name: string, i: nat)
    requires Split(query, '&') == pairs
    requires i < |pairs| && PairName(pairs[i]) == name
    requires forall j :: 0 <= j < i ==> PairName(pairs[j]) != name
    ensures Get(query, name) == Some(PairValue(pairs[i]))
  {
    FirstValueAt(pairs, name, 0, i);
  }

  /** Each of three distinctly named pairs reads back as its value. */
  lemma Query3ReadBack(a: string, va: string, b: string, vb: string, c: string, vc: string)
    requires '&' !in a && '&' !in va && '&' !in b && '&' !in vb && '&' !in c && '&' !in vc
    requires '=' !in a && '=' !in b && '=' !in c
    requires a != b && a != c && b != c
    ensures var q := Query3(a, va, b, vb, c, vc);
      Get(q, a) == Some(va) && Get(q, b) == Some(vb) && Get(q, c) == Some(vc)
  {
    var q := Query3(a, va, b, vb, c, vc);
    var pairs := [Pair(a, va), Pair(b, vb), Pair(c, vc)];
    Query3Pairs(a, va, b, vb, c, vc);
    PairRoundTrip(a, va);
    PairRoundTrip(b, vb);
    PairRoundTrip(c, vc);
    assert PairName(pairs[0]) == a && PairName(pairs[1]) == b && PairName(pairs[2]) == c;
    GetAt(q, pairs, a, 0);
    assert Split(q, '&') == pairs;
    forall j | 0 <= j < 1
      ensures PairName(pairs[j]) != b
    {
      assert j == 0;
    }
    GetAt(q, pairs, b, 1);
    forall j | 0 <= j < 2
      ensures PairName(pairs[j]) != c
    {
      assert j == 0 || j == 1;
    }
    GetAt(q, pairs, c, 2);
  }

  /** The address carries the count as decimal digits, which read back as the count. */
  lemma ParseNumOfNatToString(n: nat)
    ensures ParseNum(NatToString(n)) == Some(n)
    ensures '&' !in NatToString(n)
  {
    NatToStringValue(n);
    var s := NatToString(n);
    assert forall i :: 0 <= i < |s| ==> IsDigit(s[i]);
    assert !IsSpace(s[0]) && !IsSpace(s[|s| - 1]);
    assert TrimStart(s) == s;
    assert Trim(s) == s;
  }

  /** Reading the start page's query string gives back the three values. */
  lemma StartQueryReadBack(subjectId: string, num: nat, difficulty: string)
    requires '&' !in subjectId && '&' !in difficulty
    ensures var q := StartQuery(subjectId, num, difficulty);
      Get(q, "subject") == Some(subjectId) && NumParam(q) == Some(num) && DifficultyParam(q) == difficulty
  {
    ParseNumOfNatToString(num);
    Query3ReadBack("subject", subjectId, "num", NatToString(num), "difficulty", difficulty);
  }

  /** The test page reads back what the start page sent: the subject, the
      count and the difficulty (subject ids and difficulty names hold no "&"). */
  lemma StartUrlRoundTrip(subjectId: string, num: nat, difficulty: string)
    requires '&' !in subjectId && '&' !in difficulty
    ensures var q := QueryOf(StartUrl(subjectId, num, difficulty));
      Get(q, "subject") == Some(subjectId) && NumParam(q) == Some(num) && DifficultyParam(q) == difficulty
  {
    QueryOfStartUrl(subjectId, num, difficulty);
    StartQueryReadBack(subjectId, num, difficulty);
  }
}
